=== FILE: README.md ===
# CineAicon rental budgets — a Dafny model of the client-side rules

CineAicon is a web front end for a film-equipment rental business. A
budget (*orçamento*) lists rented materials. Each line item has a quantity,
a number of days, a daily price and an item discount. The budget as a whole
carries a general discount, a status (PENDENTE, CONFIRMADO, DEVOLVIDO,
CANCELADO) and payment dates.

This project models the business rules that the React screens compute in
the browser. It covers:
- the live pricing of the budget form and the different pricing applied when the form is saved;
- the read-only financial breakdown of the detail page;
- editing of the item list: category grouping and the reorder that follows it, moving items, bulk "apply to all", mutually exclusive discounts, removing an item, de-duplication on save, and loading in position order;
- normalisation of date fields;
- the status state machine, selection, search and paging of the budget list;
- the paid-amount report;
- the dashboard's statistics, recent budgets and payments due;
- the monthly payment notifications;
- the inventory quantity cell and the material search;
- category creation;
- the collaborator and extra forms' validators.

Every rule is a pure function over immutable datatypes. Money is `real`,
and calendar dates are integer day numbers counted from 1970-01-01. The
current day, parsing of arbitrary date text, and the responses the screens
receive are all parameters.

The modules follow the program's structure:

| file | module | what it holds |
|---|---|---|
| option.dfy | Options | `Option` |
| text.dfy | Text | whitespace and `trim`, ASCII `toLowerCase`, `includes`, string order by code point (the same as UTF-16 code-unit order inside the Basic Multilingual Plane) |
| numbers.dfy | Numbers | `String(n)`, `parseInt`, `parseFloat` on decimal text with fraction and exponent, `padStart` |
| values.dfy | Values | form and JSON values, `parseNumber`, truthiness, `toFixed(2)` as `Round2` |
| seqs.dfy | Seqs | `filter`, `reduce` sums, `slice` |
| sorting.dfy | Sorting | stable sort by integer key, string sort |
| calendar.dfy | Calendar | civil dates to day numbers, `Date.UTC`, `getDay` |
| catalog.dfy | Catalog | materials and `materiais.find` |
| budgets.dfy | Budgets | a stored budget, its status and payment day |
| pricing.dfy | Pricing | `calculateItemTotal`, `subtotalItens`, `totalComDesconto`, `calculateTotal` |
| saving.dfy | Saving | `onSubmit`'s filtering, de-duplication and save-time pricing |
| lineitems.dfy | LineItems | loading, removing, moving, bulk apply and discount edits |
| grouping.dfy | Grouping | `groupedItems` and the reorder effect |
| dates.dfy | Dates | `formatDateForInput`, `processDate` |
| breakdown.dfy | Breakdown | the detail page's figures |
| budgetlist.dfy | BudgetList | status transitions, selection, search, paging, load order |
| reports.dfy | Reports | the paid-amount report |
| dashboard.dfy | Dashboard | statistics, recent budgets, payments due, days remaining |
| notifications.dfy | Notifications | this month's payments and their flags |
| materials.dfy | Materials | material normalisation, inventory cell, searches |
| categories.dfy | Categories | adding a category to the material form |
| collaborator.dfy | Collaborator | the collaborator form |
| extraform.dfy | ExtraForm | the extra form's validator |

## Model

| member | source | states |
|---|---|---|
| Numbers.ParseInt | src/components/Materiais/MaterialList.js:65 | NaN exactly when no digit follows the optional sign after leading blanks |
| Numbers.IntToStringRoundTrip | src/components/Materiais/MaterialList.js:56-66 | `parseInt` reads back the integer `String` writes |
| Numbers.ParseFloat | src/components/Orcamentos/OrcamentoForm.js:45 | NaN exactly when there is no digit before or after the decimal point; otherwise the signed mantissa scaled by the exponent part |
| Numbers.ScaleUp | src/components/Orcamentos/OrcamentoForm.js:45 | a non-negative exponent multiplies the mantissa by that power of ten |
| Numbers.ScaleDown | src/components/Orcamentos/OrcamentoForm.js:45 | a negative exponent divides the mantissa by that power of ten |
| Numbers.IntToStringParsesAsFloat | src/components/Orcamentos/OrcamentoForm.js:45 | `parseFloat` reads back the integer `String` writes |
| Numbers.ScientificTextParses | src/components/Orcamentos/OrcamentoForm.js:45 | integer text with an exponent, such as `1e3` or `-25e-1`, reads as the integer times ten to that power |
| Numbers.ParseFloatOfEmpty | src/components/Orcamentos/OrcamentoForm.js:45 | empty text is NaN |
| Numbers.IntTextThenParses | src/components/Orcamentos/OrcamentoForm.js:45 | text that begins with an integer's digits and goes on with neither a digit nor a point reads as that integer scaled by the exponent part that follows |
| Values.ParseFloat | src/components/Orcamentos/OrcamentoForm.js:45 | definition: `parseFloat` of a field value, a number read as itself and an absent value as NaN; stated by `Numbers.ParseFloat` for text |
| Values.ParseNumber | src/components/Orcamentos/OrcamentoForm.js:44-47 | definition: the parsed value, or the fallback when parsing gives NaN; stated by `Values.ParseNumberCases` and `Values.ParsedIgnoresFallback` |
| Values.ParseNumberCases | src/components/Orcamentos/OrcamentoForm.js:44-47 | a number is taken as it is; an absent field, empty text and any text without a leading number give the fallback |
| Values.ParsedIgnoresFallback | src/components/Orcamentos/OrcamentoForm.js:44-47 | a value that parses does not depend on the fallback |
| Values.ParseNumberOfIntText | src/components/Orcamentos/OrcamentoForm.js:44-47 | integer text typed into a field reads as that integer whatever the fallback |
| Values.Round2 | src/components/Orcamentos/OrcamentoForm.js:399 | `toFixed(2)` gives whole cents, keeps the sign, and moves an amount by at most half a cent |
| Values.OrZeroIsRedundant | src/components/Orcamentos/OrcamentoForm.js:44-47 | `parseNumber(x \|\| 0, 0)` equals `parseNumber(x, 0)` for every value, so the screens' `\|\| 0` never changes a price |
| Values.Round2Monotone | src/components/Orcamentos/OrcamentoForm.js:399-409 | rounding to cents never reverses the order of two amounts |
| Values.Round2OfCents | src/components/Orcamentos/OrcamentoForm.js:447 | an amount already in whole cents is left unchanged by `toFixed(2)` |
| Values.Round2Idempotent | src/components/Orcamentos/OrcamentoForm.js:447 | rounding twice is the same as rounding once |
| Values.CentsClosed | src/components/Orcamentos/OrcamentoForm.js:442-448 | sums and differences of whole-cent amounts are whole cents |
| Catalog.FindMaterial | src/components/Orcamentos/OrcamentoForm.js:386-388 | the result is the first catalog entry with the id; there is none exactly when no entry has that id |
| Pricing.UnitPrice | src/components/Orcamentos/OrcamentoForm.js:394 | definition: the catalog's daily cost when it is not nullish, else the item's own price, parsed with fallback 0; stated by `Pricing.CatalogPriceWins` and `Pricing.ItemPriceWhenNoCatalogPrice` |
| Pricing.Quantity | src/components/Orcamentos/OrcamentoForm.js:395 | definition: the quantity `\|\| 0`, parsed with fallback 0; stated by `Pricing.UnparsableQuantityIsZero` |
| Pricing.Days | src/components/Orcamentos/OrcamentoForm.js:396 | definition: the days `\|\| 0`, parsed with fallback 0 |
| Pricing.PercentOf | src/components/Orcamentos/OrcamentoForm.js:402 | definition: the item percent `\|\| 0`, parsed with fallback 0 |
| Pricing.FlatOf | src/components/Orcamentos/OrcamentoForm.js:403 | definition: the item flat discount `\|\| 0`, parsed with fallback 0 |
| Pricing.Gross | src/components/Orcamentos/OrcamentoForm.js:399 | definition: quantity times days times unit price, before rounding |
| Pricing.LineSubtotal | src/components/Orcamentos/OrcamentoForm.js:399 | the line subtotal is a whole number of cents |
| Pricing.LineSubtotalMonotoneInQuantity | src/components/Orcamentos/OrcamentoForm.js:394-399 | with the days and the unit price fixed and non-negative, a larger quantity never gives a smaller line subtotal, rounding included |
| Pricing.LineSubtotalNonNegative | src/components/Orcamentos/OrcamentoForm.js:394-399 | non-negative factors give a non-negative subtotal |
| Pricing.Discount | src/components/Orcamentos/OrcamentoForm.js:404-406 | a positive percent gives a whole-cent discount; otherwise the flat amount is the discount |
| Pricing.PercentDiscountValue | src/components/Orcamentos/OrcamentoForm.js:404-406 | a positive percent takes exactly that percentage of the base rounded to the cent, hence within half a cent of `base * percent / 100` |
| Pricing.DiscountWithinBase | src/components/Orcamentos/OrcamentoForm.js:404-406 | a percent of at most 100 on a non-negative whole-cent base takes between zero and the whole base |
| Pricing.Net | src/components/Orcamentos/OrcamentoForm.js:409 | what is left after a discount is never negative and is in whole cents |
| Pricing.NetPercentOverridesFlat | src/components/Orcamentos/OrcamentoForm.js:404-406 | with a positive percent, the flat amount has no effect |
| Pricing.NetAtMostBase | src/components/Orcamentos/OrcamentoForm.js:404-409 | a non-negative discount never raises an amount above its base |
| Pricing.NetFullPercent | src/components/Orcamentos/OrcamentoForm.js:404-409 | a discount of 100 % or more leaves zero |
| Pricing.NetUnderPercent | src/components/Orcamentos/OrcamentoForm.js:404-409 | under a percent above 0 and at most 100, a non-negative whole-cent base keeps the base less its rounded percentage, which is within half a cent of `base * (100 - percent) / 100` |
| Pricing.NetWithoutDiscount | src/components/Orcamentos/OrcamentoForm.js:404-409 | no discount leaves a whole-cent base unchanged |
| Pricing.NetOfZero | src/components/Orcamentos/OrcamentoForm.js:404-409 | a zero base stays zero under any non-negative flat amount |
| Pricing.NetAntitoneInFlat | src/components/Orcamentos/OrcamentoForm.js:404-409 | a larger flat discount never gives a larger amount |
| Pricing.ItemTotal | src/components/Orcamentos/OrcamentoForm.js:390-410 | an item total is never negative and is in whole cents |
| Pricing.CatalogPriceWins | src/components/Orcamentos/OrcamentoForm.js:394 | when the catalog has a price for the material, the item's own price has no effect |
| Pricing.ItemPriceWhenNoCatalogPrice | src/components/Orcamentos/OrcamentoForm.js:394 | without a catalog price, the unit price is the item's own parsed price |
| Pricing.PercentOverridesFlat | src/components/Orcamentos/OrcamentoForm.js:403-406 | with a positive item percent, the item's flat discount has no effect on its total |
| Pricing.UnparsableQuantityIsZero | src/components/Orcamentos/OrcamentoForm.js:395 | a quantity that does not parse counts as 0, and so does the line |
| Pricing.NoDiscountIsSubtotal | src/components/Orcamentos/OrcamentoForm.js:399-409 | with no discount the total is the rounded subtotal |
| Pricing.ItemTotalAtMostSubtotal | src/components/Orcamentos/OrcamentoForm.js:399-409 | a non-negative discount never raises a line above its subtotal |
| Pricing.FullPercentIsZero | src/components/Orcamentos/OrcamentoForm.js:403-409 | a percent of 100 or more makes the line total zero |
| Pricing.ItemTotalUnderPercent | src/components/Orcamentos/OrcamentoForm.js:399-409 | a line with a non-negative subtotal and an item percent above 0 and at most 100 totals its subtotal less the rounded percentage of it |
| Pricing.TotalsAreCents | src/components/Orcamentos/OrcamentoForm.js:442-447 | the sum of the line totals is non-negative and in whole cents |
| Pricing.SubtotalItens | src/components/Orcamentos/OrcamentoForm.js:442-448 | `subtotalItens` is the exact sum of the line totals (rounding it changes nothing) and is zero for no items |
| Pricing.TotalComDesconto | src/components/Orcamentos/OrcamentoForm.js:451-458 | the displayed total is never negative and is in whole cents |
| Pricing.NetUnrounded | src/components/Orcamentos/OrcamentoForm.js:420-422 | the unrounded net is never negative and never above a non-negative base |
| Pricing.NetUnroundedUnderPercent | src/components/Orcamentos/OrcamentoForm.js:418-422 | unrounded, a percent above 0 and at most 100 leaves exactly `base - base * percent / 100`, which is `base * (100 - percent) / 100` |
| Pricing.NetUnroundedFullPercent | src/components/Orcamentos/OrcamentoForm.js:418-422 | unrounded, a percent of 100 or more on a non-negative base leaves zero |
| Pricing.CalculateTotal | src/components/Orcamentos/OrcamentoForm.js:412-424 | the saved budget total is never negative and, with non-negative discounts, never above the sum of the line totals |
| Pricing.GeneralPercentOverridesFlat | src/components/Orcamentos/OrcamentoForm.js:418-420 | with a positive general percent, the general flat amount affects neither the shown nor the saved total |
| Pricing.TotalsUnderPercent | src/components/Orcamentos/OrcamentoForm.js:412-458 | under a general percent above 0 and at most 100, the shown total is the items' subtotal less its rounded percentage, the saved total is the subtotal less the exact percentage, and the two differ by at most half a cent |
| Pricing.TotalsUnderFullPercent | src/components/Orcamentos/OrcamentoForm.js:412-458 | a general percent of 100 or more makes both the shown and the saved total zero |
| Pricing.TwoLineBudget | src/components/Orcamentos/OrcamentoForm.js:390-458 | a camera at 100 a day for 1 unit and 3 days, and 2 lights at 50 a day for 3 days with 10 % off, total 300 and 270, the items 570, and with 5 % off the budget 541.50 shown and saved |
| Pricing.NetFlatNeedsNoRounding | src/components/Orcamentos/OrcamentoForm.js:409 | with no percent, and a base and flat amount in whole cents, rounding changes nothing |
| Pricing.ShownTotalIsSavedTotal | src/components/Orcamentos/OrcamentoForm.js:412-458 | with a flat general discount in whole cents, the total shown equals the total saved |
| Pricing.TotalAntitoneInFlat | src/components/Orcamentos/OrcamentoForm.js:451-458 | a larger general flat discount never gives a larger total |
| Pricing.EmptyBudgetShowsZero | src/components/Orcamentos/OrcamentoForm.js:451-458 | a budget with no items shows a total of zero |
| Pricing.EmptyBudgetSavesZero | src/components/Orcamentos/OrcamentoForm.js:412-424 | a budget with no items saves a final value of zero |
| Saving.HasMaterial | src/components/Orcamentos/OrcamentoForm.js:929-931 | definition: an item is kept for saving exactly when it has a non-empty material id |
| Saving.KeyOf | src/components/Orcamentos/OrcamentoForm.js:940 | definition: the content an item is compared by (material, quantity, days, unit price and both discounts), as raw values where the source compares their rendered text (see "## Left out") |
| Saving.SavedUnitPrice | src/components/Orcamentos/OrcamentoForm.js:959 | definition: the item's own price when it is not nullish, else the catalog's daily cost, parsed with fallback 0; stated by `Saving.ItemPriceWinsOnSave` |
| Saving.FirstOccurrences | src/components/Orcamentos/OrcamentoForm.js:935-948 | keeping first occurrences never lengthens the list |
| Saving.FirstOccurrencesKeys | src/components/Orcamentos/OrcamentoForm.js:935-948 | the kept items carry exactly the content keys of the input |
| Saving.FirstOccurrencesDistinct | src/components/Orcamentos/OrcamentoForm.js:935-948 | no two kept items share a content key |
| Saving.FirstOccurrencesSubseq | src/components/Orcamentos/OrcamentoForm.js:935-948 | every kept item comes from the input |
| Saving.Dedup | src/components/Orcamentos/OrcamentoForm.js:935-948 | the loop with a set of seen keys computes the first occurrences: distinct keys, and every input key kept |
| Saving.ItemsToSave | src/components/Orcamentos/OrcamentoForm.js:929-948 | only items with a material are kept, each comes from the input, every material-bearing item's key survives, and no key repeats |
| Saving.SavedPosition | src/components/Orcamentos/OrcamentoForm.js:978 | `parseInt` of a whole-number position gives back that position |
| Saving.SaveItem | src/components/Orcamentos/OrcamentoForm.js:955-979 | a saved line keeps its material, has a non-negative final value never above its subtotal, a daily cost equal to its unit price, and its stored position or else its index |
| Saving.SaveItems | src/components/Orcamentos/OrcamentoForm.js:955-979 | every kept item is saved at its own index, one-for-one |
| Saving.RequestSubtotal | src/components/Orcamentos/OrcamentoForm.js:981 | the request subtotal of non-negative final values is non-negative |
| Saving.RequestSubtotalAppend | src/components/Orcamentos/OrcamentoForm.js:981 | the request subtotal is additive over a split of the saved list, so it is the sum of the final values |
| Saving.SavedAgreesWithShown | src/components/Orcamentos/OrcamentoForm.js:955-967 | with the same unit price, parseable quantity and days, a whole-cent subtotal and a whole-cent flat discount, the saved final value equals the form's line total |
| Saving.ShownWithoutRounding | src/components/Orcamentos/OrcamentoForm.js:390-410 | with a whole-cent gross amount, no percent discount and a whole-cent flat discount, the value the form shows is the unrounded discounted amount |
| Saving.PricesDisagreeOnPrecedence | src/components/Orcamentos/OrcamentoForm.js:959 | an item priced 12 whose catalog material costs 10 shows 10 on the form but saves 12 |
| Saving.PricesDisagreeOnMissingQuantity | src/components/Orcamentos/OrcamentoForm.js:957 | a missing quantity counts as 0 on the form and as 1 when saved |
| Saving.MissingQuantitySavedAsOne | src/components/Orcamentos/OrcamentoForm.js:957 | an item whose quantity does not parse (absent, empty or not a number) saves exactly as the same item with quantity 1 |
| Saving.MissingDaysSavedAsOne | src/components/Orcamentos/OrcamentoForm.js:958 | an item whose days do not parse saves exactly as the same item with 1 day |
| Saving.ItemPriceWinsOnSave | src/components/Orcamentos/OrcamentoForm.js:959 | once the item carries its own price, the catalog changes neither the saved unit price nor the final value; without one the catalog's daily cost is used |
| Saving.OneUnitSaved | src/components/Orcamentos/OrcamentoForm.js:955-967 | one unit for one day at 5 with no discount saves a final value of 5 |
| LineItems.FromStored | src/components/Orcamentos/OrcamentoForm.js:199-207 | a loaded item keeps its material, quantity and days, takes the daily cost when it has no unit price, keeps the truthiness of its discounts, and gets its stored position or else its index |
| LineItems.LoadItems | src/components/Orcamentos/OrcamentoForm.js:197-207 | the loaded items are the stored ones sorted stably by position, one-for-one |
| LineItems.LoadedPositionsAscend | src/components/Orcamentos/OrcamentoForm.js:198 | when every stored item has a position, the loaded positions ascend |
| LineItems.LoadedDiscountsPresent | src/components/Orcamentos/OrcamentoForm.js:204-205 | every loaded discount field holds a value, never a missing one |
| LineItems.Reindex | src/components/Orcamentos/OrcamentoForm.js:288-301 | the text at the removed row is dropped, texts of lower rows stay, and texts of higher rows move down by one |
| LineItems.RemoveAt | src/components/Orcamentos/OrcamentoForm.js:286 | removing a row shifts every later row down by one and keeps the earlier ones |
| LineItems.RemoveKeepsTextsAligned | src/components/Orcamentos/OrcamentoForm.js:285-302 | a search text that belonged to a row still belongs to the same row after a removal |
| LineItems.BelowFirst | src/components/Orcamentos/OrcamentoForm.js:310-362 | the first item is kept and every later item is transformed |
| LineItems.ApplyDaysToAll | src/components/Orcamentos/OrcamentoForm.js:310-325 | with no items or non-positive days on the first item nothing changes; otherwise every later item takes the first item's days |
| LineItems.ApplyPercentToAll | src/components/Orcamentos/OrcamentoForm.js:327-344 | with no items or a negative first percent nothing changes; otherwise every later item takes the first percent and loses its flat discount |
| LineItems.ApplyFlatToAll | src/components/Orcamentos/OrcamentoForm.js:346-362 | with no items or a negative first flat amount nothing changes; otherwise every later item takes the first flat amount and loses its percent |
| LineItems.PercentCopiedDown | src/components/Orcamentos/OrcamentoForm.js:327-344 | after the copy, every item's percent is the first item's, and every later item has no flat discount |
| LineItems.FlatCopiedDown | src/components/Orcamentos/OrcamentoForm.js:346-362 | after the copy, every item's flat amount is the first item's, and every later item has no percent |
| LineItems.ApplyDaysIdempotent | src/components/Orcamentos/OrcamentoForm.js:310-325 | copying the days down twice is the same as copying them once |
| LineItems.ApplyPercentIdempotent | src/components/Orcamentos/OrcamentoForm.js:327-344 | copying the percent down twice is the same as copying it once |
| LineItems.Renumber | src/components/Orcamentos/OrcamentoForm.js:368-371 | every item's position becomes its index, and nothing else changes |
| LineItems.Swap | src/components/Orcamentos/OrcamentoForm.js:366 | the two items change places and every other item stays |
| LineItems.MoveUp | src/components/Orcamentos/OrcamentoForm.js:364-373 | moving the first item up changes nothing; otherwise the item swaps with the one above and the list is renumbered |
| LineItems.MoveDown | src/components/Orcamentos/OrcamentoForm.js:375-384 | moving the last item down changes nothing; otherwise the item swaps with the one below and the list is renumbered |
| LineItems.MoveUpEffect | src/components/Orcamentos/OrcamentoForm.js:364-373 | a move swaps two neighbours, leaves every other item in place, and makes every position equal to its index |
| LineItems.DownThenUpRestores | src/components/Orcamentos/OrcamentoForm.js:364-384 | moving an item down and then back up restores the order; only the positions are renumbered |
| LineItems.EditPercent | src/components/Orcamentos/OrcamentoForm.js:816-828 | typing a percent sets it on that item alone; a positive one zeroes the item's flat discount |
| LineItems.EditFlat | src/components/Orcamentos/OrcamentoForm.js:858-869 | typing a flat amount sets it on that item alone; a positive one zeroes the item's percent |
| LineItems.EditPercentLeavesSingleDiscount | src/components/Orcamentos/OrcamentoForm.js:816-828 | after typing a percent, at most one kind of discount is positive on the item |
| LineItems.EditFlatLeavesSingleDiscount | src/components/Orcamentos/OrcamentoForm.js:858-869 | after typing a flat amount, at most one kind of discount is positive on the item |
| LineItems.EditGeneralPercent | src/components/Orcamentos/OrcamentoForm.js:1466-1471 | typing any non-empty text into the general percent zeroes the general flat amount |
| LineItems.EditGeneralFlat | src/components/Orcamentos/OrcamentoForm.js:1493-1498 | typing any non-empty text into the general flat amount zeroes the general percent |
| LineItems.EditGeneralFlatDropsPercent | src/components/Orcamentos/OrcamentoForm.js:1493-1498 | after a flat general amount is typed, the total no longer depends on the percent typed before: it is the subtotal less the typed amount with no percent applied, the case `Pricing.GeneralPercentOverridesFlat` leaves open |
| Grouping.Build | src/components/Orcamentos/OrcamentoForm.js:465-474 | definition: the groups built by placing each index in turn under its category; stated by `Grouping.BuildGroups` and `Grouping.BuildWellGrouped` |
| Grouping.CategoryOf | src/components/Orcamentos/OrcamentoForm.js:466-469 | an item's category is never empty; 'Sem categoria' fills in |
| Grouping.Place | src/components/Orcamentos/OrcamentoForm.js:470-473 | adding an index adds at most one group |
| Grouping.GroupedItems | src/components/Orcamentos/OrcamentoForm.js:460-477 | no groups when grouping is off; otherwise group names strictly ascend, each group lists in ascending order exactly the indexes of its category, every category has a group, and the groups list every index once |
| Grouping.BuildGroups | src/components/Orcamentos/OrcamentoForm.js:462-476 | the groups built for a category list are well grouped and cover every index once |
| Grouping.BuildFlatten | src/components/Orcamentos/OrcamentoForm.js:462-476 | the flattened groups hold each index exactly once |
| Grouping.PlaceSorted | src/components/Orcamentos/OrcamentoForm.js:474-476 | adding an index keeps the group names strictly sorted |
| Grouping.PlaceKeeps | src/components/Orcamentos/OrcamentoForm.js:470-473 | groups of other names survive unchanged |
| Grouping.BuildWellGrouped | src/components/Orcamentos/OrcamentoForm.js:462-476 | the built groups are sorted by name, exact, and cover every category |
| Grouping.Reorder | src/components/Orcamentos/OrcamentoForm.js:479-531 | no change when grouping is off, there are no groups or items, or a reorder is running; none for an order of the wrong length, with duplicates, or equal to the last one; none to the items for the identity order; any change rearranges the items by a permutation of their indexes and renumbers them |
| Grouping.DistinctInRangeCoversAll | src/components/Orcamentos/OrcamentoForm.js:494-496 | a duplicate-free order of n indexes below n lists every index |
| Grouping.ReorderOfGroupedIsPermutation | src/components/Orcamentos/OrcamentoForm.js:460-531 | grouping the items as they are and running the effect rearranges them by the groups' permutation |
| Dates.FormatDateForInput | src/components/Orcamentos/OrcamentoForm.js:158-177 | a falsy date gives empty text, ISO day text is kept, a `Date` gives its UTC day, and other text gives the UTC day it parses to or empty text |
| Dates.ProcessDate | src/components/Orcamentos/OrcamentoForm.js:987-1011 | null exactly for a falsy date; a `Date` gives its local day; ISO or unparseable text is kept; other text gives its local day |
| Dates.FormatYmdRoundTrip | src/components/Orcamentos/OrcamentoForm.js:170-175 | the written `YYYY-MM-DD` text of a four-digit date is an ISO day that reads back as the date |
| Dates.FormatDateForInputOfMoment | src/components/Orcamentos/OrcamentoForm.js:158-177 | a loaded `Date` becomes the ISO day of its UTC date, and normalising that text again leaves it alone |
| Dates.ProcessDateOfMoment | src/components/Orcamentos/OrcamentoForm.js:987-1011 | a `Date` from the form is sent as the ISO day of its local date, which is left alone when prepared again |
| Dates.FormatDateForInputIdempotent | src/components/Orcamentos/OrcamentoForm.js:158-177 | normalising the normalised text again changes nothing |
| Materials.PickerOptions | src/components/Orcamentos/OrcamentoForm.js:685-701 | blank input offers nothing; otherwise a material is offered exactly when its equipment or category holds the trimmed, lower-cased input |
| Materials.PickerAgreesWithListSearch | src/components/Orcamentos/OrcamentoForm.js:685-701 | for non-blank input, the picker offers what the material list's search of the trimmed input finds |
| Breakdown.RawTotal | src/components/Orcamentos/OrcamentoDetail.js:179-182 | a truthy stored total is taken; without one, the unit price times the quantity times the days when all three are stored, and 0 when a factor is missing |
| Breakdown.FinalTotal | src/components/Orcamentos/OrcamentoDetail.js:184-186 | as written, a truthy final value is taken and a falsy one (0 included) falls back to the raw total |
| Breakdown.FinalTotalIntended | src/components/Orcamentos/OrcamentoDetail.js:184-186 | corrected: any stored final value, 0 included, is taken |
| Breakdown.GeneralDiscount | src/components/Orcamentos/OrcamentoDetail.js:190-199 | a positive percent applies to the base; else a positive flat amount; else nothing |
| Breakdown.Compose | src/components/Orcamentos/OrcamentoDetail.js:201-209 | the final total is never negative and every figure is in whole cents |
| Breakdown.Breakdown | src/components/Orcamentos/OrcamentoDetail.js:167-211 | with no budget or no `itens` field all five figures are zero, and the final total is never negative (an empty `itens` list still takes a general flat discount) |
| Breakdown.BreakdownIntended | src/components/Orcamentos/OrcamentoDetail.js:167-211 | the same for the corrected final value |
| Breakdown.BreakdownFromFinals | src/components/Orcamentos/OrcamentoDetail.js:179-209 | subtotal minus item discounts is the sum of the items' final values |
| Breakdown.BreakdownIntendedFromFinals | src/components/Orcamentos/OrcamentoDetail.js:179-209 | the same for the corrected breakdown |
| Breakdown.StoredFinalsDecideTotal | src/components/Orcamentos/OrcamentoDetail.js:179-209 | when every item has a stored final value, the corrected breakdown's base is their sum |
| Breakdown.FullDiscountIgnored | src/components/Orcamentos/OrcamentoDetail.js:184-188 | as written, an item of 100 discounted in full counts no discount and a total of 100; corrected, a discount of 100 and a total of 0 |
| Budgets.StatusOf | src/components/Orcamentos/OrcamentoList.js:203-208 | a text is an unknown status exactly when it is none of the four names |
| Budgets.StatusNameRoundTrip | src/components/Orcamentos/OrcamentoList.js:203-208 | a status is the status its stored text names |
| Budgets.PaymentDay | src/components/Dashboard/Dashboard.js:144 | the payment date, falling back to the due date when there is none |
| BudgetList.Transitions | src/components/Orcamentos/OrcamentoList.js:203-209 | definition: the statuses the dialog offers for each status, none for an unknown one |
| BudgetList.TransitionsAreLifecycle | src/components/Orcamentos/OrcamentoList.js:203-208 | the table offers exactly the lifecycle moves, never the same status; DEVOLVIDO offers nothing, and only CONFIRMADO leads to it |
| BudgetList.StatusOptions | src/components/Orcamentos/OrcamentoList.js:209 | no target offers nothing; otherwise exactly the allowed moves of its status |
| BudgetList.ConfirmStatusChange | src/components/Orcamentos/OrcamentoList.js:158-161 | a request is made exactly when there is a target and a chosen status, and it carries them |
| BudgetList.ChosenOptionIsAllowed | src/components/Orcamentos/OrcamentoList.js:158-209 | a status picked from the options yields a request for an allowed move |
| BudgetList.IndexOf | src/components/Orcamentos/OrcamentoList.js:274 | -1 exactly when absent; otherwise the first position of the id |
| BudgetList.SelectOne | src/components/Orcamentos/OrcamentoList.js:273-291 | an unselected id is appended; a selected one is cut out at its first position |
| BudgetList.SelectOneToggles | src/components/Orcamentos/OrcamentoList.js:273-291 | toggling flips the id's membership alone and keeps the selection free of duplicates |
| BudgetList.RemoveAtFacts | src/components/Orcamentos/OrcamentoList.js:283-288 | removing one position of a duplicate-free list removes exactly that id |
| BudgetList.SelectOneTwice | src/components/Orcamentos/OrcamentoList.js:273-291 | toggling twice restores the selected ids, and the very same list when the id was unselected |
| BudgetList.PageOf | src/components/Orcamentos/OrcamentoList.js:315 | the page holds every filtered row from the page's first offset on, up to a page's worth, each at its offset; a page past the end is empty |
| BudgetList.SelectAll | src/components/Orcamentos/OrcamentoList.js:262-271 | checked selects exactly the page's ids; unchecked selects nothing |
| BudgetList.IsAllSelected | src/components/Orcamentos/OrcamentoList.js:315-319 | definition: the page has rows and the count of its selected ids equals its length; stated by `BudgetList.IsAllSelectedIff` |
| BudgetList.IsAllSelectedIff | src/components/Orcamentos/OrcamentoList.js:316-319 | the count comparison holds exactly when the page has rows and each of its ids is selected |
| BudgetList.SelectAllThenAllSelected | src/components/Orcamentos/OrcamentoList.js:262-319 | after select-all the header box shows all selected exactly when it was checked and the page has rows |
| BudgetList.MatchesTerm | src/components/Orcamentos/OrcamentoList.js:250-254 | definition: the lower-cased job name or client name contains the term |
| BudgetList.Search | src/components/Orcamentos/OrcamentoList.js:242-260 | the term is lower-cased, paging and selection reset, an empty term keeps every budget, and otherwise a budget is kept exactly when its job name or client name contains the term |
| BudgetList.EmptySearchIsFilter | src/components/Orcamentos/OrcamentoList.js:246-256 | every budget matches the empty term, so the shortcut gives what the filter would |
| BudgetList.LoadOrder | src/components/Orcamentos/OrcamentoList.js:92-94 | the list is a permutation sorted newest first; budgets created at the same instant keep the server's order |
| Reports.PaidOf | src/components/Relatorios/RelatoriosPage.js:50 | definition: the paid amount when truthy, else 0 |
| Reports.FinalOf | src/components/Relatorios/RelatoriosPage.js:51 | definition: the final value when truthy, else 0 |
| Reports.UpdateSummary | src/components/Relatorios/RelatoriosPage.js:49-57 | the count is the list's length, and an empty list gives a zero summary |
| Reports.UpdateSummaryAppend | src/components/Relatorios/RelatoriosPage.js:49-57 | the summary of two lists together adds up their summaries |
| Reports.PaymentStatusFor | src/components/Relatorios/RelatoriosPage.js:124 | PAGO exactly when the paid amount reaches the final value; PARCIAL exactly when it is positive and below it; PENDENTE exactly when it is not positive and below it |
| Reports.ParsePaid | src/components/Relatorios/RelatoriosPage.js:118 | text without a leading number gives 0; otherwise the parsed number, which `\|\| 0` never changes |
| Reports.ParsePaidOfIntText | src/components/Relatorios/RelatoriosPage.js:118 | a whole number typed as the paid amount is read as that number |
| Reports.PaymentRequest | src/components/Relatorios/RelatoriosPage.js:121-125 | definition: the budget id, the parsed paid amount and its payment status; stated by `Reports.SavedStatusIsSent` |
| Reports.SavePaid | src/components/Relatorios/RelatoriosPage.js:128-132 | only budgets with the saved id change, taking the parsed paid amount and its status |
| Reports.SavedStatusIsSent | src/components/Relatorios/RelatoriosPage.js:121-132 | the status kept locally is the one sent to the server |
| Reports.SavePaidSummary | src/components/Relatorios/RelatoriosPage.js:118-133 | with unique ids, saving moves the paid total by the difference and leaves the count and final total |
| Reports.FetchReport | src/components/Relatorios/RelatoriosPage.js:59-83 | no month asks for nothing; a month asks for CONFIRMADO and DEVOLVIDO budgets |
| Reports.ReportWithoutMonth | src/components/Relatorios/RelatoriosPage.js:59-64 | no month gives an empty list and a zero summary |
| Reports.ReportRangeIsMonth | src/components/Relatorios/RelatoriosPage.js:71-73 | the range runs from midnight UTC of the month's first day to the last millisecond of its last day |
| Reports.InReportRange | src/components/Relatorios/RelatoriosPage.js:71-73 | an instant lies in the range exactly when it falls on a day of that month |
| Calendar.FullYear | src/components/Relatorios/RelatoriosPage.js:72 | definition: a year from 0 to 99 reads as 1900 to 1999, any other year as itself |
| Calendar.MonthStartDay | src/components/Relatorios/RelatoriosPage.js:72 | a month index from 0 to 11 gives day 1 of that month; index 12 gives 1 January of the next year and index -1 gives 1 December of the year before |
| Calendar.WeekStart | src/components/Dashboard/Dashboard.js:104-108 | the start of the week is a Sunday at most six days before the day |
| Calendar.YearLength | src/components/Relatorios/RelatoriosPage.js:72 | a year has 366 days exactly when it is a leap year |
| Calendar.LastDayOfMonth | src/components/Relatorios/RelatoriosPage.js:72 | day 0 of the next month is the last day of this month |
| Dashboard.CountStatus | src/components/Dashboard/Dashboard.js:89-91 | the count is the length of the list filtered to budgets with that status, and so never exceeds the list |
| Dashboard.ShownValue | src/components/Dashboard/Dashboard.js:92-95 | the discounted total if truthy, else the final value if truthy, else the total or 0 |
| Dashboard.ComputeStats | src/components/Dashboard/Dashboard.js:87-96 | the API's total and status counts are taken when present, otherwise the list's length and counts; the value total sums the shown values |
| Dashboard.CountsWithinList | src/components/Dashboard/Dashboard.js:89-91 | the three counts taken from the list add up to at most its length |
| Dashboard.LocalStats | src/components/Dashboard/Dashboard.js:87-96 | without API figures, the total is the list's length and the counts add up to at most it |
| Dashboard.ValorTotalNonNegative | src/components/Dashboard/Dashboard.js:92-95 | non-negative shown values give a non-negative value total |
| Dashboard.WeekContainsToday | src/components/Dashboard/Dashboard.js:104-112 | the week runs from a Sunday to a Saturday and contains today |
| Dashboard.EndsThisWeek | src/components/Dashboard/Dashboard.js:116-123 | definition: an end date between this week's Sunday and Saturday |
| Dashboard.RecentBudgets | src/components/Dashboard/Dashboard.js:115-130 | the first min(10, n) of the n budgets ending this week, each from the list, newest created first; all of them when n is at most 10, and none left out was created later than one shown |
| Dashboard.RecentShowsAllFew | src/components/Dashboard/Dashboard.js:115-130 | when at most 10 budgets end this week, all of them are shown |
| Dashboard.DueCompareIsByDate | src/components/Dashboard/Dashboard.js:154-174 | the overdue-first comparator orders exactly as the payment dates do |
| Dashboard.FallsDue | src/components/Dashboard/Dashboard.js:140-153 | definition: not cancelled or returned, with a payment date no later than 60 days ahead |
| Dashboard.DueCompare | src/components/Dashboard/Dashboard.js:154-174 | definition: overdue dates first, then by date; stated by `Dashboard.DueCompareIsByDate` |
| Dashboard.DuePayments | src/components/Dashboard/Dashboard.js:139-175 | the first min(15, n) of the n open budgets with a payment date at most 60 days ahead, each from the list, in ascending payment date; all of them when n is at most 15, and none left out falls due before one shown |
| Dashboard.OverdueFirst | src/components/Dashboard/Dashboard.js:154-174 | every payment listed before an overdue one is overdue as well |
| Dashboard.DaysRemaining | src/components/Dashboard/Dashboard.js:277 | the days remaining is the ceiling of the time left in days |
| Dashboard.DaysRemainingOfDays | src/components/Dashboard/Dashboard.js:276-277 | between two midnights the days remaining is the day difference |
| Dashboard.Overdue | src/components/Dashboard/Dashboard.js:278 | definition: fewer than 0 days remain |
| Dashboard.Soon | src/components/Dashboard/Dashboard.js:279 | definition: from 0 to 7 days remain |
| Dashboard.OverdueAndSoonExclusive | src/components/Dashboard/Dashboard.js:278-279 | overdue and soon never hold together, and one of them holds exactly when at most 7 days remain |
| Notifications.PaymentsThisMonth | src/components/Layout/PaymentNotifications.js:53-73 | a budget is listed exactly when it is open and its payment day falls this month; the list holds every copy of each such budget and nothing else, and ascends by payment day |
| Notifications.MonthStart | src/components/Layout/PaymentNotifications.js:43-44 | definition: day 1 of the month, with years 0 to 99 read as 1900 onwards |
| Notifications.MonthEnd | src/components/Layout/PaymentNotifications.js:46-47 | definition: day 0 of the next month, the month's last day |
| Notifications.DueThisMonth | src/components/Layout/PaymentNotifications.js:55-66 | definition: not cancelled or returned, with a payment date inside the month |
| Notifications.MonthWindow | src/components/Layout/PaymentNotifications.js:43-47 | the window runs from the first to the last day of the civil month |
| Notifications.DueThisMonthIsCalendarMonth | src/components/Layout/PaymentNotifications.js:53-67 | a budget is due this month exactly when it is open and its payment day is a day of that month |
| Notifications.FlagsOf | src/components/Layout/PaymentNotifications.js:165-166 | overdue and due-today never hold together, and neither holds exactly when the date is later than today |
| Notifications.FlagsOfDays | src/components/Layout/PaymentNotifications.js:165-166 | at midnights, due-today means the same day and overdue an earlier one |
| Materials.Normalize | src/components/Materiais/MaterialList.js:110-114 | an empty or missing category becomes null, a missing quantity becomes 0, and every other field is kept |
| Materials.NormalizeIdempotent | src/components/Materiais/MaterialList.js:110-114 | a normalised material is left alone by normalising again |
| Materials.QuantityOf | src/components/Materiais/MaterialList.js:65 | a positive integer that parses is taken; anything else gives 0 |
| Materials.QuantityOfNumber | src/components/Materiais/MaterialList.js:65 | the text of a number reads back as that number clamped at 0 |
| Materials.ShowQuantity | src/components/Materiais/MaterialList.js:56-62 | the cell starts clean and shows `String(value)` as stored, unclamped; the quantity it reads back as is the value clamped at 0 |
| Materials.Type | src/components/Materiais/MaterialList.js:75-78 | typing shows the text and marks the cell edited |
| Materials.Blur | src/components/Materiais/MaterialList.js:63-69 | leaving an unedited cell does nothing; leaving an edited one cleans it, and a save of the parsed quantity is asked exactly when it differs from the stored one |
| Materials.BlurSettles | src/components/Materiais/MaterialList.js:63-69 | leaving the cell a second time asks for nothing, and the text left behind is `String` of the quantity read |
| Materials.RetypingSavesNothing | src/components/Materiais/MaterialList.js:63-69 | typing the stored quantity back asks for no save |
| Materials.SaveQuantity | src/components/Materiais/MaterialList.js:151-156 | only materials with the id change, to the quantity clamped at 0 |
| Materials.MatchesSearch | src/components/Materiais/MaterialList.js:284-287 | definition: the lower-cased category or equipment, when present, contains the term |
| Materials.ListSearch | src/components/Materiais/MaterialList.js:284-287 | a material is listed exactly when its category or equipment holds the lower-cased term |
| Materials.EmptyListSearch | src/components/Materiais/MaterialList.js:284-287 | with an empty term the list keeps only materials with a category or equipment |
| Materials.InventorySearch | src/components/Materiais/MaterialList.js:289-293 | an empty term keeps every material; any other term searches as the list does |
| Categories.SaveNewCategory | src/components/Materiais/MaterialForm.js:93-120 | a blank name only sets an error; otherwise the error clears, success is shown, the dialog closes and the input empties; a known name keeps the list; a new name gives the sorted list with it added and selects it |
| Categories.SavedNameListed | src/components/Materiais/MaterialForm.js:106-109 | after saving, the trimmed name is listed and every other listed name was listed before |
| Categories.SaveAgainKeepsList | src/components/Materiais/MaterialForm.js:106-109 | saving the same name again keeps the list and the selected category |
| Collaborator.DefaultAtivo | src/components/Colaboradores/ColaboradorForm.js:63 | an undefined flag becomes true; a defined one is kept |
| Collaborator.Load | src/components/Colaboradores/ColaboradorForm.js:56-64 | each text field is its stored text or empty; the active flag is the stored one when defined and true otherwise |
| Collaborator.ToSave | src/components/Colaboradores/ColaboradorForm.js:122-126 | the saved record is the form with its active flag kept when defined and true otherwise |
| Collaborator.LoadedAtivoIsSaved | src/components/Colaboradores/ColaboradorForm.js:63-126 | a loaded record is saved as it was loaded |
| Collaborator.Put | src/components/Colaboradores/ColaboradorForm.js:78-81 | the named field takes the value and every other field stays |
| Collaborator.ChangeText | src/components/Colaboradores/ColaboradorForm.js:76-86 | only the named field changes, and only its error is cleared |
| Collaborator.ChangeAtivo | src/components/Colaboradores/ColaboradorForm.js:77-81 | the checkbox sets the active flag and nothing else |
| Collaborator.ChangeKeepsOtherErrors | src/components/Colaboradores/ColaboradorForm.js:83-85 | an edit never shows or hides another field's error |
| Collaborator.FirstAt | src/components/Colaboradores/ColaboradorForm.js:97 | the position of the first '@', or -1 when there is none |
| Collaborator.EmailPatternIff | src/components/Colaboradores/ColaboradorForm.js:97 | the e-mail pattern holds exactly when the text has no blank, its first '@' is not at the start and has no '@' after it, and a later '.' has text on both sides |
| Collaborator.Validate | src/components/Colaboradores/ColaboradorForm.js:88-111 | name, phone and position are required; the e-mail is required and must match the pattern; address and CPF are never checked |
| Collaborator.ValidIff | src/components/Colaboradores/ColaboradorForm.js:88-111 | the form is valid exactly when name, phone and position are not blank and the e-mail matches the pattern |
| Collaborator.ShapedEmailNotBlank | src/components/Colaboradores/ColaboradorForm.js:95-99 | an e-mail of the right shape is never blank |
| ExtraForm.Validate | src/components/Extras/ExtraForm.js:88-106 | category and equipment are required; a negative daily cost or stock is an error, and zero is not |
| ExtraForm.ValidIff | src/components/Extras/ExtraForm.js:107-108 | the form is valid exactly when both names are filled and neither number is negative |
| ExtraForm.EmptyFormNeedsNames | src/components/Extras/ExtraForm.js:88-108 | a fresh form with zeros reports only the two names |

## Left out

- React rendering, hooks and refs are not modelled. Neither are the `requestAnimationFrame` and `setTimeout` timing, the re-render trigger, or the reorder flag's reset after 200 ms. `Grouping.Reorder` takes the reorder flag as a plain boolean and never clears it.
- HTTP calls, the service layer and PDF downloads are not modelled. A server response is a parameter, and saving or status updates are modelled only as the request record they would send.
- IEEE-754 arithmetic is not modelled. Money is an exact `real`, and `toFixed(2)` is rounding half away from zero on exact reals. Binary rounding effects are out of scope.
- `localeCompare` and `Intl` formatting are not modelled. Category names are sorted by code point, which agrees with the UTF-16 code-unit order of `Array.prototype.sort` without a comparator inside the Basic Multilingual Plane, as for the category list of the material form, but the item groups of the budget form are sorted with `localeCompare(…, 'pt-BR')`: there an accented name such as "Áudio" or a lower-case name is placed differently by the model (after "Z") than by the source.
- Categories.SaveNewCategory: the sorted category list orders names by code point. `Array.prototype.sort` compares UTF-16 code units, where a character outside the Basic Multilingual Plane is a surrogate pair from 0xD800 to 0xDFFF. So a name holding such a character, such as an emoji, sorts before a name holding a character from 0xE000 to 0xFFFF, such as "！" (U+FF01), in the source and after it in the model.
- Numbers.IntToStringRoundTrip and Numbers.IntToStringParsesAsFloat: are stated for every integer, with `String(n)` as plain decimal digits. JavaScript's `String` writes a number of magnitude 1e21 or more in exponent form, and integers above 2^53 are not exact doubles, so the source agrees with these lemmas only below those magnitudes.
- `toLowerCase` is modelled for ASCII letters only; Unicode case mapping is not modelled.
- Dates and time zones are only partly modelled:
  - `new Date(text)` for arbitrary text is the parameter `parse`, and the zone is whatever the UTC and local readings of the instant say.
  - Daylight-saving shifts are left out.
  - The current day is a parameter.
- Dashboard.RecentBudgets: a budget with no creation date is placed at the epoch. In JavaScript the comparator there sees `new Date(0)`, which agrees.
- BudgetList.LoadOrder: a budget with neither `createdAt` nor `dataCriacao` is placed at the epoch. JavaScript would compare an invalid date (NaN), which leaves such rows in an order the engine chooses.
- Reports.FetchReport: takes the month field already split into year and month numbers. A malformed month text is not modelled.
- Reports.ReportRangeIsMonth, Reports.InReportRange, Notifications.MonthWindow and Notifications.DueThisMonthIsCalendarMonth require a year of at least 100. `Date.UTC` and the `Date` constructor read years 0 to 99 as 1900 onwards; `Calendar.FullYear` models that, but the lemmas state the month window only for the other years.
- Notifications.FlagsOf: takes the payment instant and today's midnight in milliseconds. The source builds the payment date with `new Date` and no `setHours`, so a payment time after midnight is neither overdue nor due today. `Notifications.FlagsOfDays` states the flags for payment dates at midnight.
- Dashboard.ComputeStats: the API's status counts are an `Option` per status. The `|| {}` for a missing summary is modelled as every count absent.
- BudgetList.ConfirmStatusChange: does not check that the chosen status is one of the offered options, because the source does not check it either. `BudgetList.ChosenOptionIsAllowed` states what holds when the choice comes from the options.
- Saving.FirstOccurrences: compares items by their content fields as a tuple. The source compares a text key joined with '-', where two different items can collide (see Saving.KeyOf below). The key also renders `null` and `undefined` differently, while the model has a single absent value for both, so two items that differ only in that way count as duplicates here and not in the source.
- Saving.KeyOf: compares the raw field values, not their rendered text. In the source the key is a template string, so the number `2` of a loaded line and the text `"2"` typed into another line render alike and the two lines are saved once; the model keeps `Num(2.0)` and `Str("2")` apart and saves both. Lines loaded from a stored budget carry numbers and lines edited on the form carry text, so this is a likely way for identical lines to meet. Modelling it needs JavaScript's number-to-text rendering of reals, which the model does not have.
- LineItems.FromStored: a stored position of `null` is read as no position, as is an absent one. The source keeps `null`, because it checks only for `undefined`.
- Saving.SaveItem: a position of `null` is saved as the item's index. The source passes it to `parseInt`, which gives NaN; this case is not modelled.
- Numbers.ParseFloat: the text `Infinity`, with or without a sign, gives NaN (`None`) here, since reals have no infinity. The overflow of a large exponent to `Infinity` and the underflow of a small one to 0 are not modelled.
- ExtraForm.Validate: takes the number fields after JavaScript's `Number()` coercion, with `None` for NaN or an empty field. The text form of the input is not modelled.
- Collaborator.Validate: the `ativo` checkbox is never validated, and errors for it are never recorded, as in the source.
- String-typed numbers in stored budgets are not modelled: the detail page's fields are numbers or absent.
- `getGroupTotal` (the per-group subtotal shown in the group header) is not modelled; it sums the same line totals as `subtotalItens`.

## Findings

| source | as written | input that shows it | evidently intended | confidence | as-written member | corrected member |
|---|---|---|---|---|---|---|
| src/components/Orcamentos/OrcamentoDetail.js:184-186 | `item.valorFinal \|\| valorTotalItem` treats a stored final value of 0 as missing and falls back to the undiscounted total | one item of total 100 with `valorFinal` 0 (100 % discount): the detail page shows an item discount of 0 and a final total of 100 | a stored final value of 0 is taken as it is: an item discount of 100 and a final total of 0 | not executed | Breakdown.FullDiscountIgnored | Breakdown.BreakdownIntendedFromFinals |

=== FILE: breakdown.dfy ===
/**
 The financial breakdown of the budget detail page (OrcamentoDetail.js:167-211):
 subtotal, item discounts, general discount, total discount and final total,
 each shown rounded to cents.

 The stored figures are JSON numbers; a missing or `null` one is `None`.
 */
module Breakdown {
  import opened Options
  import opened Values
  import opened Seqs

  /** The stored figures of one line item. */
  datatype DetailItem = DetailItem(
    valorTotal: Option<real>,
    valorUnitario: Option<real>,
    quantidade: Option<real>,
    dias: Option<real>,
    valorFinal: Option<real>)

  /** The part of a stored budget the breakdown reads. */
  datatype DetailBudget = DetailBudget(
    itens: Option<seq<DetailItem>>,
    descontoGeral: Option<real>,
    descontoValorGeral: Option<real>)

  datatype Figures = Figures(
    subtotal: real,
    descontoItens: real,
    descontoGeral: real,
    descontoTotal: real,
    totalFinal: real)

  /** `item.valorTotal || item.valorUnitario * item.quantidade * item.dias || 0`:
      a missing factor makes the product NaN or 0, both falsy. */
  function RawTotal(item: DetailItem): (r: real)
    ensures Given(item.valorTotal) ==> r == item.valorTotal.value
    ensures !Given(item.valorTotal) && (item.valorUnitario.None? || item.quantidade.None? || item.dias.None?) ==> r == 0.0
    ensures !Given(item.valorTotal) && item.valorUnitario.Some? && item.quantidade.Some? && item.dias.Some? ==>
              r == item.valorUnitario.value * item.quantidade.value * item.dias.value
  {
    if Given(item.valorTotal) then item.valorTotal.value
    else if item.valorUnitario.Some? && item.quantidade.Some? && item.dias.Some? then
      item.valorUnitario.value * item.quantidade.value * item.dias.value
    else 0.0
  }

  /** `item.valorFinal || valorTotalItem`, as written: a `valorFinal` of 0
      counts as missing. */
  function FinalTotal(item: DetailItem): (r: real)
    ensures Given(item.valorFinal) ==> r == item.valorFinal.value
    ensures !Given(item.valorFinal) ==> r == RawTotal(item)
  {
    if Given(item.valorFinal) then item.valorFinal.value else RawTotal(item)
  }

  /** `item.valorFinal ?? valorTotalItem`: a stored `valorFinal`, 0 included,
      is the item's value after its discount. */
  function FinalTotalIntended(item: DetailItem): (r: real)
    ensures item.valorFinal.Some? ==> r == item.valorFinal.value
    ensures item.valorFinal.None? ==> r == RawTotal(item)
  {
    if item.valorFinal.Some? then item.valorFinal.value else RawTotal(item)
  }

  function ItemDiscount(item: DetailItem): real {
    RawTotal(item) - FinalTotal(item)
  }

  function ItemDiscountIntended(item: DetailItem): real {
    RawTotal(item) - FinalTotalIntended(item)
  }

  /** The general discount: a positive percent applies to `base`, the
      subtotal after the item discounts; otherwise a positive flat amount;
      otherwise nothing. */
  function GeneralDiscount(base: real, pct: Option<real>, flat: Option<real>): (r: real)
    ensures pct.Some? && pct.value > 0.0 ==> r == base * pct.value / 100.0
    ensures !(pct.Some? && pct.value > 0.0) && flat.Some? && flat.value > 0.0 ==> r == flat.value
    ensures !(pct.Some? && pct.value > 0.0) && !(flat.Some? && flat.value > 0.0) ==> r == 0.0
  {
    if Given(pct) && pct.value > 0.0 then base * pct.value / 100.0
    else if Given(flat) && flat.value > 0.0 then flat.value
    else 0.0
  }

  /** The five figures from the unrounded subtotal and item discounts. */
  function Compose(subtotal: real, itemDiscounts: real, b: DetailBudget): (r: Figures)
    ensures r.totalFinal >= 0.0
    ensures IsCents(r.subtotal) && IsCents(r.descontoItens) && IsCents(r.descontoGeral) &&
            IsCents(r.descontoTotal) && IsCents(r.totalFinal)
  {
    var general := GeneralDiscount(subtotal - itemDiscounts, b.descontoGeral, b.descontoValorGeral);
    var total := itemDiscounts + general;
    Figures(Round2(subtotal), Round2(itemDiscounts), Round2(general), Round2(total),
            Round2(Max(subtotal - total, 0.0)))
  }

  function Zero(): Figures {
    Figures(0.0, 0.0, 0.0, 0.0, 0.0)
  }

  /** The breakdown as the detail page computes it. */
  function Breakdown(b: Option<DetailBudget>): (r: Figures)
    ensures b.None? || b.value.itens.None? ==> r == Zero()
    ensures r.totalFinal >= 0.0
  {
    if b.None? || b.value.itens.None? then Zero()
    else
      var items := b.value.itens.value;
      Compose(SumBy(items, RawTotal), SumBy(items, ItemDiscount), b.value)
  }

  /** The breakdown with a stored `valorFinal` of 0 taken at its value. */
  function BreakdownIntended(b: Option<DetailBudget>): (r: Figures)
    ensures b.None? || b.value.itens.None? ==> r == Zero()
    ensures r.totalFinal >= 0.0
  {
    if b.None? || b.value.itens.None? then Zero()
    else
      var items := b.value.itens.value;
      Compose(SumBy(items, RawTotal), SumBy(items, ItemDiscountIntended), b.value)
  }

  /** The subtotal minus the item discounts is the sum of the items' final
      values, so the percent discount and the final total are taken from
      that sum. */
  lemma BreakdownFromFinals(b: DetailBudget)
    requires b.itens.Some?
    ensures var items := b.itens.value;
            var finals := SumBy(items, FinalTotal);
            var general := GeneralDiscount(finals, b.descontoGeral, b.descontoValorGeral);
            var r := Breakdown(Some(b));
            r.descontoGeral == Round2(general) &&
            r.totalFinal == Round2(Max(finals - general, 0.0)) &&
            r.descontoTotal == Round2(SumBy(items, ItemDiscount) + general)
  {
    SumByDifference(b.itens.value, RawTotal, FinalTotal, ItemDiscount);
  }

  /** The same for the corrected breakdown. */
  lemma BreakdownIntendedFromFinals(b: DetailBudget)
    requires b.itens.Some?
    ensures var items := b.itens.value;
            var finals := SumBy(items, FinalTotalIntended);
            var general := GeneralDiscount(finals, b.descontoGeral, b.descontoValorGeral);
            var r := BreakdownIntended(Some(b));
            r.descontoGeral == Round2(general) &&
            r.totalFinal == Round2(Max(finals - general, 0.0)) &&
            r.descontoTotal == Round2(SumBy(items, ItemDiscountIntended) + general)
  {
    SumByDifference(b.itens.value, RawTotal, FinalTotalIntended, ItemDiscountIntended);
  }

  /** When every item has its final value stored, the corrected breakdown's
      total is the stored final values less the general discount. */
  lemma StoredFinalsDecideTotal(b: DetailBudget)
    requires b.itens.Some?
    requires forall i :: 0 <= i < |b.itens.value| ==> b.itens.value[i].valorFinal.Some?
    ensures var items := b.itens.value;
            var finals := SumBy(items, (it: DetailItem) => it.valorFinal.GetOr(0.0));
            BreakdownIntended(Some(b)).totalFinal ==
              Round2(Max(finals - GeneralDiscount(finals, b.descontoGeral, b.descontoValorGeral), 0.0))
  {
    BreakdownIntendedFromFinals(b);
    SumByCongruent(b.itens.value, FinalTotalIntended, (it: DetailItem) => it.valorFinal.GetOr(0.0));
  }

  /** A budget of one item of 100 discounted in full (`valorFinal` 0). */
  function FullyDiscounted(): DetailBudget {
    DetailBudget(Some([DetailItem(Some(100.0), None, None, None, Some(0.0))]), None, None)
  }

  /** As written, the fully discounted item counts no discount and the
      budget shows 100 to pay; corrected, it shows a discount of 100 and
      nothing to pay. */
  lemma FullDiscountIgnored()
    ensures Breakdown(Some(FullyDiscounted())).descontoItens == 0.0
    ensures Breakdown(Some(FullyDiscounted())).totalFinal == 100.0
    ensures BreakdownIntended(Some(FullyDiscounted())).descontoItens == 100.0
    ensures BreakdownIntended(Some(FullyDiscounted())).totalFinal == 0.0
  {
    var b := FullyDiscounted();
    var items := b.itens.value;
    assert SumBy(items, RawTotal) == 100.0;
    assert SumBy(items, ItemDiscount) == 0.0;
    assert SumBy(items, ItemDiscountIntended) == 100.0;
    assert IsCents(100.0) by {
      assert 100.0 * 100.0 == 10000 as real;
    }
    Round2OfCents(100.0);
    Round2OfCents(0.0);
  }
}

=== FILE: budgetlist.dfy ===
/**
 The budget list screen (OrcamentoList.js): the status state machine offered
 in the status dialog, the row selection, the search box, the current page
 and the order the list is loaded in.
 */
module BudgetList {
  import opened Options
  import opened Text
  import opened Seqs
  import opened Sorting
  import opened Budgets

  /** `statusTransitions[status] || []`: the statuses the dialog offers. */
  function Transitions(s: Status): seq<Status> {
    match s
    case Pendente => [Confirmado, Cancelado]
    case Confirmado => [Devolvido, Cancelado]
    case Devolvido => []
    case Cancelado => [Pendente]
    case OtherStatus(_) => []
  }

  /** The budget lifecycle: a pending budget is confirmed or cancelled, a
      confirmed one is returned or cancelled, a cancelled one may be
      reopened, and a returned one is final. */
  predicate Allowed(from: Status, to: Status) {
    match from
    case Pendente => to == Confirmado || to == Cancelado
    case Confirmado => to == Devolvido || to == Cancelado
    case Cancelado => to == Pendente
    case _ => false
  }

  /** The table offers exactly the lifecycle's moves, never the same
      status, and nothing leaves a returned budget. */
  lemma TransitionsAreLifecycle(from: Status, to: Status)
    ensures to in Transitions(from) <==> Allowed(from, to)
    ensures to in Transitions(from) ==> to != from
    ensures Transitions(Devolvido) == []
    ensures Allowed(from, Devolvido) <==> from == Confirmado
  {
  }

  /** The budget whose status is being changed: its id and current status. */
  datatype Target = Target(id: string, status: Status)

  /** `opcoesStatus`: nothing without a target. */
  function StatusOptions(target: Option<Target>): (r: seq<Status>)
    ensures target.None? ==> r == []
    ensures target.Some? ==> forall to :: to in r <==> Allowed(target.value.status, to)
  {
    if target.None? then []
    else
      var t := target.value;
      forall to ensures to in Transitions(t.status) <==> Allowed(t.status, to) {
        TransitionsAreLifecycle(t.status, to);
      }
      Transitions(t.status)
  }

  /** The status-update request `confirmStatusChange` sends. */
  datatype StatusUpdate = StatusUpdate(id: string, status: string)

  /** `confirmStatusChange`: no request without a target or a chosen status. */
  function ConfirmStatusChange(target: Option<Target>, newStatus: string): (r: Option<StatusUpdate>)
    ensures r.Some? <==> target.Some? && newStatus != ""
    ensures r.Some? ==> r.value.id == target.value.id && r.value.status == newStatus
  {
    if target.None? || newStatus == "" then None
    else Some(StatusUpdate(target.value.id, newStatus))
  }

  /** A status picked from the dialog's options is a lifecycle move of the
      target's current status. */
  lemma ChosenOptionIsAllowed(target: Option<Target>, choice: Status)
    requires choice in StatusOptions(target)
    requires NameOf(choice) != ""
    ensures var r := ConfirmStatusChange(target, NameOf(choice));
            r.Some? && Allowed(target.value.status, StatusOf(r.value.status))
  {
    assert choice.OtherStatus? == false by {
      TransitionsAreLifecycle(target.value.status, choice);
    }
  }

  /** No id twice. */
  predicate NoDup(s: seq<string>) {
    forall i, j :: 0 <= i < j < |s| ==> s[i] != s[j]
  }

  /** `s.indexOf(x)` */
  function IndexOf(s: seq<string>, x: string): (r: int)
    ensures -1 <= r < |s|
    ensures r == -1 <==> x !in s
    ensures r >= 0 ==> s[r] == x && forall k :: 0 <= k < r ==> s[k] != x
  {
    if |s| == 0 then -1
    else if s[0] == x then 0
    else
      var k := IndexOf(s[1..], x);
      if k == -1 then -1 else k + 1
  }

  /** `handleSelectOne`: appends an unselected id, removes a selected one
      (the first, the last or one in the middle). */
  function SelectOne(selected: seq<string>, id: string): (r: seq<string>)
    ensures id !in selected ==> r == selected + [id]
    ensures id in selected ==> r == selected[..IndexOf(selected, id)] + selected[IndexOf(selected, id) + 1..]
  {
    var i := IndexOf(selected, id);
    if i == -1 then selected + [id]
    else if i == 0 then selected[1..]
    else if i == |selected| - 1 then selected[..|selected| - 1]
    else selected[..i] + selected[i + 1..]
  }

  /** Toggling flips the membership of `id` alone and keeps the selection
      free of duplicates. */
  lemma SelectOneToggles(selected: seq<string>, id: string)
    requires NoDup(selected)
    ensures var r := SelectOne(selected, id);
            (id in r <==> id !in selected) &&
            (forall y :: y != id ==> (y in r <==> y in selected)) &&
            NoDup(r)
  {
    if id in selected {
      var i := IndexOf(selected, id);
      RemoveAtFacts(selected, i);
    }
  }

  /** Removing position `i` from a list without duplicates removes exactly
      the value there. */
  lemma RemoveAtFacts(s: seq<string>, i: nat)
    requires NoDup(s) && i < |s|
    ensures var r := s[..i] + s[i + 1..];
            s[i] !in r && NoDup(r) && forall y :: y != s[i] ==> (y in r <==> y in s)
  {
    var r := s[..i] + s[i + 1..];
    assert forall k :: 0 <= k < i ==> r[k] == s[k];
    assert forall k :: i <= k < |r| ==> r[k] == s[k + 1];
    forall y | y != s[i] && y in s ensures y in r {
      var k :| 0 <= k < |s| && s[k] == y;
      if k < i {
        assert r[k] == y;
      } else {
        assert r[k - 1] == y;
      }
    }
  }

  /** Toggling the same id twice gives back the same selected ids; when the
      id was not selected, the very same list. */
  lemma SelectOneTwice(selected: seq<string>, id: string)
    requires NoDup(selected)
    ensures forall y :: y in SelectOne(SelectOne(selected, id), id) <==> y in selected
    ensures id !in selected ==> SelectOne(SelectOne(selected, id), id) == selected
  {
    SelectOneToggles(selected, id);
    SelectOneToggles(SelectOne(selected, id), id);
    if id !in selected {
      var once := selected + [id];
      assert IndexOf(once, id) == |selected|;
      assert once[..|selected|] == selected;
    }
  }

  /** `filteredOrcamentos.slice(page * rowsPerPage, page * rowsPerPage + rowsPerPage)` */
  function PageOf(filtered: seq<Budget>, page: nat, rowsPerPage: nat): (r: seq<Budget>)
    ensures |r| <= rowsPerPage
    ensures |r| == if page * rowsPerPage >= |filtered| then 0 else Min(rowsPerPage, |filtered| - page * rowsPerPage)
    ensures forall i :: 0 <= i < |r| ==> page * rowsPerPage + i < |filtered| && r[i] == filtered[page * rowsPerPage + i]
  {
    Slice(filtered, page * rowsPerPage, page * rowsPerPage + rowsPerPage)
  }

  function IdsOf(bs: seq<Budget>): (r: seq<string>)
    ensures |r| == |bs| && forall i :: 0 <= i < |bs| ==> r[i] == bs[i].id
  {
    seq(|bs|, i requires 0 <= i < |bs| => bs[i].id)
  }

  /** `handleSelectAll`: the page's ids when checked, nothing otherwise. */
  function SelectAll(checked: bool, filtered: seq<Budget>, page: nat, rowsPerPage: nat): (r: seq<string>)
    ensures checked ==> r == IdsOf(PageOf(filtered, page, rowsPerPage))
    ensures !checked ==> r == []
  {
    if checked then IdsOf(PageOf(filtered, page, rowsPerPage)) else []
  }

  /** `isAllSelected`: the page is not empty and each of its ids is selected. */
  predicate IsAllSelected(filtered: seq<Budget>, page: nat, rowsPerPage: nat, selected: seq<string>) {
    var ids := IdsOf(PageOf(filtered, page, rowsPerPage));
    |ids| > 0 && |Filter(ids, (id: string) => id in selected)| == |ids|
  }

  /** The count comparison in `isAllSelected` means every id of the page
      is selected. */
  lemma IsAllSelectedIff(filtered: seq<Budget>, page: nat, rowsPerPage: nat, selected: seq<string>)
    ensures var ids := IdsOf(PageOf(filtered, page, rowsPerPage));
            IsAllSelected(filtered, page, rowsPerPage, selected) <==>
              |ids| > 0 && forall i :: 0 <= i < |ids| ==> ids[i] in selected
  {
    var ids := IdsOf(PageOf(filtered, page, rowsPerPage));
    FilterKeepsAllIff(ids, (id: string) => id in selected);
  }

  /** Checking the header box makes the page all selected exactly when the
      page has rows; unchecking never does. */
  lemma SelectAllThenAllSelected(checked: bool, filtered: seq<Budget>, page: nat, rowsPerPage: nat)
    ensures IsAllSelected(filtered, page, rowsPerPage, SelectAll(checked, filtered, page, rowsPerPage)) <==>
              checked && |PageOf(filtered, page, rowsPerPage)| > 0
  {
    IsAllSelectedIff(filtered, page, rowsPerPage, SelectAll(checked, filtered, page, rowsPerPage));
  }

  /** `orcamento.clienteNome || orcamento.clienteId?.nome || ''` */
  function ClientName(b: Budget): string {
    if b.clienteNome.Some? && b.clienteNome.value != "" then b.clienteNome.value
    else if b.clienteRefNome.Some? && b.clienteRefNome.value != "" then b.clienteRefNome.value
    else ""
  }

  /** The search predicate: the lower-cased job name or client name holds
      the term. */
  predicate MatchesTerm(b: Budget, term: string) {
    (b.jobName.Some? && Contains(Lower(b.jobName.value), term)) || Contains(Lower(ClientName(b)), term)
  }

  /** The list screen's state. */
  datatype ListView = ListView(
    all: seq<Budget>,
    filtered: seq<Budget>,
    searchTerm: string,
    page: nat,
    rowsPerPage: nat,
    selected: seq<string>)

  /** `handleSearch` with the text typed in the search box. */
  function Search(v: ListView, typed: string): (r: ListView)
    ensures r.all == v.all && r.rowsPerPage == v.rowsPerPage
    ensures r.page == 0 && r.selected == []
    ensures r.searchTerm == Lower(typed)
    ensures typed == "" ==> r.filtered == v.all
    ensures typed != "" ==> forall b :: b in r.filtered <==> b in v.all && MatchesTerm(b, Lower(typed))
    ensures multiset(r.filtered) <= multiset(v.all)
  {
    var term := Lower(typed);
    var filtered := if term == "" then v.all else Filter(v.all, (b: Budget) => MatchesTerm(b, term));
    ListView(v.all, filtered, term, 0, v.rowsPerPage, [])
  }

  /** Every budget matches the empty term, so the shortcut for an empty
      search gives what the filter would. */
  lemma EmptySearchIsFilter(bs: seq<Budget>)
    ensures Filter(bs, (b: Budget) => MatchesTerm(b, "")) == bs
  {
    forall i | 0 <= i < |bs| ensures MatchesTerm(bs[i], "") {
      EveryStringContainsEmpty(Lower(ClientName(bs[i])));
    }
    FilterKeepsAllIff(bs, (b: Budget) => MatchesTerm(b, ""));
  }

  /** `new Date(b.createdAt || b.dataCriacao)`; a budget with neither is
      placed at the epoch. */
  function CreatedAt(b: Budget): int {
    if b.createdAt.Some? then b.createdAt.value
    else if b.dataCriacao.Some? then b.dataCriacao.value
    else 0
  }

  function NewestFirstKey(b: Budget): int {
    -CreatedAt(b)
  }

  /** `loadOrcamentos`: newest first; budgets created at the same instant
      keep the order the server sent. */
  function LoadOrder(bs: seq<Budget>): (r: seq<Budget>)
    ensures multiset(r) == multiset(bs)
    ensures forall i, j :: 0 <= i < j < |r| ==> CreatedAt(r[i]) >= CreatedAt(r[j])
    ensures forall k :: WithKey(r, NewestFirstKey, k) == WithKey(bs, NewestFirstKey, k)
  {
    SortByKey(bs, NewestFirstKey)
  }
}

=== FILE: budgets.dfy ===
/**
 A stored budget as the list, report, dashboard and notification screens
 read it. Money is a JSON number (`None` when missing or `null`); calendar
 dates are day numbers (days since 1970-01-01); creation times are instants
 in milliseconds.
 */
module Budgets {
  import opened Options

  /** The status of a budget; stored text outside the four known names is
      kept as `OtherStatus`. */
  datatype Status = Pendente | Confirmado | Devolvido | Cancelado | OtherStatus(name: string)

  /** `statusPagamento`: 'PAGO', 'PARCIAL' or 'PENDENTE'. */
  datatype PaymentStatus = Pago | Parcial | PagamentoPendente

  const KnownNames: seq<string> := ["PENDENTE", "CONFIRMADO", "DEVOLVIDO", "CANCELADO"]

  /** The text stored for a status. */
  function NameOf(s: Status): string {
    match s
    case Pendente => "PENDENTE"
    case Confirmado => "CONFIRMADO"
    case Devolvido => "DEVOLVIDO"
    case Cancelado => "CANCELADO"
    case OtherStatus(name) => name
  }

  /** The status a stored text names. */
  function StatusOf(name: string): (r: Status)
    ensures r.OtherStatus? <==> name !in KnownNames
  {
    if name == "PENDENTE" then Pendente
    else if name == "CONFIRMADO" then Confirmado
    else if name == "DEVOLVIDO" then Devolvido
    else if name == "CANCELADO" then Cancelado
    else OtherStatus(name)
  }

  /** A status is what its stored text says. */
  lemma StatusNameRoundTrip(s: Status)
    requires s.OtherStatus? ==> s.name !in KnownNames
    ensures StatusOf(NameOf(s)) == s
  {
  }

  datatype Budget = Budget(
    id: string,
    jobName: Option<string>,
    clienteNome: Option<string>,
    /** `clienteId?.nome`, the name of the referenced client. */
    clienteRefNome: Option<string>,
    status: Status,
    createdAt: Option<int>,
    dataCriacao: Option<int>,
    dataFim: Option<int>,
    dataPagamento: Option<int>,
    dataVencimento: Option<int>,
    valorTotal: Option<real>,
    valorFinal: Option<real>,
    valorTotalComDesconto: Option<real>,
    valorPago: Option<real>,
    statusPagamento: Option<PaymentStatus>)

  /** `o.dataPagamento || o.dataVencimento`: the payment date, falling back
      to the older due-date field. */
  function PaymentDay(b: Budget): (r: Option<int>)
    ensures b.dataPagamento.Some? ==> r == b.dataPagamento
    ensures b.dataPagamento.None? ==> r == b.dataVencimento
  {
    if b.dataPagamento.Some? then b.dataPagamento else b.dataVencimento
  }

  /** The payment day as a sort key; budgets without one are never sorted
      by it. */
  function DueDay(b: Budget): int {
    PaymentDay(b).GetOr(0)
  }

  /** Budgets that are cancelled or returned have no payment to follow. */
  predicate Closed(b: Budget) {
    b.status == Cancelado || b.status == Devolvido
  }
}

=== FILE: calendar.dfy ===
/**
 Civil dates of the proleptic Gregorian calendar as day numbers counted from
 1970-01-01, the epoch JavaScript's `Date.UTC` uses. A calendar day is one
 integer; an instant is a whole number of milliseconds.
 */
module Calendar {

  const MsPerDay: int := 86400000

  predicate IsLeap(y: int) {
    y % 4 == 0 && (y % 100 != 0 || y % 400 == 0)
  }

  function DaysInMonth(y: int, m: int): (r: int)
    requires 1 <= m <= 12
    ensures 28 <= r <= 31
    ensures m == 2 ==> (r == 29 <==> IsLeap(y))
  {
    if m == 2 then (if IsLeap(y) then 29 else 28)
    else if m == 4 || m == 6 || m == 9 || m == 11 then 30
    else 31
  }

  predicate ValidDate(y: int, m: int, d: int) {
    1 <= m <= 12 && 1 <= d <= DaysInMonth(y, m)
  }

  /** Days of year `y` before the first of month `m`. */
  function DaysBeforeMonth(y: int, m: int): int
    requires 1 <= m <= 12
  {
    [0, 31, 59, 90, 120, 151, 181, 212, 243, 273, 304, 334][m - 1] + (if m > 2 && IsLeap(y) then 1 else 0)
  }

  /** Consecutive months follow each other without gap or overlap. */
  lemma MonthLength(y: int, m: int)
    requires 1 <= m < 12
    ensures DaysBeforeMonth(y, m + 1) == DaysBeforeMonth(y, m) + DaysInMonth(y, m)
  {
  }

  /** Leap years strictly before `y`, counted from an arbitrary origin. */
  function LeapsBefore(y: int): int {
    (y - 1) / 4 - (y - 1) / 100 + (y - 1) / 400
  }

  function DaysBeforeYear(y: int): int {
    365 * (y - 1970) + LeapsBefore(y) - LeapsBefore(1970)
  }

  /** The day number of the civil date `y`-`m`-`d`. */
  function DayNumber(y: int, m: int, d: int): int
    requires 1 <= m <= 12
  {
    DaysBeforeYear(y) + DaysBeforeMonth(y, m) + d - 1
  }

  lemma EpochIsDayZero()
    ensures DayNumber(1970, 1, 1) == 0
  {
  }

  lemma StepDiv4(y: int)
    ensures y / 4 - (y - 1) / 4 == if y % 4 == 0 then 1 else 0
  {
  }

  lemma StepDiv100(y: int)
    ensures y / 100 - (y - 1) / 100 == if y % 100 == 0 then 1 else 0
  {
  }

  lemma StepDiv400(y: int)
    ensures y / 400 - (y - 1) / 400 == if y % 400 == 0 then 1 else 0
  {
  }

  lemma Mod400IsMod100(y: int)
    requires y % 400 == 0
    ensures y % 100 == 0
  {
    assert y == 100 * (4 * (y / 400));
  }

  lemma Mod100IsMod4(y: int)
    requires y % 100 == 0
    ensures y % 4 == 0
  {
    assert y == 4 * (25 * (y / 100));
  }

  /** The leap days before `y + 1` exceed those before `y` by one exactly
      when `y` is a leap year. */
  lemma LeapStep(y: int)
    ensures LeapsBefore(y + 1) - LeapsBefore(y) == if IsLeap(y) then 1 else 0
  {
    StepDiv4(y);
    StepDiv100(y);
    StepDiv400(y);
    var a := y / 4 - (y - 1) / 4;
    var b := y / 100 - (y - 1) / 100;
    var c := y / 400 - (y - 1) / 400;
    assert LeapsBefore(y + 1) - LeapsBefore(y) == a - b + c;
    if y % 400 == 0 {
      Mod400IsMod100(y);
      Mod100IsMod4(y);
    } else if y % 100 == 0 {
      Mod100IsMod4(y);
    }
  }

  /** A year has 366 days exactly when it is a leap year. */
  lemma YearLength(y: int)
    ensures DaysBeforeYear(y + 1) - DaysBeforeYear(y) == if IsLeap(y) then 366 else 365
  {
    LeapStep(y);
  }

  /** `Date.UTC` and the local `Date` constructor read a year from 0 to 99
      as 1900 to 1999. */
  function FullYear(y: int): int {
    if 0 <= y <= 99 then 1900 + y else y
  }

  /** `Date.UTC(y, m0, 1)` as a day number, for any month index `m0`
      (zero-based; out-of-range indices roll into neighbouring years). */
  function MonthStartDay(y: int, m0: int): (r: int)
    ensures 0 <= m0 < 12 ==> r == DayNumber(y, m0 + 1, 1)
    ensures m0 == 12 ==> r == DayNumber(y + 1, 1, 1)
    ensures m0 == -1 ==> r == DayNumber(y - 1, 12, 1)
  {
    DayNumber(y + m0 / 12, m0 % 12 + 1, 1)
  }

  /** The day before the first of the next month is the last day of month
      `m`; this is what `Date.UTC(y, m, 0)` relies on. */
  lemma LastDayOfMonth(y: int, m: int)
    requires 1 <= m <= 12
    ensures MonthStartDay(y, m) - 1 == DayNumber(y, m, DaysInMonth(y, m))
  {
    if m == 12 {
      assert MonthStartDay(y, 12) == DayNumber(y + 1, 1, 1);
      YearLength(y);
    } else {
      MonthLength(y, m);
    }
  }

  /** `getDay()`: 0 is Sunday. Day 0 (1970-01-01) was a Thursday. */
  function Weekday(day: int): (r: int)
    ensures 0 <= r < 7
  {
    (day + 4) % 7
  }

  /** The Sunday that starts the week containing `day`. */
  function WeekStart(day: int): (r: int)
    ensures Weekday(r) == 0
    ensures r <= day < r + 7
  {
    day - Weekday(day)
  }
}

=== FILE: catalog.dfy ===
/**
 The equipment catalog: materials as the budget form and the inventory
 screen receive them, and the lookup by id the form uses to price items.
 */
module Catalog {
  import opened Options
  import opened Values

  /** A catalog material. `categoria` and `equipamento` are `None` when the
      document has no such field; `custoDiario` is the daily rental price. */
  datatype Material = Material(
    id: string,
    categoria: Option<string>,
    equipamento: Option<string>,
    custoDiario: Raw,
    quantidadeInventario: Option<int>)

  /** No material before index `i` has the id `id`. */
  predicate FirstWithId(catalog: seq<Material>, id: string, i: int) {
    forall j :: 0 <= j < i && j < |catalog| ==> catalog[j].id != id
  }

  /** `materiais.find(m => m._id === materialId)` */
  function FindMaterial(catalog: seq<Material>, id: string): (r: Option<Material>)
    ensures r.Some? ==> r.value in catalog && r.value.id == id
    ensures r.None? <==> forall i :: 0 <= i < |catalog| ==> catalog[i].id != id
    ensures r.Some? ==> exists i :: 0 <= i < |catalog| && catalog[i] == r.value && FirstWithId(catalog, id, i)
  {
    if |catalog| == 0 then None
    else if catalog[0].id == id then Some(catalog[0])
    else
      var rest := FindMaterial(catalog[1..], id);
      assert forall i :: 1 <= i < |catalog| ==> catalog[i] == catalog[1..][i - 1];
      if rest.Some? then
        var k :| 0 <= k < |catalog[1..]| && catalog[1..][k] == rest.value && FirstWithId(catalog[1..], id, k);
        assert catalog[k + 1] == rest.value && FirstWithId(catalog, id, k + 1);
        rest
      else rest
  }

  /** The material's daily price, absent when the material is not in the
      catalog: `material?.custoDiario`. */
  function CatalogPrice(catalog: seq<Material>, id: string): Raw {
    match FindMaterial(catalog, id)
    case Some(m) => m.custoDiario
    case None => Missing
  }
}

=== FILE: categories.dfy ===
/**
 The "new category" dialog of the material form (MaterialForm.js): a typed
 category name is trimmed and, when it is new, added to the local list,
 which is then sorted, and chosen for the material.
 */
module Categories {
  import opened Options
  import opened Text
  import opened Sorting

  /** The two messages the dialog can raise. */
  datatype Notice = NameRequired | CategoryAdded

  datatype Form = Form(
    categorias: seq<string>,
    novaCategoria: string,
    dialogOpen: bool,
    /** The form's `categoria` field. */
    categoria: string,
    error: Option<Notice>,
    success: Option<Notice>)

  /** `handleSalvarNovaCategoria`. */
  function SaveNewCategory(f: Form): (r: Form)
    ensures AllSpace(f.novaCategoria) ==> r == f.(error := Some(NameRequired))
    ensures !AllSpace(f.novaCategoria) ==>
              r.error.None? && r.success == Some(CategoryAdded) && !r.dialogOpen && r.novaCategoria == ""
    ensures !AllSpace(f.novaCategoria) && Trim(f.novaCategoria) in f.categorias ==>
              r.categorias == f.categorias && r.categoria == f.categoria
    ensures !AllSpace(f.novaCategoria) && Trim(f.novaCategoria) !in f.categorias ==>
              r.categoria == Trim(f.novaCategoria) &&
              multiset(r.categorias) == multiset(f.categorias) + multiset{Trim(f.novaCategoria)} &&
              SortedStrings(r.categorias)
  {
    BlankIffAllSpace(f.novaCategoria);
    var name := Trim(f.novaCategoria);
    if name == "" then f.(error := Some(NameRequired))
    else
      var added := if name !in f.categorias
        then f.(categorias := SortStrings(f.categorias + [name]), categoria := name)
        else f;
      added.(error := None, dialogOpen := false, novaCategoria := "", success := Some(CategoryAdded))
  }

  /** After a successful save the list holds exactly the names it held and
      the new one. */
  lemma SavedNameListed(f: Form, x: string)
    requires !AllSpace(f.novaCategoria)
    ensures var r := SaveNewCategory(f);
            Trim(f.novaCategoria) in r.categorias &&
            (x in r.categorias <==> x in f.categorias || x == Trim(f.novaCategoria))
  {
    var r := SaveNewCategory(f);
    var name := Trim(f.novaCategoria);
    if name !in f.categorias {
      MultisetMembership(r.categorias, f.categorias, name, x);
    }
  }

  /** Membership in a list whose elements are another list's and one more. */
  lemma MultisetMembership(r: seq<string>, s: seq<string>, y: string, x: string)
    requires multiset(r) == multiset(s) + multiset{y}
    ensures y in r && (x in r <==> x in s || x == y)
  {
    assert y in multiset(r);
    assert x in r <==> x in multiset(r);
    assert x in s <==> x in multiset(s);
  }

  /** Adding a name the list already holds, again, changes no category. */
  lemma SaveAgainKeepsList(f: Form, typed: string)
    requires !AllSpace(f.novaCategoria)
    requires Trim(typed) == Trim(f.novaCategoria)
    ensures var once := SaveNewCategory(f);
            var twice := SaveNewCategory(once.(novaCategoria := typed, dialogOpen := true));
            twice.categorias == once.categorias && twice.categoria == once.categoria
  {
    SavedNameListed(f, Trim(f.novaCategoria));
    BlankIffAllSpace(typed);
    BlankIffAllSpace(f.novaCategoria);
  }
}

=== FILE: collaborator.dfy ===
/**
 The collaborator form (ColaboradorForm.js): filling it from a stored
 record, the `ativo` default, editing a field, and the validation run before
 saving.
 */
module Collaborator {
  import opened Options
  import opened Text

  /** The `ativo` value as JSON holds it: absent, `null` or a boolean. */
  datatype Flag = Undefined | Null | Set(on: bool)

  /** A stored collaborator; text fields are `None` when missing or `null`. */
  datatype Stored = Stored(
    nome: Option<string>, email: Option<string>, telefone: Option<string>,
    cargo: Option<string>, endereco: Option<string>, cpf: Option<string>,
    ativo: Flag)

  /** The form's data. */
  datatype Data = Data(
    nome: string, email: string, telefone: string,
    cargo: string, endereco: string, cpf: string,
    ativo: Flag)

  /** The text fields of the form. */
  datatype Field = Nome | Email | Telefone | Cargo | Endereco | Cpf

  /** The error text of a field: a message, or `''` once the field is
      edited. */
  datatype Message = Required | InvalidEmail | Cleared

  /** `x !== undefined ? x : true` */
  function DefaultAtivo(x: Flag): (r: Flag)
    ensures r != Undefined
    ensures x == Undefined ==> r == Set(true)
    ensures x != Undefined ==> r == x
  {
    if x == Undefined then Set(true) else x
  }

  function TextOf(x: Option<string>): string {
    x.GetOr("")
  }

  /** The empty form. */
  const Empty: Data := Data("", "", "", "", "", "", Set(true))

  /** `loadColaborador`: missing text becomes empty, a missing `ativo`
      becomes true. */
  function Load(s: Stored): (r: Data)
    ensures r.nome == TextOf(s.nome) && r.email == TextOf(s.email) && r.telefone == TextOf(s.telefone)
    ensures r.cargo == TextOf(s.cargo) && r.endereco == TextOf(s.endereco) && r.cpf == TextOf(s.cpf)
    ensures r.ativo != Undefined && (s.ativo != Undefined ==> r.ativo == s.ativo)
    ensures s.ativo == Undefined ==> r.ativo == Set(true)
  {
    Data(TextOf(s.nome), TextOf(s.email), TextOf(s.telefone), TextOf(s.cargo), TextOf(s.endereco), TextOf(s.cpf),
         DefaultAtivo(s.ativo))
  }

  /** `dataToSave`: the form's data with `ativo` defaulted again. */
  function ToSave(d: Data): (r: Data)
    ensures r == d.(ativo := DefaultAtivo(d.ativo))
    ensures r.ativo != Undefined
    ensures d.ativo == Undefined ==> r.ativo == Set(true)
  {
    d.(ativo := DefaultAtivo(d.ativo))
  }

  /** A loaded record is sent back with the `ativo` it was loaded with. */
  lemma LoadedAtivoIsSaved(s: Stored)
    ensures ToSave(Load(s)) == Load(s)
  {
  }

  function Get(d: Data, f: Field): string {
    match f
    case Nome => d.nome
    case Email => d.email
    case Telefone => d.telefone
    case Cargo => d.cargo
    case Endereco => d.endereco
    case Cpf => d.cpf
  }

  function Put(d: Data, f: Field, v: string): (r: Data)
    ensures Get(r, f) == v && r.ativo == d.ativo
    ensures forall g :: g != f ==> Get(r, g) == Get(d, g)
  {
    match f
    case Nome => d.(nome := v)
    case Email => d.(email := v)
    case Telefone => d.(telefone := v)
    case Cargo => d.(cargo := v)
    case Endereco => d.(endereco := v)
    case Cpf => d.(cpf := v)
  }

  /** The form: its data and the error of each field. */
  datatype Form = Form(data: Data, errors: map<Field, Message>)

  /** A field's error is shown when it holds a message (`''` is falsy). */
  predicate Shown(errors: map<Field, Message>, f: Field) {
    f in errors && errors[f] != Cleared
  }

  /** `handleChange` for a text field. */
  function ChangeText(form: Form, f: Field, v: string): (r: Form)
    ensures Get(r.data, f) == v && r.data.ativo == form.data.ativo
    ensures forall g :: g != f ==> Get(r.data, g) == Get(form.data, g)
    ensures !Shown(r.errors, f)
    ensures Shown(form.errors, f) ==> r.errors == form.errors[f := Cleared]
    ensures !Shown(form.errors, f) ==> r.errors == form.errors
  {
    Form(Put(form.data, f, v), if Shown(form.errors, f) then form.errors[f := Cleared] else form.errors)
  }

  /** `handleChange` for the `ativo` checkbox; no error is ever recorded
      for it. */
  function ChangeAtivo(form: Form, checked: bool): (r: Form)
    ensures r.data == form.data.(ativo := Set(checked)) && r.errors == form.errors
  {
    Form(form.data.(ativo := Set(checked)), form.errors)
  }

  /** Editing one field hides no other field's error. */
  lemma ChangeKeepsOtherErrors(form: Form, f: Field, v: string, g: Field)
    requires g != f
    ensures Shown(ChangeText(form, f, v).errors, g) <==> Shown(form.errors, g)
  {
  }

  /** A character the email pattern's `[^\s@]` accepts. */
  predicate Plain(c: char) {
    !IsSpace(c) && c != '@'
  }

  predicate PlainRun(s: string) {
    |s| > 0 && forall k :: 0 <= k < |s| ==> Plain(s[k])
  }

  /** `/^[^\s@]+@[^\s@]+\.[^\s@]+$/`: a plain run, '@', a plain run, '.',
      and a plain run. */
  predicate EmailPattern(s: string) {
    exists i, j | 0 <= i < j < |s| ::
      s[i] == '@' && s[j] == '.' && PlainRun(s[..i]) && PlainRun(s[i + 1..j]) && PlainRun(s[j + 1..])
  }

  /** The position of the first '@', or -1. */
  function FirstAt(s: string): (r: int)
    ensures -1 <= r < |s|
    ensures r >= 0 ==> s[r] == '@'
    ensures forall k :: 0 <= k < |s| && (r == -1 || k < r) ==> s[k] != '@'
  {
    if |s| == 0 then -1
    else if s[0] == '@' then 0
    else
      var k := FirstAt(s[1..]);
      if k == -1 then -1 else k + 1
  }

  /** The same shape said plainly: no white space, one '@' that is not
      first, and after it a '.' that is neither the first nor the last
      character of the domain. */
  predicate EmailShape(s: string) {
    var at := FirstAt(s);
    at > 0 &&
    (forall k :: 0 <= k < |s| ==> !IsSpace(s[k])) &&
    (forall k :: at < k < |s| ==> s[k] != '@') &&
    exists j | at + 1 < j < |s| - 1 :: s[j] == '.'
  }

  lemma PatternIsShape(s: string)
    requires EmailPattern(s)
    ensures EmailShape(s)
  {
    var i, j :| 0 <= i < j < |s| &&
      s[i] == '@' && s[j] == '.' && PlainRun(s[..i]) && PlainRun(s[i + 1..j]) && PlainRun(s[j + 1..]);
    forall k | 0 <= k < |s| && k != i && k != j ensures Plain(s[k]) {
      if k < i {
        assert s[k] == s[..i][k];
      } else if k < j {
        assert s[k] == s[i + 1..j][k - i - 1];
      } else {
        assert s[k] == s[j + 1..][k - j - 1];
      }
    }
    FirstAtIs(s, i);
  }

  /** An '@' with none before it is the first. */
  lemma FirstAtIs(s: string, i: nat)
    requires i < |s| && s[i] == '@'
    requires forall k :: 0 <= k < i ==> s[k] != '@'
    ensures FirstAt(s) == i
  {
  }

  lemma ShapeIsPattern(s: string)
    requires EmailShape(s)
    ensures EmailPattern(s)
  {
    var i := FirstAt(s);
    var j :| i + 1 < j < |s| - 1 && s[j] == '.';
    assert PlainRun(s[..i]);
    assert PlainRun(s[i + 1..j]);
    assert PlainRun(s[j + 1..]);
  }

  /** The pattern holds exactly for the plain description of an address. */
  lemma EmailPatternIff(s: string)
    ensures EmailPattern(s) <==> EmailShape(s)
  {
    if EmailPattern(s) {
      PatternIsShape(s);
    }
    if EmailShape(s) {
      ShapeIsPattern(s);
    }
  }

  /** `!value?.trim()` */
  predicate Blank(v: string) {
    AllSpace(v)
  }

  /** `validate`: the errors recorded for the data. */
  function Validate(d: Data): (r: map<Field, Message>)
    ensures Nome in r <==> Blank(d.nome)
    ensures Telefone in r <==> Blank(d.telefone)
    ensures Cargo in r <==> Blank(d.cargo)
    ensures Email in r <==> Blank(d.email) || !EmailPattern(d.email)
    ensures forall f :: f in r && f != Email ==> r[f] == Required
    ensures Email in r ==> r[Email] == (if Blank(d.email) then Required else InvalidEmail)
    ensures Endereco !in r && Cpf !in r
  {
    var e1: map<Field, Message> := if Blank(d.nome) then map[Nome := Required] else map[];
    var e2 := if Blank(d.email) then e1[Email := Required]
              else if !EmailPattern(d.email) then e1[Email := InvalidEmail]
              else e1;
    var e3 := if Blank(d.telefone) then e2[Telefone := Required] else e2;
    if Blank(d.cargo) then e3[Cargo := Required] else e3
  }

  /** `Object.keys(newErrors).length === 0` */
  predicate Valid(d: Data) {
    |Validate(d)| == 0
  }

  /** The form is valid exactly when name, phone and role are filled in and
      the email has the shape of an address; address and CPF never matter. */
  lemma ValidIff(d: Data)
    ensures Valid(d) <==>
              !Blank(d.nome) && !Blank(d.telefone) && !Blank(d.cargo) && EmailShape(d.email)
  {
    EmailPatternIff(d.email);
    var r := Validate(d);
    if !Valid(d) {
      assert |r| != 0;
      var f :| f in r;
    }
    if EmailShape(d.email) {
      ShapedEmailNotBlank(d.email);
    }
  }

  /** An email with the shape of an address is never blank. */
  lemma ShapedEmailNotBlank(s: string)
    requires EmailShape(s)
    ensures !Blank(s)
  {
    assert !IsSpace(s[FirstAt(s)]);
  }
}

=== FILE: dashboard.dfy ===
/**
 The dashboard (Dashboard.js): the headline statistics, the budgets ending
 in the current week, the payments falling due, and how many days remain
 for each. "Today" is a parameter: the day number of the local date.
 */
module Dashboard {
  import opened Options
  import opened Values
  import opened Seqs
  import opened Sorting
  import opened Calendar
  import opened Budgets

  /** `summary.statusCounts` as the server may send it. */
  datatype StatusCounts = StatusCounts(pendente: Option<int>, confirmado: Option<int>, devolvido: Option<int>)

  datatype Stats = Stats(
    totalOrcamentos: int,
    orcamentosPendentes: int,
    orcamentosConfirmados: int,
    orcamentosDevolvidos: int,
    valorTotal: real)

  /** `orcamentos.filter(o => o.status === s).length` */
  function CountStatus(bs: seq<Budget>, s: Status): (r: nat)
    ensures r == |Filter(bs, (b: Budget) => b.status == s)|
    ensures r <= |bs|
  {
    if |bs| == 0 then 0 else (if bs[0].status == s then 1 else 0) + CountStatus(bs[1..], s)
  }

  /** `o.valorTotalComDesconto || o.valorFinal || o.valorTotal || 0` */
  function ShownValue(b: Budget): (r: real)
    ensures Given(b.valorTotalComDesconto) ==> r == b.valorTotalComDesconto.value
    ensures !Given(b.valorTotalComDesconto) && Given(b.valorFinal) ==> r == b.valorFinal.value
    ensures !Given(b.valorTotalComDesconto) && !Given(b.valorFinal) ==> r == OrElse(b.valorTotal, 0.0)
  {
    OrElse(b.valorTotalComDesconto, OrElse(b.valorFinal, OrElse(b.valorTotal, 0.0)))
  }

  /** `computedStats`: the server's counts and total when it sends them,
      otherwise counts over the loaded list. */
  function ComputeStats(bs: seq<Budget>, counts: StatusCounts, totalFromApi: Option<int>): (r: Stats)
    ensures r.totalOrcamentos == if totalFromApi.Some? then totalFromApi.value else |bs|
    ensures r.orcamentosPendentes == if counts.pendente.Some? then counts.pendente.value else CountStatus(bs, Pendente)
    ensures r.orcamentosConfirmados == if counts.confirmado.Some? then counts.confirmado.value else CountStatus(bs, Confirmado)
    ensures r.orcamentosDevolvidos == if counts.devolvido.Some? then counts.devolvido.value else CountStatus(bs, Devolvido)
    ensures r.valorTotal == SumBy(bs, ShownValue)
  {
    Stats(
      if totalFromApi.Some? then totalFromApi.value else |bs|,
      counts.pendente.GetOr(CountStatus(bs, Pendente)),
      counts.confirmado.GetOr(CountStatus(bs, Confirmado)),
      counts.devolvido.GetOr(CountStatus(bs, Devolvido)),
      SumBy(bs, ShownValue))
  }

  /** A budget has one status, so the counts taken from the list never add
      up to more than the list. */
  lemma {:induction false} CountsWithinList(bs: seq<Budget>)
    ensures CountStatus(bs, Pendente) + CountStatus(bs, Confirmado) + CountStatus(bs, Devolvido) <= |bs|
  {
    if |bs| > 0 {
      CountsWithinList(bs[1..]);
    }
  }

  /** Without server figures the statistics describe the list alone. */
  lemma LocalStats(bs: seq<Budget>)
    ensures var r := ComputeStats(bs, StatusCounts(None, None, None), None);
            r.totalOrcamentos == |bs| &&
            r.orcamentosPendentes + r.orcamentosConfirmados + r.orcamentosDevolvidos <= r.totalOrcamentos
  {
    CountsWithinList(bs);
  }

  /** The dashboard's value total is not negative when no budget carries a
      negative value. */
  lemma ValorTotalNonNegative(bs: seq<Budget>)
    requires forall i :: 0 <= i < |bs| ==> ShownValue(bs[i]) >= 0.0
    ensures ComputeStats(bs, StatusCounts(None, None, None), None).valorTotal >= 0.0
  {
    SumByNonNegative(bs, ShownValue);
  }

  /** `dataFim` falls between the Sunday and the Saturday of the week of
      `today`. */
  predicate EndsThisWeek(b: Budget, today: int) {
    b.dataFim.Some? && WeekStart(today) <= b.dataFim.value <= WeekStart(today) + 6
  }

  /** `new Date(o.dataCriacao || o.createdAt || 0)` */
  function CreationInstant(b: Budget): int {
    if b.dataCriacao.Some? then b.dataCriacao.value
    else if b.createdAt.Some? then b.createdAt.value
    else 0
  }

  function NewestFirst(b: Budget): int {
    -CreationInstant(b)
  }

  /** The budgets ending this week, in list order. */
  function EndingThisWeek(bs: seq<Budget>, today: int): seq<Budget> {
    Filter(bs, (b: Budget) => EndsThisWeek(b, today))
  }

  /** `orcamentosRecentes`: the budgets ending this week, newest created
      first, at most 10; none of those left out was created later than one
      that is shown. */
  function RecentBudgets(bs: seq<Budget>, today: int): (r: seq<Budget>)
    ensures |r| == Min(10, |EndingThisWeek(bs, today)|)
    ensures multiset(r) <= multiset(EndingThisWeek(bs, today))
    ensures |EndingThisWeek(bs, today)| <= 10 ==> multiset(r) == multiset(EndingThisWeek(bs, today))
    ensures forall i :: 0 <= i < |r| ==> EndsThisWeek(r[i], today) && r[i] in bs
    ensures forall i, j :: 0 <= i < j < |r| ==> CreationInstant(r[i]) >= CreationInstant(r[j])
    ensures forall x, i :: x in multiset(EndingThisWeek(bs, today)) - multiset(r) && 0 <= i < |r| ==>
              CreationInstant(x) <= CreationInstant(r[i])
  {
    var week := EndingThisWeek(bs, today);
    var r := FirstByKey(week, NewestFirst, 10);
    EndingThisWeekKept(bs, today, r);
    NewestFirstOrder(r);
    NewestFirstOmitted(week, r);
    r
  }

  /** Budgets drawn from those ending this week end this week and come
      from the list. */
  lemma EndingThisWeekKept(bs: seq<Budget>, today: int, r: seq<Budget>)
    requires multiset(r) <= multiset(EndingThisWeek(bs, today))
    ensures forall i :: 0 <= i < |r| ==> EndsThisWeek(r[i], today) && r[i] in bs
  {
    var week := EndingThisWeek(bs, today);
    forall i | 0 <= i < |r| ensures EndsThisWeek(r[i], today) && r[i] in bs {
      assert r[i] in multiset(week);
      var k :| 0 <= k < |week| && week[k] == r[i];
    }
  }

  lemma NewestFirstOrder(r: seq<Budget>)
    requires SortedByKey(r, NewestFirst)
    ensures forall i, j :: 0 <= i < j < |r| ==> CreationInstant(r[i]) >= CreationInstant(r[j])
  {
    forall i, j | 0 <= i < j < |r| ensures CreationInstant(r[i]) >= CreationInstant(r[j]) {
      assert NewestFirst(r[i]) <= NewestFirst(r[j]);
    }
  }

  lemma NewestFirstOmitted(week: seq<Budget>, r: seq<Budget>)
    requires forall x, i :: x in multiset(week) - multiset(r) && 0 <= i < |r| ==> NewestFirst(r[i]) <= NewestFirst(x)
    ensures forall x, i :: x in multiset(week) - multiset(r) && 0 <= i < |r| ==> CreationInstant(x) <= CreationInstant(r[i])
  {
  }

  /** When at most ten budgets end this week, all of them are shown. */
  lemma RecentShowsAllFew(bs: seq<Budget>, today: int)
    requires |EndingThisWeek(bs, today)| <= 10
    ensures multiset(RecentBudgets(bs, today)) == multiset(EndingThisWeek(bs, today))
  {
  }

  /** The week shown runs from a Sunday to the following Saturday and
      contains today. */
  lemma WeekContainsToday(today: int)
    ensures Weekday(WeekStart(today)) == 0 && Weekday(WeekStart(today) + 6) == 6
    ensures WeekStart(today) <= today <= WeekStart(today) + 6
  {
  }

  /** A payment to show: not cancelled or returned, with a payment date no
      later than 60 days from today (overdue ones included). */
  predicate FallsDue(b: Budget, today: int) {
    !Closed(b) && PaymentDay(b).Some? && PaymentDay(b).value <= today + 60
  }

  /** The comparator of `vencimentos` as written: overdue dates first,
      then by date. */
  function DueCompare(a: int, b: int, today: int): int {
    var aOverdue := a < today;
    var bOverdue := b < today;
    if aOverdue && !bOverdue then -1
    else if !aOverdue && bOverdue then 1
    else a - b
  }

  /** The comparator orders exactly as the dates do, so the sort it drives
      is the stable sort by date. */
  lemma DueCompareIsByDate(a: int, b: int, today: int)
    ensures DueCompare(a, b, today) < 0 <==> a < b
    ensures DueCompare(a, b, today) == 0 <==> a == b
    ensures DueCompare(a, b, today) > 0 <==> a > b
  {
  }

  /** The payments falling due, in list order. */
  function FallingDue(bs: seq<Budget>, today: int): seq<Budget> {
    Filter(bs, (b: Budget) => FallsDue(b, today))
  }

  /** `vencimentos`: the payments falling due, earliest first, at most 15;
      none of those left out falls due before one that is shown. */
  function DuePayments(bs: seq<Budget>, today: int): (r: seq<Budget>)
    ensures |r| == Min(15, |FallingDue(bs, today)|)
    ensures multiset(r) <= multiset(FallingDue(bs, today))
    ensures |FallingDue(bs, today)| <= 15 ==> multiset(r) == multiset(FallingDue(bs, today))
    ensures forall i :: 0 <= i < |r| ==> FallsDue(r[i], today) && r[i] in bs
    ensures forall i, j :: 0 <= i < j < |r| ==> DueDay(r[i]) <= DueDay(r[j])
    ensures forall x, i :: x in multiset(FallingDue(bs, today)) - multiset(r) && 0 <= i < |r| ==>
              DueDay(r[i]) <= DueDay(x)
  {
    var r := FirstByKey(FallingDue(bs, today), DueDay, 15);
    FallingDueKept(bs, today, r);
    r
  }

  /** Budgets drawn from those falling due fall due and come from the
      list. */
  lemma FallingDueKept(bs: seq<Budget>, today: int, r: seq<Budget>)
    requires multiset(r) <= multiset(FallingDue(bs, today))
    ensures forall i :: 0 <= i < |r| ==> FallsDue(r[i], today) && r[i] in bs
  {
    var due := FallingDue(bs, today);
    forall i | 0 <= i < |r| ensures FallsDue(r[i], today) && r[i] in bs {
      assert r[i] in multiset(due);
      var k :| 0 <= k < |due| && due[k] == r[i];
    }
  }

  /** In the list of payments due, every overdue one comes before every
      one that is not. */
  lemma OverdueFirst(bs: seq<Budget>, today: int, i: nat, j: nat)
    requires i < j < |DuePayments(bs, today)|
    requires DueDay(DuePayments(bs, today)[j]) < today
    ensures DueDay(DuePayments(bs, today)[i]) < today
  {
  }

  /** `Math.ceil(diffTime / (1000 * 60 * 60 * 24))` for a difference in
      milliseconds. */
  function DaysRemaining(diffMs: int): (r: int)
    ensures (r - 1) * MsPerDay < diffMs <= r * MsPerDay
  {
    -((-diffMs) / MsPerDay)
  }

  /** Between two local midnights the count is the difference of the days. */
  lemma DaysRemainingOfDays(due: int, today: int)
    ensures DaysRemaining((due - today) * MsPerDay) == due - today
  {
    var r := DaysRemaining((due - today) * MsPerDay);
    assert (r - 1) * MsPerDay < (due - today) * MsPerDay <= r * MsPerDay;
  }

  /** `estaVencido` */
  predicate Overdue(days: int) {
    days < 0
  }

  /** `estaProximo` */
  predicate Soon(days: int) {
    days <= 7 && days >= 0
  }

  /** A payment is never both overdue and due soon; between them they are
      exactly the payments at most a week away. */
  lemma OverdueAndSoonExclusive(days: int)
    ensures !(Overdue(days) && Soon(days))
    ensures Overdue(days) || Soon(days) <==> days <= 7
  {
  }
}

=== FILE: dates.dfy ===
/**
 The two date normalisers of the budget form: `formatDateForInput`, which
 turns a loaded date into the `YYYY-MM-DD` text an `<input type="date">`
 wants (OrcamentoForm.js:158-177), and `processDate`, which prepares a form
 date for the save request (OrcamentoForm.js:987-1011).

 A JavaScript `Date` is represented by the calendar fields it reports, once
 in UTC (`getUTCFullYear()` and friends) and once in the browser's zone
 (`getFullYear()` and friends); which zone that is lies outside the model.
 `new Date(text)` is the parameter `parse`, giving `None` for an invalid date.
 */
module Dates {
  import opened Options
  import opened Text
  import opened Numbers

  /** Year, month (1-12) and day of the month. */
  datatype Civil = Civil(year: int, month: int, day: int)

  /** One instant read in UTC and in the local zone. */
  datatype Instant = Instant(utc: Civil, local: Civil)

  /** What a date field may hold: nothing, a `Date` object or a string. */
  datatype DateInput = Absent | Moment(at: Instant) | Written(s: string)

  /** JavaScript truthiness of a date field: a `Date` is always truthy,
      a string unless it is empty. */
  predicate Filled(x: DateInput) {
    x.Moment? || (x.Written? && x.s != "")
  }

  /** `/^\d{4}-\d{2}-\d{2}$/.test(s)` */
  predicate IsIsoDay(s: string) {
    |s| == 10 && s[4] == '-' && s[7] == '-' &&
    AllDigits(s[..4]) && AllDigits(s[5..7]) && AllDigits(s[8..])
  }

  /** `${year}-${String(month).padStart(2, '0')}-${String(day).padStart(2, '0')}` */
  function FormatYmd(c: Civil): string {
    IntToString(c.year) + "-" + PadStart2(IntToString(c.month)) + "-" + PadStart2(IntToString(c.day))
  }

  /** The fields written in an ISO day. */
  function ReadYmd(s: string): Civil
    requires IsIsoDay(s)
  {
    Civil(DigitsValue(s[..4]), DigitsValue(s[5..7]), DigitsValue(s[8..]))
  }

  /** `formatDateForInput`: empty for a falsy or invalid date, an ISO day
      text as it is, anything else through `new Date` in UTC. */
  function FormatDateForInput(x: DateInput, parse: string -> Option<Instant>): (r: string)
    ensures !Filled(x) ==> r == ""
    ensures x.Written? && IsIsoDay(x.s) ==> r == x.s
    ensures x.Written? && x.s != "" && !IsIsoDay(x.s) ==>
              r == (if parse(x.s).Some? then FormatYmd(parse(x.s).value.utc) else "")
    ensures x.Moment? ==> r == FormatYmd(x.at.utc)
  {
    match x
    case Absent => ""
    case Moment(at) => FormatYmd(at.utc)
    case Written(s) =>
      if s == "" then ""
      else if IsIsoDay(s) then s
      else
        match parse(s)
        case None => ""
        case Some(at) => FormatYmd(at.utc)
  }

  /** `processDate`: `None` (null) for a falsy date, a `Date` as its local
      day, an ISO day text as it is, a parseable text as its local day, and
      any other text unchanged. */
  function ProcessDate(x: DateInput, parse: string -> Option<Instant>): (r: Option<string>)
    ensures r.None? <==> !Filled(x)
    ensures x.Moment? ==> r == Some(FormatYmd(x.at.local))
    ensures x.Written? && x.s != "" && (IsIsoDay(x.s) || parse(x.s).None?) ==> r == Some(x.s)
    ensures x.Written? && x.s != "" && !IsIsoDay(x.s) && parse(x.s).Some? ==>
              r == Some(FormatYmd(parse(x.s).value.local))
  {
    match x
    case Absent => None
    case Moment(at) => Some(FormatYmd(at.local))
    case Written(s) =>
      if s == "" then None
      else if IsIsoDay(s) then Some(s)
      else
        match parse(s)
        case None => Some(s)
        case Some(at) => Some(FormatYmd(at.local))
  }

  /** A four-digit year, a month and a day of the month. */
  predicate Writable(c: Civil) {
    1000 <= c.year <= 9999 && 1 <= c.month <= 12 && 1 <= c.day <= 31
  }

  /** `String(n)` of a number in [10^(k-1), 10^k) has `k` digits. */
  lemma {:induction false} NatToStringWidth(n: nat, k: nat)
    requires k >= 1 && Pow10(k - 1) <= n < Pow10(k)
    ensures |NatToString(n)| == k
  {
    if k > 1 {
      assert Pow10(k) == 10 * Pow10(k - 1);
      assert Pow10(k - 1) == 10 * Pow10(k - 2);
      NatToStringWidth(n / 10, k - 1);
    }
  }

  /** Two-digit padding of a number below 100 reads back as that number. */
  lemma TwoDigits(n: nat)
    requires n < 100
    ensures |PadStart2(IntToString(n))| == 2 && AllDigits(PadStart2(IntToString(n)))
    ensures DigitsValue(PadStart2(IntToString(n))) == n
  {
    var s := NatToString(n);
    NatToStringRoundTrip(n);
    if n < 10 {
      var p := "0" + s;
      assert p[..1] == "0";
      assert p[..0] == "";
    } else {
      assert Pow10(1) == 10 && Pow10(2) == 100;
      NatToStringWidth(n, 2);
    }
  }

  /** Joining a four-digit and two two-digit runs with dashes gives an ISO
      day whose parts are those runs. */
  lemma JoinedParts(y: string, m: string, d: string)
    requires |y| == 4 && |m| == 2 && |d| == 2
    requires AllDigits(y) && AllDigits(m) && AllDigits(d)
    ensures var s := y + "-" + m + "-" + d;
            IsIsoDay(s) && s[..4] == y && s[5..7] == m && s[8..] == d
  {
    var s := y + "-" + m + "-" + d;
    assert s[..4] == y;
    assert s[5..7] == m;
    assert s[8..] == d;
  }

  /** The text `FormatYmd` writes for a four-digit date is an ISO day whose
      fields read back as the date. */
  lemma FormatYmdRoundTrip(c: Civil)
    requires Writable(c)
    ensures IsIsoDay(FormatYmd(c)) && ReadYmd(FormatYmd(c)) == c
  {
    var y := NatToString(c.year);
    assert Pow10(3) == 1000 && Pow10(4) == 10000;
    NatToStringWidth(c.year, 4);
    NatToStringRoundTrip(c.year);
    TwoDigits(c.month);
    TwoDigits(c.day);
    var m := PadStart2(IntToString(c.month));
    var d := PadStart2(IntToString(c.day));
    JoinedParts(y, m, d);
    assert FormatYmd(c) == y + "-" + m + "-" + d;
  }

  /** A loaded `Date` with a four-digit year becomes an ISO day naming its
      UTC date, and normalising that text again leaves it alone. */
  lemma FormatDateForInputOfMoment(at: Instant, parse: string -> Option<Instant>)
    requires Writable(at.utc)
    ensures var r := FormatDateForInput(Moment(at), parse);
            IsIsoDay(r) && ReadYmd(r) == at.utc && FormatDateForInput(Written(r), parse) == r
  {
    FormatYmdRoundTrip(at.utc);
  }

  /** A `Date` from the form is sent as the ISO day of its local date, and
      preparing that text again leaves it alone. */
  lemma ProcessDateOfMoment(at: Instant, parse: string -> Option<Instant>)
    requires Writable(at.local)
    ensures var r := ProcessDate(Moment(at), parse);
            r.Some? && IsIsoDay(r.value) && ReadYmd(r.value) == at.local &&
            ProcessDate(Written(r.value), parse) == r
  {
    FormatYmdRoundTrip(at.local);
  }

  /** Normalising the result of `formatDateForInput` again changes nothing
      whenever the parsed date has a four-digit year. */
  lemma FormatDateForInputIdempotent(x: DateInput, parse: string -> Option<Instant>)
    requires x.Moment? ==> Writable(x.at.utc)
    requires x.Written? && !IsIsoDay(x.s) && parse(x.s).Some? ==> Writable(parse(x.s).value.utc)
    ensures var r := FormatDateForInput(x, parse);
            FormatDateForInput(Written(r), parse) == r
  {
    match x
    case Absent =>
    case Moment(at) => FormatYmdRoundTrip(at.utc);
    case Written(s) =>
      if s != "" && !IsIsoDay(s) && parse(s).Some? {
        FormatYmdRoundTrip(parse(s).value.utc);
      }
  }
}

=== FILE: extraform.dfy ===
/**
 The validation of the extras form (ExtraForm.js): category and equipment
 are required, and the daily cost and the available quantity may not be
 negative.
 */
module ExtraForm {
  import opened Options
  import opened Text

  /** The form's data. The two numbers are what `x < 0` compares after
      JavaScript's coercion: `None` when that is NaN (missing or non-numeric
      text), which compares false. */
  datatype Extra = Extra(
    categoria: Option<string>,
    equipamento: Option<string>,
    custoDiario: Option<real>,
    quantidadeDisponivel: Option<real>)

  datatype Field = Categoria | Equipamento | CustoDiario | QuantidadeDisponivel

  /** `!value?.trim()`: missing, empty or all white space. */
  predicate Blank(x: Option<string>) {
    x.None? || AllSpace(x.value)
  }

  /** `value < 0` */
  predicate Negative(x: Option<real>) {
    x.Some? && x.value < 0.0
  }

  /** `validate`: the fields that get an error. */
  function Validate(e: Extra): (r: set<Field>)
    ensures Categoria in r <==> Blank(e.categoria)
    ensures Equipamento in r <==> Blank(e.equipamento)
    ensures CustoDiario in r <==> Negative(e.custoDiario)
    ensures QuantidadeDisponivel in r <==> Negative(e.quantidadeDisponivel)
  {
    (if Blank(e.categoria) then {Categoria} else {}) +
    (if Blank(e.equipamento) then {Equipamento} else {}) +
    (if Negative(e.custoDiario) then {CustoDiario} else {}) +
    (if Negative(e.quantidadeDisponivel) then {QuantidadeDisponivel} else {})
  }

  /** `Object.keys(newErrors).length === 0` */
  predicate Valid(e: Extra) {
    |Validate(e)| == 0
  }

  /** The form is valid exactly when both names are filled in and neither
      number is below zero; zero itself is accepted. */
  lemma ValidIff(e: Extra)
    ensures Valid(e) <==>
              !Blank(e.categoria) && !Blank(e.equipamento) &&
              !Negative(e.custoDiario) && !Negative(e.quantidadeDisponivel)
  {
    if !Valid(e) {
      var f :| f in Validate(e);
    }
  }

  /** The empty form is rejected for its names only. */
  lemma EmptyFormNeedsNames()
    ensures Validate(Extra(Some(""), Some(""), Some(0.0), Some(0.0))) == {Categoria, Equipamento}
  {
  }
}

=== FILE: grouping.dfy ===
/**
 Grouping the line items by category (OrcamentoForm.js:460-477) and the
 effect that reorders the items to follow the groups (479-531).

 The source collects the indexes into a `Map` keyed by category, in order of
 first appearance, and then sorts the entries by name. Because the names of
 a `Map`'s entries are distinct, the sorted result does not depend on the
 insertion order of the groups, only on the order within each group, which
 is ascending. `Place` builds that same result directly: each index goes
 into its named group, a new group being inserted at its sorted place.
 `Text.Below` stands in for `localeCompare('pt-BR')`.
 */
module Grouping {
  import opened Options
  import opened Text
  import opened Catalog
  import opened Pricing

  const NoCategory: string := "Sem categoria"

  /** `material?.categoria || item.categoria || 'Sem categoria'` */
  function CategoryOf(item: Item, catalog: seq<Material>): (r: string)
    ensures r != ""
  {
    var m := FindMaterial(catalog, item.materialId);
    if m.Some? && m.value.categoria.Some? && m.value.categoria.value != "" then m.value.categoria.value
    else if item.categoria.Some? && item.categoria.value != "" then item.categoria.value
    else NoCategory
  }

  /** A category and the indexes of its items. */
  datatype Group = Group(name: string, indexes: seq<nat>)

  /** Adds index `idx` to the group named `name`, creating the group at its
      sorted place when there is none. */
  function Place(gs: seq<Group>, name: string, idx: nat): (r: seq<Group>)
    ensures |r| == |gs| || |r| == |gs| + 1
  {
    if |gs| == 0 then [Group(name, [idx])]
    else if gs[0].name == name then [gs[0].(indexes := gs[0].indexes + [idx])] + gs[1..]
    else if Below(name, gs[0].name) then [Group(name, [idx])] + gs
    else [gs[0]] + Place(gs[1..], name, idx)
  }

  /** The groups of the items whose categories are `cats`. */
  function Build(cats: seq<string>): seq<Group> {
    if |cats| == 0 then []
    else Place(Build(cats[..|cats| - 1]), cats[|cats| - 1], |cats| - 1)
  }

  /** `groupedItems`: empty when grouping is switched off. */
  function GroupedItems(items: seq<Item>, catalog: seq<Material>, grouping: bool): (r: seq<Group>)
    ensures !grouping ==> r == []
    ensures grouping ==> WellGrouped(r, Categories(items, catalog))
    ensures grouping ==> IsPermutation(Flatten(r), |items|)
  {
    if grouping then
      var cats := Categories(items, catalog);
      BuildGroups(cats);
      Build(cats)
    else []
  }

  /** The groups built for `cats` are well grouped and list every index once. */
  lemma BuildGroups(cats: seq<string>)
    ensures WellGrouped(Build(cats), cats) && IsPermutation(Flatten(Build(cats)), |cats|)
  {
    BuildWellGrouped(cats);
    BuildFlatten(cats);
    RangeFacts(|cats|);
  }

  function Categories(items: seq<Item>, catalog: seq<Material>): (r: seq<string>)
    ensures |r| == |items| && forall i :: 0 <= i < |items| ==> r[i] == CategoryOf(items[i], catalog)
  {
    seq(|items|, i requires 0 <= i < |items| => CategoryOf(items[i], catalog))
  }

  predicate StrictlyIncreasing(s: seq<nat>) {
    forall i, j :: 0 <= i < j < |s| ==> s[i] < s[j]
  }

  predicate SortedNames(gs: seq<Group>) {
    forall i, j :: 0 <= i < j < |gs| ==> Below(gs[i].name, gs[j].name)
  }

  /** Group `g` holds, in ascending order, exactly the indexes whose
      category in `cats` is its name. */
  ghost predicate Exact(g: Group, cats: seq<string>) {
    StrictlyIncreasing(g.indexes) &&
    forall idx: nat :: idx in g.indexes <==> idx < |cats| && cats[idx] == g.name
  }

  /** The groups for categories `cats`: names in strictly ascending order,
      each group exact, and every category having a group. */
  ghost predicate WellGrouped(gs: seq<Group>, cats: seq<string>) {
    SortedNames(gs) &&
    (forall g :: g in gs ==> Exact(g, cats)) &&
    (forall idx :: 0 <= idx < |cats| ==> exists g :: g in gs && g.name == cats[idx])
  }

  /** All indexes, group after group: `groupedItems.flatMap(([, i]) => i)`. */
  function Flatten(gs: seq<Group>): seq<nat> {
    if |gs| == 0 then [] else gs[0].indexes + Flatten(gs[1..])
  }

  function Range(n: nat): (r: seq<nat>)
    ensures |r| == n && forall i :: 0 <= i < n ==> r[i] == i
  {
    seq(n, i requires 0 <= i < n => i)
  }

  predicate Distinct(s: seq<nat>) {
    forall i, j :: 0 <= i < j < |s| ==> s[i] != s[j]
  }

  /** `s` lists every index below `n` exactly once. */
  predicate IsPermutation(s: seq<nat>, n: nat) {
    |s| == n && Distinct(s) && (forall i :: 0 <= i < |s| ==> s[i] < n) && (forall i :: 0 <= i < n ==> i in s)
  }

  lemma {:induction false} PlaceFlatten(gs: seq<Group>, name: string, idx: nat)
    ensures multiset(Flatten(Place(gs, name, idx))) == multiset(Flatten(gs)) + multiset{idx}
  {
    if |gs| > 0 {
      if gs[0].name == name {
        var r := Place(gs, name, idx);
        assert r[1..] == gs[1..];
      } else if Below(name, gs[0].name) {
        var r := Place(gs, name, idx);
        assert r[1..] == gs;
      } else {
        PlaceFlatten(gs[1..], name, idx);
        var r := Place(gs, name, idx);
        assert r[1..] == Place(gs[1..], name, idx);
      }
    }
  }

  /** The flattened groups hold each index once. */
  lemma {:induction false} BuildFlatten(cats: seq<string>)
    ensures multiset(Flatten(Build(cats))) == multiset(Range(|cats|))
  {
    if |cats| > 0 {
      var n := |cats| - 1;
      BuildFlatten(cats[..n]);
      PlaceFlatten(Build(cats[..n]), cats[n], n);
      assert Range(n + 1) == Range(n) + [n];
    }
  }

  /** A value at two positions is counted twice. */
  lemma TwiceCounted(s: seq<nat>, i: nat, j: nat)
    requires i < j < |s|
    ensures s[i] == s[j] ==> multiset(s)[s[i]] >= 2
  {
    assert s == s[..i] + [s[i]] + s[i + 1..j] + [s[j]] + s[j + 1..];
  }

  /** Any arrangement of `Range(n)` is a permutation of the indexes below `n`. */
  lemma RangeFacts(n: nat)
    ensures forall s: seq<nat> :: multiset(s) == multiset(Range(n)) ==> IsPermutation(s, n)
  {
    forall s: seq<nat> | multiset(s) == multiset(Range(n)) ensures IsPermutation(s, n) {
      assert |s| == |multiset(s)| == n;
      forall i | 0 <= i < |s| ensures s[i] < n {
        assert s[i] in multiset(Range(n));
      }
      forall i | 0 <= i < n ensures i in s {
        assert Range(n)[i] in multiset(Range(n));
      }
      RangeMultiplicity(n);
      forall i, j | 0 <= i < j < |s| ensures s[i] != s[j] {
        TwiceCounted(s, i, j);
      }
    }
  }

  lemma {:induction false} RangeMultiplicity(n: nat)
    ensures forall x :: multiset(Range(n))[x] <= 1
  {
    if n > 0 {
      RangeMultiplicity(n - 1);
      assert Range(n) == Range(n - 1) + [n - 1];
      assert n - 1 !in multiset(Range(n - 1));
    }
  }

  /** Every group of `Place`'s result is the new one or comes from `gs`. */
  lemma {:induction false} PlaceNames(gs: seq<Group>, name: string, idx: nat)
    ensures forall g :: g in Place(gs, name, idx) ==> g.name == name || g in gs
  {
    if |gs| > 0 && gs[0].name != name && !Below(name, gs[0].name) {
      PlaceNames(gs[1..], name, idx);
      assert Place(gs, name, idx) == [gs[0]] + Place(gs[1..], name, idx);
    } else if |gs| > 0 && gs[0].name == name {
      assert Place(gs, name, idx)[1..] == gs[1..];
    }
  }

  /** Groups of other names survive `Place` unchanged. */
  lemma {:induction false} PlaceKeeps(gs: seq<Group>, name: string, idx: nat)
    ensures forall g :: g in gs && g.name != name ==> g in Place(gs, name, idx)
  {
    if |gs| > 0 && gs[0].name != name && !Below(name, gs[0].name) {
      PlaceKeeps(gs[1..], name, idx);
      var r := Place(gs, name, idx);
      assert r == [gs[0]] + Place(gs[1..], name, idx);
      forall g | g in gs && g.name != name ensures g in r {
        if g != gs[0] {
          assert g in gs[1..];
        }
      }
    } else if |gs| > 0 && gs[0].name == name {
      var r := Place(gs, name, idx);
      assert r[1..] == gs[1..];
      forall g | g in gs && g.name != name ensures g in r {
        assert g in gs[1..];
      }
    }
  }

  /** After `Place` there is a group named `name`. */
  lemma {:induction false} PlaceHasName(gs: seq<Group>, name: string, idx: nat)
    ensures exists g :: g in Place(gs, name, idx) && g.name == name
  {
    if |gs| > 0 && gs[0].name != name && !Below(name, gs[0].name) {
      PlaceHasName(gs[1..], name, idx);
      var g :| g in Place(gs[1..], name, idx) && g.name == name;
      assert Place(gs, name, idx) == [gs[0]] + Place(gs[1..], name, idx);
      assert g in Place(gs, name, idx);
    } else {
      assert Place(gs, name, idx)[0].name == name;
    }
  }

  /** `Place` keeps the names strictly sorted. */
  lemma {:induction false} PlaceSorted(gs: seq<Group>, name: string, idx: nat)
    requires SortedNames(gs)
    ensures SortedNames(Place(gs, name, idx))
  {
    if |gs| == 0 {
    } else if gs[0].name == name {
      var r := Place(gs, name, idx);
      assert r[1..] == gs[1..];
    } else if Below(name, gs[0].name) {
      forall k | 0 <= k < |gs| ensures Below(name, gs[k].name) {
        if k > 0 {
          BelowTransitive(name, gs[0].name, gs[k].name);
        }
      }
    } else {
      var tail := gs[1..];
      PlaceSorted(tail, name, idx);
      PlaceNames(tail, name, idx);
      var rt := Place(tail, name, idx);
      BelowTotal(name, gs[0].name);
      forall j | 0 <= j < |rt| ensures Below(gs[0].name, rt[j].name) {
        if rt[j].name != name {
          assert rt[j] in rt;
          var k :| 0 <= k < |tail| && tail[k] == rt[j];
          assert tail[k] == gs[k + 1];
        }
      }
      assert Place(gs, name, idx) == [gs[0]] + rt;
    }
  }

  /** In a sorted list, the group named `name` after `Place` is the old
      group of that name extended by `idx`, or a new group when there was
      none. */
  lemma {:induction false} PlaceNamed(gs: seq<Group>, name: string, idx: nat)
    requires SortedNames(gs)
    ensures forall g :: g in Place(gs, name, idx) && g.name == name ==>
              (exists h :: h in gs && h.name == name && g == h.(indexes := h.indexes + [idx])) ||
              (g == Group(name, [idx]) && forall h :: h in gs ==> h.name != name)
  {
    var r := Place(gs, name, idx);
    if |gs| == 0 {
    } else if gs[0].name == name {
      forall k | 1 <= k < |gs| ensures gs[k].name != name {
        BelowIrreflexive(name);
      }
      assert forall k :: 1 <= k < |r| ==> r[k] == gs[k];
      forall g | g in r && g.name == name
        ensures exists h :: h in gs && h.name == name && g == h.(indexes := h.indexes + [idx])
      {
        var k :| 0 <= k < |r| && r[k] == g;
        assert k == 0;
        assert gs[0] in gs;
      }
    } else if Below(name, gs[0].name) {
      forall k | 0 <= k < |gs| ensures gs[k].name != name {
        BelowIrreflexive(name);
        if k > 0 {
          BelowTransitive(name, gs[0].name, gs[k].name);
        }
      }
      assert forall k :: 1 <= k < |r| ==> r[k] == gs[k - 1];
      forall g | g in r && g.name == name ensures g == Group(name, [idx]) {
        var k :| 0 <= k < |r| && r[k] == g;
        assert k == 0;
      }
    } else {
      var tail := gs[1..];
      PlaceNamed(tail, name, idx);
      var rt := Place(tail, name, idx);
      assert r == [gs[0]] + rt;
      forall g | g in r && g.name == name ensures g in rt {
        var k :| 0 <= k < |r| && r[k] == g;
        assert k != 0;
        assert rt[k - 1] == g;
      }
      assert forall h :: h in tail ==> h in gs;
      assert forall h :: h in gs ==> h == gs[0] || h in tail;
    }
  }

  /** A group of another name stays exact when a category is appended. */
  lemma ExactKept(g: Group, cats: seq<string>)
    requires |cats| > 0 && Exact(g, cats[..|cats| - 1]) && g.name != cats[|cats| - 1]
    ensures Exact(g, cats)
  {
    var n := |cats| - 1;
    forall idx: nat ensures idx in g.indexes <==> idx < |cats| && cats[idx] == g.name {
      if idx < n {
        assert cats[..n][idx] == cats[idx];
      }
    }
  }

  /** The group of the appended category gains the new index at its end. */
  lemma ExactExtended(h: Group, cats: seq<string>)
    requires |cats| > 0 && Exact(h, cats[..|cats| - 1]) && h.name == cats[|cats| - 1]
    ensures Exact(h.(indexes := h.indexes + [|cats| - 1]), cats)
  {
    var n := |cats| - 1;
    var s := h.indexes + [n];
    forall i | 0 <= i < |h.indexes| ensures h.indexes[i] < n {
      assert h.indexes[i] in h.indexes;
    }
    assert StrictlyIncreasing(s);
    forall idx: nat ensures idx in s <==> idx < |cats| && cats[idx] == h.name {
      assert idx in s <==> idx in h.indexes || idx == n;
      if idx < n {
        assert cats[..n][idx] == cats[idx];
      }
    }
  }

  /** A category seen for the first time gets a group of its own index. */
  lemma ExactNew(cats: seq<string>)
    requires |cats| > 0
    requires forall idx :: 0 <= idx < |cats| - 1 ==> cats[idx] != cats[|cats| - 1]
    ensures Exact(Group(cats[|cats| - 1], [|cats| - 1]), cats)
  {
  }

  lemma {:induction false} PlaceWellGrouped(gs: seq<Group>, cats: seq<string>)
    requires |cats| > 0 && WellGrouped(gs, cats[..|cats| - 1])
    ensures WellGrouped(Place(gs, cats[|cats| - 1], |cats| - 1), cats)
  {
    var n := |cats| - 1;
    var name := cats[n];
    var prev := cats[..n];
    var r := Place(gs, name, n);
    PlaceSorted(gs, name, n);
    PlaceNames(gs, name, n);
    PlaceNamed(gs, name, n);
    PlaceKeeps(gs, name, n);
    PlaceHasName(gs, name, n);
    forall g | g in r ensures Exact(g, cats) {
      if g.name != name {
        ExactKept(g, cats);
      } else if g == Group(name, [n]) && forall h :: h in gs ==> h.name != name {
        forall idx | 0 <= idx < n ensures cats[idx] != name {
          assert cats[idx] == prev[idx];
          var h :| h in gs && h.name == prev[idx];
        }
        ExactNew(cats);
      } else {
        var h :| h in gs && h.name == name && g == h.(indexes := h.indexes + [n]);
        ExactExtended(h, cats);
      }
    }
    forall idx | 0 <= idx < |cats| ensures exists g :: g in r && g.name == cats[idx] {
      if idx < n {
        assert cats[idx] == prev[idx];
        var h :| h in gs && h.name == prev[idx];
        if h.name != name {
          assert h in r;
        }
      }
    }
  }

  lemma {:induction false} BuildWellGrouped(cats: seq<string>)
    ensures WellGrouped(Build(cats), cats)
  {
    if |cats| > 0 {
      var n := |cats| - 1;
      BuildWellGrouped(cats[..n]);
      PlaceWellGrouped(Build(cats[..n]), cats);
    }
  }

  /** What the reorder effect keeps between runs. */
  datatype ReorderState = ReorderState(items: seq<Item>, lastOrder: Option<seq<nat>>, reordering: bool)

  /** `nextOrderIndexes.some((newIndex, position) => newIndex !== position)` */
  predicate MovesSomething(next: seq<nat>) {
    exists k :: 0 <= k < |next| && next[k] != k
  }

  /** One run of the reorder effect for the groups `groups`. */
  function Reorder(st: ReorderState, grouping: bool, groups: seq<Group>): (r: ReorderState)
    ensures !grouping || |groups| == 0 || st.reordering || |st.items| == 0 ==> r == st
    ensures |Flatten(groups)| != |st.items| || !Distinct(Flatten(groups)) ==> r == st
    ensures st.lastOrder == Some(Flatten(groups)) ==> r == st
    ensures !MovesSomething(Flatten(groups)) ==> r.items == st.items && r.reordering == st.reordering
    ensures r.items != st.items ==>
              |r.items| == |st.items| &&
              IsPermutation(Flatten(groups), |st.items|) &&
              forall k :: 0 <= k < |r.items| ==> r.items[k] == st.items[Flatten(groups)[k]].(posicao := Some(k))
    ensures grouping && |groups| > 0 && !st.reordering && |st.items| > 0 &&
            st.lastOrder != Some(Flatten(groups)) &&
            IsPermutation(Flatten(groups), |st.items|) && MovesSomething(Flatten(groups)) ==>
              r.reordering && r.lastOrder == Some(Flatten(groups)) && |r.items| == |st.items| &&
              forall k :: 0 <= k < |r.items| ==> r.items[k] == st.items[Flatten(groups)[k]].(posicao := Some(k))
  {
    var next := Flatten(groups);
    var n := |st.items|;
    if !grouping || |groups| == 0 || st.reordering || n == 0 then st
    else if |next| != n || !Distinct(next) then st
    else if st.lastOrder == Some(next) then st
    else if !MovesSomething(next) then st.(lastOrder := Some(next))
    else if forall k :: 0 <= k < n ==> next[k] < n then
      DistinctInRangeCoversAll(next, n);
      var moved := seq(n, k requires 0 <= k < n => st.items[next[k]].(posicao := Some(k)));
      ReorderState(moved, Some(next), true)
    else
      ReorderState(st.items, Some(next), true)
  }

  /** A duplicate-free list of `n` indexes below `n` lists every one of them. */
  lemma DistinctInRangeCoversAll(s: seq<nat>, n: nat)
    requires |s| == n && Distinct(s)
    requires forall k :: 0 <= k < |s| ==> s[k] < n
    ensures forall i :: 0 <= i < n ==> i in s
  {
    var elems := set k | 0 <= k < |s| :: s[k];
    DistinctCard(s);
    var all := set k | 0 <= k < n :: Range(n)[k];
    DistinctCard(Range(n));
    forall x | x in elems ensures x in all {
      assert Range(n)[x] == x;
    }
    assert |all - elems| == 0;
    forall i | 0 <= i < n ensures i in s {
      assert Range(n)[i] == i;
      assert i in all;
      assert i in elems;
      var k :| 0 <= k < |s| && s[k] == i;
    }
  }

  lemma {:induction false} DistinctCard(s: seq<nat>)
    requires Distinct(s)
    ensures |set k | 0 <= k < |s| :: s[k]| == |s|
  {
    if |s| > 0 {
      var init := s[..|s| - 1];
      DistinctCard(init);
      var a := set k | 0 <= k < |init| :: init[k];
      var b := set k | 0 <= k < |s| :: s[k];
      assert b == a + {s[|s| - 1]};
      assert s[|s| - 1] !in a;
    }
  }

  /** Grouping the items as they are and running the effect either leaves
      the items alone or rearranges them by a permutation. */
  lemma ReorderOfGroupedIsPermutation(st: ReorderState, catalog: seq<Material>)
    requires |st.items| > 0 && !st.reordering
    requires st.lastOrder.None?
    requires MovesSomething(Flatten(GroupedItems(st.items, catalog, true)))
    ensures var r := Reorder(st, true, GroupedItems(st.items, catalog, true));
            r.reordering && |r.items| == |st.items| &&
            forall k :: 0 <= k < |r.items| ==> r.items[k] == st.items[Flatten(GroupedItems(st.items, catalog, true))[k]].(posicao := Some(k))
  {
    var cats := Categories(st.items, catalog);
    var groups := GroupedItems(st.items, catalog, true);
    assert |groups| > 0 by {
      assert WellGrouped(groups, cats);
      var g :| g in groups && g.name == cats[0];
    }
  }
}

=== FILE: lineitems.dfy ===
/**
 Editing the list of line items on the budget form (OrcamentoForm.js):
 loading the stored items in position order (197-207), removing one and
 re-indexing the per-row search texts (285-302), copying the first item's
 days or discount to every item below it (310-362), moving an item up or
 down (364-384), and typing into a discount field (816-828, 858-869,
 1466-1471, 1493-1498).
 */
module LineItems {
  import opened Options
  import opened Values
  import opened Pricing
  import opened Sorting

  /** An item as the server stores it. */
  datatype StoredItem = StoredItem(
    materialId: string,
    quantidade: Raw,
    dias: Raw,
    valorUnitario: Raw,
    custoDiario: Raw,
    descontoPercentual: Raw,
    descontoValor: Raw,
    posicao: Option<int>)

  /** `a.posicao || 0` */
  function PositionKey(s: StoredItem): int {
    if s.posicao.Some? then s.posicao.value else 0
  }

  /** The form item made from a stored item at place `index` of the sorted
      list. */
  function FromStored(s: StoredItem, index: nat): (r: Item)
    ensures r.materialId == s.materialId && r.quantidade == s.quantidade && r.dias == s.dias
    ensures r.valorUnitario == if Truthy(s.valorUnitario) then s.valorUnitario else s.custoDiario
    ensures Truthy(r.descontoPercentual) == Truthy(s.descontoPercentual)
    ensures Truthy(r.descontoValor) == Truthy(s.descontoValor)
    ensures r.posicao == Some(if s.posicao.Some? then s.posicao.value else index)
  {
    Item(
      s.materialId,
      s.quantidade,
      s.dias,
      if Truthy(s.valorUnitario) then s.valorUnitario else s.custoDiario,
      OrZero(s.descontoPercentual),
      OrZero(s.descontoValor),
      Some(if s.posicao.Some? then s.posicao.value else index),
      None)
  }

  /** The items `loadOrcamento` puts on the form: sorted by position
      (stable), then converted one by one. */
  function LoadItems(stored: seq<StoredItem>): (r: seq<Item>)
    ensures |r| == |stored|
    ensures var sorted := SortByKey(stored, PositionKey);
            multiset(sorted) == multiset(stored) &&
            forall i :: 0 <= i < |r| ==> r[i] == FromStored(sorted[i], i)
  {
    var sorted := SortByKey(stored, PositionKey);
    seq(|sorted|, i requires 0 <= i < |sorted| => FromStored(sorted[i], i))
  }

  /** When every stored item has a position, the loaded positions ascend. */
  lemma LoadedPositionsAscend(stored: seq<StoredItem>)
    requires forall i :: 0 <= i < |stored| ==> stored[i].posicao.Some?
    ensures forall i, j :: 0 <= i < j < |LoadItems(stored)| ==>
              LoadItems(stored)[i].posicao.value <= LoadItems(stored)[j].posicao.value
  {
    var sorted := SortByKey(stored, PositionKey);
    var r := LoadItems(stored);
    forall i | 0 <= i < |sorted| ensures sorted[i].posicao.Some? {
      assert sorted[i] in multiset(stored);
    }
  }

  /** Loading keeps the form's discount fields numeric-or-text but never
      absent: `|| 0` replaces an absent discount by 0. */
  lemma LoadedDiscountsPresent(stored: seq<StoredItem>)
    ensures forall i :: 0 <= i < |LoadItems(stored)| ==>
              !LoadItems(stored)[i].descontoPercentual.Missing? && !LoadItems(stored)[i].descontoValor.Missing?
  {
  }

  /** The per-row texts after `removeItem(index)`: the entry at `index` is
      dropped and every later entry moves down by one. */
  function Reindex(texts: map<int, string>, index: int): (r: map<int, string>)
    ensures forall k :: k in r <==> (k < index && k in texts) || (k >= index && k + 1 in texts)
    ensures forall k :: k in r ==> if k < index then k in texts && r[k] == texts[k] else k + 1 in texts && r[k] == texts[k + 1]
  {
    var keys := set j | j in texts && j != index :: if j > index then j - 1 else j;
    assert forall k :: k >= index && k + 1 in texts ==> k in keys by {
      forall k | k >= index && k + 1 in texts ensures k in keys {
        var j := k + 1;
        assert j != index && (if j > index then j - 1 else j) == k;
      }
    }
    map k | k in keys :: if k < index then texts[k] else texts[k + 1]
  }

  /** `remove(index)` on the item list. */
  function RemoveAt<T>(items: seq<T>, index: nat): (r: seq<T>)
    requires index < |items|
    ensures |r| == |items| - 1
    ensures forall k :: 0 <= k < |r| ==> r[k] == if k < index then items[k] else items[k + 1]
  {
    items[..index] + items[index + 1..]
  }

  /** Texts that belonged to rows keep belonging to the same rows after a
      removal. */
  lemma RemoveKeepsTextsAligned(rows: seq<string>, texts: map<int, string>, index: nat)
    requires index < |rows|
    requires forall k :: k in texts ==> 0 <= k < |rows| && texts[k] == rows[k]
    ensures forall k :: k in Reindex(texts, index) ==>
              0 <= k < |RemoveAt(rows, index)| && Reindex(texts, index)[k] == RemoveAt(rows, index)[k]
  {
  }

  /** Every item from position 1 on, with `f` applied; item 0 is kept. */
  function BelowFirst(items: seq<Item>, f: Item -> Item): (r: seq<Item>)
    requires |items| > 0
    ensures |r| == |items| && r[0] == items[0]
    ensures forall k :: 1 <= k < |items| ==> r[k] == f(items[k])
  {
    seq(|items|, k requires 0 <= k < |items| => if k == 0 then items[0] else f(items[k]))
  }

  /** `applyDiasToAll` */
  function ApplyDaysToAll(items: seq<Item>): (r: seq<Item>)
    ensures |r| == |items|
    ensures |items| == 0 || ParseNumber(items[0].dias, 1.0) <= 0.0 ==> r == items
    ensures |items| > 0 && ParseNumber(items[0].dias, 1.0) > 0.0 ==>
              r[0] == items[0] &&
              forall k :: 1 <= k < |items| ==> r[k] == items[k].(dias := Num(ParseNumber(items[0].dias, 1.0)))
  {
    if |items| == 0 then items
    else
      var d := ParseNumber(items[0].dias, 1.0);
      if d > 0.0 then BelowFirst(items, (it: Item) => it.(dias := Num(d))) else items
  }

  /** `applyDescontoPercentualToAll` */
  function ApplyPercentToAll(items: seq<Item>): (r: seq<Item>)
    ensures |r| == |items|
    ensures |items| == 0 || ParseNumber(items[0].descontoPercentual, 0.0) < 0.0 ==> r == items
    ensures |items| > 0 && ParseNumber(items[0].descontoPercentual, 0.0) >= 0.0 ==>
              r[0] == items[0] &&
              forall k :: 1 <= k < |items| ==>
                r[k] == items[k].(descontoValor := Num(0.0), descontoPercentual := Num(ParseNumber(items[0].descontoPercentual, 0.0)))
  {
    if |items| == 0 then items
    else
      var v := ParseNumber(items[0].descontoPercentual, 0.0);
      if v >= 0.0 then BelowFirst(items, (it: Item) => it.(descontoValor := Num(0.0), descontoPercentual := Num(v)))
      else items
  }

  /** `applyDescontoValorToAll` */
  function ApplyFlatToAll(items: seq<Item>): (r: seq<Item>)
    ensures |r| == |items|
    ensures |items| == 0 || ParseNumber(items[0].descontoValor, 0.0) < 0.0 ==> r == items
    ensures |items| > 0 && ParseNumber(items[0].descontoValor, 0.0) >= 0.0 ==>
              r[0] == items[0] &&
              forall k :: 1 <= k < |items| ==>
                r[k] == items[k].(descontoPercentual := Num(0.0), descontoValor := Num(ParseNumber(items[0].descontoValor, 0.0)))
  {
    if |items| == 0 then items
    else
      var v := ParseNumber(items[0].descontoValor, 0.0);
      if v >= 0.0 then BelowFirst(items, (it: Item) => it.(descontoPercentual := Num(0.0), descontoValor := Num(v)))
      else items
  }

  /** After copying the percent down, every item has the first item's
      percent and none has a flat discount below the first. */
  lemma PercentCopiedDown(items: seq<Item>)
    requires |items| > 0 && ParseNumber(items[0].descontoPercentual, 0.0) >= 0.0
    ensures forall k :: 0 <= k < |items| ==> PercentOf(ApplyPercentToAll(items)[k]) == PercentOf(items[0])
    ensures forall k :: 1 <= k < |items| ==> FlatOf(ApplyPercentToAll(items)[k]) == 0.0
  {
    OrZeroIsRedundant(items[0].descontoPercentual);
    forall k | 1 <= k < |items| ensures PercentOf(ApplyPercentToAll(items)[k]) == PercentOf(items[0]) {
      OrZeroIsRedundant(ApplyPercentToAll(items)[k].descontoPercentual);
    }
  }

  /** After copying the flat amount down, every item has the first item's
      flat amount and none below the first has a percent discount. */
  lemma FlatCopiedDown(items: seq<Item>)
    requires |items| > 0 && ParseNumber(items[0].descontoValor, 0.0) >= 0.0
    ensures forall k :: 0 <= k < |items| ==> FlatOf(ApplyFlatToAll(items)[k]) == FlatOf(items[0])
    ensures forall k :: 1 <= k < |items| ==> PercentOf(ApplyFlatToAll(items)[k]) == 0.0
  {
    OrZeroIsRedundant(items[0].descontoValor);
    forall k | 1 <= k < |items| ensures FlatOf(ApplyFlatToAll(items)[k]) == FlatOf(items[0]) {
      OrZeroIsRedundant(ApplyFlatToAll(items)[k].descontoValor);
    }
  }

  /** Copying the days down twice is the same as copying them once. */
  lemma ApplyDaysIdempotent(items: seq<Item>)
    ensures ApplyDaysToAll(ApplyDaysToAll(items)) == ApplyDaysToAll(items)
  {
  }

  /** Copying the percent down twice is the same as copying it once. */
  lemma ApplyPercentIdempotent(items: seq<Item>)
    ensures ApplyPercentToAll(ApplyPercentToAll(items)) == ApplyPercentToAll(items)
  {
  }

  /** Every item gets its index as position. */
  function Renumber(items: seq<Item>): (r: seq<Item>)
    ensures |r| == |items|
    ensures forall i :: 0 <= i < |items| ==> r[i] == items[i].(posicao := Some(i))
  {
    seq(|items|, i requires 0 <= i < |items| => items[i].(posicao := Some(i)))
  }

  function Swap(items: seq<Item>, i: nat, j: nat): (r: seq<Item>)
    requires i < |items| && j < |items|
    ensures |r| == |items| && r[i] == items[j] && r[j] == items[i]
    ensures forall k :: 0 <= k < |items| && k != i && k != j ==> r[k] == items[k]
  {
    items[i := items[j]][j := items[i]]
  }

  /** `moveItemUp(index)` */
  function MoveUp(items: seq<Item>, index: nat): (r: seq<Item>)
    requires index < |items|
    ensures index == 0 ==> r == items
    ensures index > 0 ==> r == Renumber(Swap(items, index, index - 1))
  {
    if index > 0 then Renumber(Swap(items, index, index - 1)) else items
  }

  /** `moveItemDown(index)` */
  function MoveDown(items: seq<Item>, index: nat): (r: seq<Item>)
    requires index < |items|
    ensures index == |items| - 1 ==> r == items
    ensures index < |items| - 1 ==> r == Renumber(Swap(items, index, index + 1))
  {
    if index < |items| - 1 then Renumber(Swap(items, index, index + 1)) else items
  }

  /** A move swaps the two neighbours, leaves every other item where it was,
      and numbers every position by its index. */
  lemma MoveUpEffect(items: seq<Item>, index: nat)
    requires 0 < index < |items|
    ensures var r := MoveUp(items, index);
            r[index - 1] == items[index].(posicao := Some(index - 1)) &&
            r[index] == items[index - 1].(posicao := Some(index)) &&
            (forall k :: 0 <= k < |items| && k != index && k != index - 1 ==> r[k] == items[k].(posicao := Some(k))) &&
            (forall k :: 0 <= k < |r| ==> r[k].posicao == Some(k))
  {
  }

  /** Moving an item down and then back up restores the order; only the
      positions are renumbered. */
  lemma DownThenUpRestores(items: seq<Item>, index: nat)
    requires index + 1 < |items|
    ensures MoveUp(MoveDown(items, index), index + 1) == Renumber(items)
  {
    var down := MoveDown(items, index);
    var back := MoveUp(down, index + 1);
    assert |back| == |items|;
    forall k | 0 <= k < |items| ensures back[k] == Renumber(items)[k] {
    }
  }

  /** Only one kind of discount is in force on the item. */
  predicate SingleDiscount(item: Item) {
    PercentOf(item) <= 0.0 || FlatOf(item) <= 0.0
  }

  /** Typing `text` into the percent field of item `index`: a positive value
      clears the flat amount. */
  function EditPercent(items: seq<Item>, index: nat, text: string): (r: seq<Item>)
    requires index < |items|
    ensures |r| == |items|
    ensures forall k :: 0 <= k < |items| && k != index ==> r[k] == items[k]
    ensures r[index].descontoPercentual == Num(ParseNumber(Str(text), 0.0))
    ensures r[index].descontoValor == if ParseNumber(Str(text), 0.0) > 0.0 then Num(0.0) else items[index].descontoValor
    ensures r[index] == items[index].(descontoPercentual := r[index].descontoPercentual, descontoValor := r[index].descontoValor)
  {
    var v := ParseNumber(Str(text), 0.0);
    var it := if v > 0.0 then items[index].(descontoValor := Num(0.0)) else items[index];
    items[index := it.(descontoPercentual := Num(v))]
  }

  /** Typing `text` into the flat field of item `index`: a positive value
      clears the percent. */
  function EditFlat(items: seq<Item>, index: nat, text: string): (r: seq<Item>)
    requires index < |items|
    ensures |r| == |items|
    ensures forall k :: 0 <= k < |items| && k != index ==> r[k] == items[k]
    ensures r[index].descontoValor == Num(ParseNumber(Str(text), 0.0))
    ensures r[index].descontoPercentual == if ParseNumber(Str(text), 0.0) > 0.0 then Num(0.0) else items[index].descontoPercentual
    ensures r[index] == items[index].(descontoPercentual := r[index].descontoPercentual, descontoValor := r[index].descontoValor)
  {
    var v := ParseNumber(Str(text), 0.0);
    var it := if v > 0.0 then items[index].(descontoPercentual := Num(0.0)) else items[index];
    items[index := it.(descontoValor := Num(v))]
  }

  /** Whatever is typed into the percent field, the edited item carries at
      most one discount afterwards. */
  lemma EditPercentLeavesSingleDiscount(items: seq<Item>, index: nat, text: string)
    requires index < |items|
    ensures SingleDiscount(EditPercent(items, index, text)[index])
  {
    var r := EditPercent(items, index, text)[index];
    OrZeroIsRedundant(r.descontoPercentual);
    OrZeroIsRedundant(r.descontoValor);
  }

  /** Whatever is typed into the flat field, the edited item carries at most
      one discount afterwards. */
  lemma EditFlatLeavesSingleDiscount(items: seq<Item>, index: nat, text: string)
    requires index < |items|
    ensures SingleDiscount(EditFlat(items, index, text)[index])
  {
    var r := EditFlat(items, index, text)[index];
    OrZeroIsRedundant(r.descontoPercentual);
    OrZeroIsRedundant(r.descontoValor);
  }

  /** The budget's general discount fields, as typed. */
  datatype GeneralDiscount = GeneralDiscount(percent: Raw, flat: Raw)

  /** Typing into the general percent field: any non-empty text (even "0")
      sets the flat amount to 0. */
  function EditGeneralPercent(g: GeneralDiscount, text: string): (r: GeneralDiscount)
    ensures r.percent == Str(text)
    ensures text != "" ==> r.flat == Num(0.0)
    ensures text == "" ==> r.flat == g.flat
  {
    if text != "" then GeneralDiscount(Str(text), Num(0.0)) else g.(percent := Str(text))
  }

  /** Typing into the general flat field: any non-empty text sets the
      percent to 0. */
  function EditGeneralFlat(g: GeneralDiscount, text: string): (r: GeneralDiscount)
    ensures r.flat == Str(text)
    ensures text != "" ==> r.percent == Num(0.0)
    ensures text == "" ==> r.percent == g.percent
  {
    if text != "" then GeneralDiscount(Num(0.0), Str(text)) else g.(flat := Str(text))
  }

  /** After typing a flat general amount the total no longer depends on
      the percent field's former content: it is the subtotal less the
      typed amount, with no percent applied. */
  lemma EditGeneralFlatDropsPercent(items: seq<Item>, catalog: seq<Catalog.Material>, g: GeneralDiscount, h: GeneralDiscount, text: string)
    requires text != ""
    ensures var a := EditGeneralFlat(g, text);
            var b := EditGeneralFlat(h, text);
            TotalComDesconto(items, catalog, a.percent, a.flat) == TotalComDesconto(items, catalog, b.percent, b.flat)
    ensures var a := EditGeneralFlat(g, text);
            TotalComDesconto(items, catalog, a.percent, a.flat) == Net(SubtotalItens(items, catalog), 0.0, ParseNumber(Str(text), 0.0))
  {
    OrZeroIsRedundant(Str(text));
    assert ParseNumber(OrZero(Num(0.0)), 0.0) == 0.0;
  }
}

=== FILE: materials.dfy ===
/**
 The materials screen (MaterialList.js): how loaded materials are
 normalised, the inventory quantity cell and its save, the two search
 boxes, and the equipment search of the budget form (OrcamentoForm.js).
 */
module Materials {
  import opened Options
  import opened Text
  import opened Numbers
  import opened Seqs
  import opened Catalog

  /** `loadMateriais`: an empty or missing category becomes `null`, a
      missing inventory quantity becomes 0. */
  function Normalize(m: Material): (r: Material)
    ensures r.id == m.id && r.equipamento == m.equipamento && r.custoDiario == m.custoDiario
    ensures r.categoria.Some? <==> m.categoria.Some? && m.categoria.value != ""
    ensures r.categoria.Some? ==> r.categoria == m.categoria
    ensures r.quantidadeInventario == Some(m.quantidadeInventario.GetOr(0))
  {
    m.(categoria := if m.categoria.Some? && m.categoria.value != "" then m.categoria else None,
       quantidadeInventario := Some(m.quantidadeInventario.GetOr(0)))
  }

  /** A material as `loadMateriais` leaves it. */
  predicate Normalized(m: Material) {
    (m.categoria.Some? ==> m.categoria.value != "") && m.quantidadeInventario.Some?
  }

  /** Normalising produces a normalised material and leaves one alone. */
  lemma NormalizeIdempotent(m: Material)
    ensures Normalized(Normalize(m))
    ensures Normalized(m) ==> Normalize(m) == m
    ensures Normalize(Normalize(m)) == Normalize(m)
  {
  }

  /** `Math.max(0, parseInt(text, 10) || 0)`: the quantity a text stands
      for; unreadable text, zero and negative numbers give 0. */
  function QuantityOf(text: string): (r: nat)
    ensures ParseInt(text).Some? && ParseInt(text).value > 0 ==> r == ParseInt(text).value
    ensures ParseInt(text).None? || ParseInt(text).value <= 0 ==> r == 0
  {
    match ParseInt(text)
    case None => 0
    case Some(n) => if n > 0 then n else 0
  }

  /** The quantity of the text `String(n)` is `n`, or 0 for a negative `n`. */
  lemma QuantityOfNumber(n: int)
    ensures QuantityOf(IntToString(n)) == if n < 0 then 0 else n
  {
    IntToStringRoundTrip(n);
  }

  /** The inventory cell: the text shown and whether it was edited. */
  datatype Cell = Cell(local: string, dirty: bool)

  /** The cell as it shows a stored quantity. */
  function ShowQuantity(value: int): (r: Cell)
    ensures !r.dirty && r.local == IntToString(value)
    ensures QuantityOf(r.local) == (if value < 0 then 0 else value)
  {
    QuantityOfNumber(value);
    Cell(IntToString(value), false)
  }

  /** Typing in the cell. */
  function Type(c: Cell, text: string): (r: Cell)
    ensures r.local == text && r.dirty
  {
    Cell(text, true)
  }

  /** What leaving the cell does: the cell after it and the quantity to
      save, if any. */
  datatype BlurOutcome = BlurOutcome(cell: Cell, save: Option<nat>)

  /** `handleBlur` for the cell of a material whose stored quantity is
      `value`. */
  function Blur(c: Cell, value: int): (r: BlurOutcome)
    ensures !c.dirty ==> r == BlurOutcome(c, None)
    ensures c.dirty ==> !r.cell.dirty && QuantityOf(r.cell.local) == QuantityOf(c.local)
    ensures c.dirty ==> (r.save.Some? <==> QuantityOf(c.local) != value)
    ensures r.save.Some? ==> r.save.value == QuantityOf(c.local)
  {
    if !c.dirty then BlurOutcome(c, None)
    else
      var num := QuantityOf(c.local);
      QuantityOfNumber(num);
      BlurOutcome(Cell(IntToString(num), false), if num != value then Some(num) else None)
  }

  /** Leaving the cell twice saves at most once, and the text it leaves
      behind is exactly `String` of the quantity it read. */
  lemma BlurSettles(c: Cell, value: int)
    ensures var once := Blur(c, value);
            Blur(once.cell, value) == BlurOutcome(once.cell, None) &&
            (c.dirty ==> once.cell.local == IntToString(QuantityOf(c.local)))
  {
  }

  /** Typing back the stored quantity and leaving the cell saves nothing. */
  lemma RetypingSavesNothing(c: Cell, value: nat)
    ensures Blur(Type(c, IntToString(value)), value).save == None
  {
    QuantityOfNumber(value);
  }

  /** `handleSalvarQuantidadeInventario` once the server accepts the value:
      the material with that id gets `max(0, valor)`, nothing else changes. */
  function SaveQuantity(ms: seq<Material>, id: string, valor: int): (r: seq<Material>)
    ensures |r| == |ms|
    ensures forall i :: 0 <= i < |ms| && ms[i].id == id ==>
              r[i] == ms[i].(quantidadeInventario := Some(if valor < 0 then 0 else valor))
    ensures forall i :: 0 <= i < |ms| && ms[i].id != id ==> r[i] == ms[i]
  {
    var num := QuantityOf(IntToString(valor));
    QuantityOfNumber(valor);
    seq(|ms|, i requires 0 <= i < |ms| => if ms[i].id == id then ms[i].(quantidadeInventario := Some(num)) else ms[i])
  }

  /** `material.field?.toLowerCase().includes(term)`: false when the field
      is missing. */
  predicate FieldHas(field: Option<string>, term: string) {
    field.Some? && Contains(Lower(field.value), term)
  }

  predicate MatchesSearch(m: Material, term: string) {
    FieldHas(m.categoria, term) || FieldHas(m.equipamento, term)
  }

  /** `filteredMateriais`: the main list's search. */
  function ListSearch(ms: seq<Material>, typed: string): (r: seq<Material>)
    ensures forall m :: m in r <==> m in ms && MatchesSearch(m, Lower(typed))
    ensures multiset(r) <= multiset(ms)
  {
    Filter(ms, (m: Material) => MatchesSearch(m, Lower(typed)))
  }

  /** With nothing typed, the main list shows the materials that have a
      category or an equipment name, and no others. */
  lemma EmptyListSearch(ms: seq<Material>, m: Material)
    ensures m in ListSearch(ms, "") <==> m in ms && (m.categoria.Some? || m.equipamento.Some?)
  {
    if m.categoria.Some? {
      EveryStringContainsEmpty(Lower(m.categoria.value));
    }
    if m.equipamento.Some? {
      EveryStringContainsEmpty(Lower(m.equipamento.value));
    }
  }

  /** `filteredInventario`: the inventory tab's search, which shows every
      material while nothing is typed. */
  function InventorySearch(ms: seq<Material>, typed: string): (r: seq<Material>)
    ensures typed == "" ==> r == ms
    ensures typed != "" ==> r == ListSearch(ms, typed)
  {
    if typed == "" then ms else ListSearch(ms, typed)
  }

  /** `(field || '').toLowerCase().includes(term)` */
  predicate TextHas(field: Option<string>, term: string) {
    Contains(Lower(field.GetOr("")), term)
  }

  /** `filterOptions` of the equipment picker: nothing for a blank input,
      otherwise the materials whose equipment name or category holds the
      trimmed, lower-cased input. */
  function PickerOptions(ms: seq<Material>, input: string): (r: seq<Material>)
    ensures AllSpace(input) ==> r == []
    ensures forall m :: m in r <==>
              (!AllSpace(input) && m in ms &&
               (TextHas(m.equipamento, Lower(Trim(input))) || TextHas(m.categoria, Lower(Trim(input)))))
  {
    BlankIffAllSpace(input);
    var term := Trim(input);
    if term == "" then []
    else Filter(ms, (m: Material) => TextHas(m.equipamento, Lower(term)) || TextHas(m.categoria, Lower(term)))
  }

  /** The empty text holds no term that is not empty. */
  lemma EmptyHoldsOnlyEmpty(t: string)
    requires t != ""
    ensures !Contains("", t)
  {
  }

  /** For input that is not blank, the picker offers the materials the main
      list's search would show for the trimmed input. */
  lemma PickerAgreesWithListSearch(ms: seq<Material>, input: string, m: Material)
    requires !AllSpace(input)
    ensures m in PickerOptions(ms, input) <==> m in ListSearch(ms, Trim(input))
  {
    BlankIffAllSpace(input);
    var term := Lower(Trim(input));
    assert term != "" by {
      assert |term| == |Trim(input)|;
    }
    EmptyHoldsOnlyEmpty(term);
    assert Lower("") == "";
  }
}

=== FILE: notifications.dfy ===
/**
 The payment bell in the header (PaymentNotifications.js): the budgets whose
 payment day falls in the current month, soonest first, each flagged as
 overdue or due today. Today's local date is a parameter.
 */
module Notifications {
  import opened Seqs
  import opened Sorting
  import opened Calendar
  import opened Budgets

  /** `new Date(year, month - 1, 1)`: the first day of the month. */
  function MonthStart(year: int, month: int): int {
    MonthStartDay(FullYear(year), month - 1)
  }

  /** `new Date(year, month, 0)`: the last day of the month. */
  function MonthEnd(year: int, month: int): int {
    MonthStartDay(FullYear(year), month) - 1
  }

  /** A budget for the bell: neither cancelled nor returned, with a payment
      day inside the month. */
  predicate DueThisMonth(b: Budget, year: int, month: int) {
    !Closed(b) && PaymentDay(b).Some? && MonthStart(year, month) <= PaymentDay(b).value <= MonthEnd(year, month)
  }

  /** `loadProximosPagamentos` for today's year and month (1-12). */
  function PaymentsThisMonth(bs: seq<Budget>, year: int, month: int): (r: seq<Budget>)
    ensures forall b :: b in r <==> b in bs && DueThisMonth(b, year, month)
    ensures multiset(r) <= multiset(bs)
    ensures forall b :: multiset(r)[b] == if DueThisMonth(b, year, month) then multiset(bs)[b] else 0
    ensures forall i, j :: 0 <= i < j < |r| ==> DueDay(r[i]) <= DueDay(r[j])
  {
    var due := Filter(bs, (b: Budget) => DueThisMonth(b, year, month));
    var r := SortByKey(due, DueDay);
    forall b ensures multiset(r)[b] == if DueThisMonth(b, year, month) then multiset(bs)[b] else 0 {
      FilterCount(bs, (b: Budget) => DueThisMonth(b, year, month), b);
    }
    forall b ensures b in r <==> b in due {
      assert b in r <==> b in multiset(r);
    }
    r
  }

  /** For a year from 100 on, the window runs from the first to the last day
      of the calendar month. */
  lemma MonthWindow(year: int, month: int)
    requires 100 <= year && 1 <= month <= 12
    ensures MonthStart(year, month) == DayNumber(year, month, 1)
    ensures MonthEnd(year, month) == DayNumber(year, month, DaysInMonth(year, month))
  {
    LastDayOfMonth(year, month);
  }

  /** A budget is in the bell exactly when its payment day is a day of the
      current month. */
  lemma DueThisMonthIsCalendarMonth(b: Budget, year: int, month: int)
    requires 100 <= year && 1 <= month <= 12
    ensures DueThisMonth(b, year, month) <==>
              !Closed(b) && PaymentDay(b).Some? &&
              DayNumber(year, month, 1) <= PaymentDay(b).value <= DayNumber(year, month, DaysInMonth(year, month))
  {
    MonthWindow(year, month);
  }

  /** `estaVencido` and `estaHoje` for the payment instant and today's local
      midnight, both in milliseconds. */
  datatype Flags = Flags(overdue: bool, dueToday: bool)

  function FlagsOf(dueMs: int, todayMs: int): (r: Flags)
    ensures !(r.overdue && r.dueToday)
    ensures !r.overdue && !r.dueToday <==> dueMs > todayMs
  {
    Flags(dueMs < todayMs, dueMs == todayMs)
  }

  /** A payment stored for a day and read at that day's local midnight is
      due today exactly on that day and overdue exactly after it. */
  lemma FlagsOfDays(due: int, today: int)
    ensures FlagsOf(due * MsPerDay, today * MsPerDay).dueToday <==> due == today
    ensures FlagsOf(due * MsPerDay, today * MsPerDay).overdue <==> due < today
  {
    if due < today {
      assert (today - due) * MsPerDay > 0;
    } else if due > today {
      assert (due - today) * MsPerDay > 0;
    }
  }
}

=== FILE: numbers.dfy ===
/**
 Decimal text and numbers: `String(n)` for integers, `padStart(2, '0')`, and
 the prefix parsers `parseInt(s, 10)` and `parseFloat(s)`, which read the
 longest decimal prefix after leading whitespace (for `parseFloat` with a
 fraction and an exponent part) and give NaN (here `None`) when there is
 none.
 */
module Numbers {
  import opened Text
  import opened Options

  function DigitChar(d: nat): char
    requires d < 10
  {
    ('0' as int + d) as char
  }

  function DigitOf(c: char): nat
    requires IsDigit(c)
  {
    c as int - '0' as int
  }

  predicate AllDigits(s: string) {
    forall i :: 0 <= i < |s| ==> IsDigit(s[i])
  }

  /** The value of a run of decimal digits, most significant first. */
  function DigitsValue(s: string): nat
    requires AllDigits(s)
  {
    if |s| == 0 then 0 else DigitsValue(s[..|s| - 1]) * 10 + DigitOf(s[|s| - 1])
  }

  /** `String(n)` for a non-negative integer below 10^21. */
  function NatToString(n: nat): (r: string)
    ensures |r| > 0 && AllDigits(r)
  {
    if n < 10 then [DigitChar(n)] else NatToString(n / 10) + [DigitChar(n % 10)]
  }

  /** `String(n)` for an integer. */
  function IntToString(n: int): string {
    if n < 0 then "-" + NatToString(-n) else NatToString(n)
  }

  /** Reading back the digits `String(n)` writes gives `n`. */
  lemma {:induction false} NatToStringRoundTrip(n: nat)
    ensures DigitsValue(NatToString(n)) == n
  {
    var r := NatToString(n);
    if n >= 10 {
      NatToStringRoundTrip(n / 10);
      assert r[..|r| - 1] == NatToString(n / 10);
      assert DigitOf(r[|r| - 1]) == n % 10;
    } else {
      assert r[..0] == "";
    }
  }

  /** `s.padStart(2, '0')` */
  function PadStart2(s: string): (r: string)
    ensures |r| == if |s| < 2 then 2 else |s|
    ensures AllDigits(s) ==> AllDigits(r)
    ensures r[|r| - |s|..] == s
  {
    if |s| == 0 then "00" else if |s| == 1 then "0" + s else s
  }

  /** The longest prefix of `s` made of digits. */
  function LeadingDigits(s: string): (r: string)
    ensures |r| <= |s| && r == s[..|r|] && AllDigits(r)
    ensures |r| < |s| ==> !IsDigit(s[|r|])
  {
    if |s| > 0 && IsDigit(s[0]) then [s[0]] + LeadingDigits(s[1..]) else ""
  }

  lemma {:induction false} LeadingDigitsOfDigits(s: string, rest: string)
    requires AllDigits(s)
    requires |rest| > 0 ==> !IsDigit(rest[0])
    ensures LeadingDigits(s + rest) == s
  {
    if |s| > 0 {
      assert (s + rest)[1..] == s[1..] + rest;
      LeadingDigitsOfDigits(s[1..], rest);
      assert s == [s[0]] + s[1..];
    } else {
      assert s + rest == rest;
    }
  }

  /** Splits an optional sign off the front: the sign's factor and the rest. */
  function SignOf(t: string): (int, string) {
    if |t| > 0 && t[0] == '-' then (-1, t[1..])
    else if |t| > 0 && t[0] == '+' then (1, t[1..])
    else (1, t)
  }

  /** `parseInt(s, 10)`; `None` stands for NaN. */
  function ParseInt(s: string): (r: Option<int>)
    ensures r.None? <==> |LeadingDigits(SignOf(TrimStart(s)).1)| == 0
  {
    var (sign, body) := SignOf(TrimStart(s));
    var digits := LeadingDigits(body);
    if |digits| == 0 then None else Some(sign * DigitsValue(digits))
  }

  /** `String(n)` starts with a digit or a minus sign, never with blank. */
  lemma IntToStringHasNoLeadingSpace(n: int)
    ensures TrimStart(IntToString(n)) == IntToString(n)
  {
    var s := IntToString(n);
    if n < 0 {
      assert s[0] == '-';
    } else {
      assert IsDigit(s[0]);
    }
  }

  /** The sign and the digits of `String(n)`. */
  lemma IntToStringParts(n: int)
    ensures SignOf(IntToString(n)) == (if n < 0 then -1 else 1, NatToString(if n < 0 then -n else n))
  {
    var digits := NatToString(if n < 0 then -n else n);
    assert IsDigit(digits[0]);
    if n < 0 {
      assert IntToString(n)[1..] == digits;
    }
  }

  /** `parseInt` reads back what `String` writes. */
  lemma IntToStringRoundTrip(n: int)
    ensures ParseInt(IntToString(n)) == Some(n)
  {
    var m: nat := if n < 0 then -n else n;
    var digits := NatToString(m);
    IntToStringHasNoLeadingSpace(n);
    IntToStringParts(n);
    LeadingDigitsOfDigits(digits, "");
    assert digits + "" == digits;
    assert LeadingDigits(digits) == digits;
    NatToStringRoundTrip(m);
  }

  function Pow10(k: nat): (r: nat)
    ensures r >= 1
  {
    if k == 0 then 1 else 10 * Pow10(k - 1)
  }

  /** The digits before a decimal point, the digits after it, and the text
      that follows them. */
  function Mantissa(body: string): (r: (string, string, string))
    ensures r.0 == LeadingDigits(body) && AllDigits(r.1)
  {
    var whole := LeadingDigits(body);
    var after := body[|whole|..];
    if |after| > 0 && after[0] == '.' then
      var frac := LeadingDigits(after[1..]);
      (whole, frac, after[1 + |frac|..])
    else
      (whole, "", after)
  }

  /** The power of ten an exponent part at the head of `rest` stands for:
      `e` or `E`, an optional sign and digits. Without digits there is no
      exponent part and the power is 0. */
  function ExponentOf(rest: string): int {
    if |rest| > 0 && (rest[0] == 'e' || rest[0] == 'E') then
      var (sign, digits) := SignOf(rest[1..]);
      sign * DigitsValue(LeadingDigits(digits))
    else 0
  }

  /** `x` times ten to the power `e`, one factor of ten at a time. */
  function Scale(x: real, e: int): real
    decreases if e < 0 then -e else e
  {
    if e == 0 then x
    else if e > 0 then 10.0 * Scale(x, e - 1)
    else Scale(x, e + 1) / 10.0
  }

  /** Scaling up multiplies by a power of ten. */
  lemma {:induction false} ScaleUp(x: real, k: nat)
    ensures Scale(x, k) == x * Pow10(k) as real
  {
    if k > 0 {
      ScaleUp(x, k - 1);
      var p := Pow10(k - 1) as real;
      assert Pow10(k) as real == 10.0 * p;
      assert 10.0 * (x * p) == x * (10.0 * p);
    }
  }

  /** Scaling down divides by a power of ten: multiplying back gives the
      original number. */
  lemma {:induction false} ScaleDown(x: real, k: nat)
    ensures Scale(x, -(k as int)) * Pow10(k) as real == x
  {
    if k > 0 {
      ScaleDown(x, k - 1);
      var p := Pow10(k - 1) as real;
      var y := Scale(x, -((k - 1) as int));
      assert Scale(x, -(k as int)) == y / 10.0;
      assert Pow10(k) as real == 10.0 * p;
      assert (y / 10.0) * (10.0 * p) == y * p;
    }
  }

  /** The value of the digits after a decimal point. */
  function FractionValue(frac: string): (r: real)
    requires AllDigits(frac)
    ensures 0.0 <= r < 1.0
    ensures |frac| == 0 ==> r == 0.0
  {
    if |frac| == 0 then 0.0
    else (DigitOf(frac[0]) as real + FractionValue(frac[1..])) / 10.0
  }

  /** `parseFloat(s)` for decimal text: optional sign, integer digits, an
      optional point and fraction digits, at least one digit in all, then an
      optional exponent part. */
  function ParseFloat(s: string): (r: Option<real>)
    ensures r.None? ==> |LeadingDigits(SignOf(TrimStart(s)).1)| == 0
    ensures var m := Mantissa(SignOf(TrimStart(s)).1);
            r.None? <==> |m.0| == 0 && |m.1| == 0
  {
    var (sign, body) := SignOf(TrimStart(s));
    var m := Mantissa(body);
    Decimal(sign, m.0, m.1, m.2)
  }

  /** Empty text is not a number. */
  lemma ParseFloatOfEmpty()
    ensures ParseFloat("") == None
  {
    assert TrimStart("") == "";
    assert SignOf("") == (1, "");
    assert LeadingDigits("") == "";
  }

  /** The number with the given sign, integer digits, fraction digits and
      trailing text, when there is at least one digit. */
  function Decimal(sign: int, whole: string, frac: string, rest: string): (r: Option<real>)
    requires AllDigits(whole) && AllDigits(frac)
    ensures r.None? <==> |whole| == 0 && |frac| == 0
  {
    if |whole| + |frac| == 0 then None
    else
      var magnitude := DigitsValue(whole) as real + FractionValue(frac);
      Some(Scale(if sign < 0 then -magnitude else magnitude, ExponentOf(rest)))
  }

  /** `String(n)` followed by text that does not start with a digit: the
      sign is that of `n` and the body is its digits and then the text. */
  lemma IntTextThen(n: int, tail: string)
    requires |tail| > 0 ==> !IsDigit(tail[0])
    ensures var s := IntToString(n) + tail;
            SignOf(TrimStart(s)) == (if n < 0 then -1 else 1, NatToString(if n < 0 then -n else n) + tail)
  {
    var digits := NatToString(if n < 0 then -n else n);
    var s := IntToString(n) + tail;
    IntToStringHasNoLeadingSpace(n);
    assert !IsSpace(s[0]) by { assert s[0] == IntToString(n)[0]; }
    assert TrimStart(s) == s;
    IntToStringParts(n);
    if n < 0 {
      assert s[1..] == digits + tail;
    } else {
      assert s == digits + tail;
    }
  }

  /** The exponent part `e` followed by `String(e)` stands for `e`. */
  lemma ExponentOfIntText(e: int)
    ensures ExponentOf("e" + IntToString(e)) == e
  {
    var em: nat := if e < 0 then -e else e;
    var digits := NatToString(em);
    var tail := "e" + IntToString(e);
    assert tail[0] == 'e' && tail[1..] == IntToString(e);
    IntToStringParts(e);
    assert SignOf(tail[1..]) == (if e < 0 then -1 else 1, digits);
    assert LeadingDigits(digits) == digits by {
      LeadingDigitsOfDigits(digits, "");
      assert digits + "" == digits;
    }
    NatToStringRoundTrip(em);
    assert ExponentOf(tail) == (if e < 0 then -1 else 1) * em;
  }

  /** Text whose number has no fraction digits reads as its sign times its
      integer digits, scaled by its exponent part. */
  lemma ParseFloatWithoutFraction(s: string, sign: int, body: string, whole: string, rest: string)
    requires SignOf(TrimStart(s)) == (sign, body)
    requires |whole| > 0 && AllDigits(whole)
    requires Mantissa(body) == (whole, "", rest)
    ensures ParseFloat(s) == Some(Scale(if sign < 0 then -(DigitsValue(whole) as real) else DigitsValue(whole) as real, ExponentOf(rest)))
  {
    ParseFloatSteps(s);
    DecimalWithoutFraction(sign, whole, rest);
  }

  /** `parseFloat` reads the sign, then the mantissa, then the exponent. */
  lemma ParseFloatSteps(s: string)
    ensures var t := SignOf(TrimStart(s));
            var m := Mantissa(t.1);
            ParseFloat(s) == Decimal(t.0, m.0, m.1, m.2)
  {
  }

  /** A number without fraction digits is its integer digits, signed and
      scaled. */
  lemma DecimalWithoutFraction(sign: int, whole: string, rest: string)
    requires |whole| > 0 && AllDigits(whole)
    ensures Decimal(sign, whole, "", rest) == Some(Scale(if sign < 0 then -(DigitsValue(whole) as real) else DigitsValue(whole) as real, ExponentOf(rest)))
  {
    assert FractionValue("") == 0.0;
  }

  /** Digits followed by text that starts with neither a digit nor a point
      form a mantissa without fraction digits. */
  lemma MantissaOfDigitsThen(digits: string, tail: string)
    requires AllDigits(digits)
    requires |tail| > 0 ==> !IsDigit(tail[0]) && tail[0] != '.'
    ensures Mantissa(digits + tail) == (digits, "", tail)
  {
    LeadingDigitsOfDigits(digits, tail);
    assert (digits + tail)[|digits|..] == tail;
  }

  /** A sign, digits and then text that starts with neither a digit nor a
      point read as the signed digits scaled by that text's exponent part. */
  lemma SignedDigitsParse(s: string, sign: int, digits: string, tail: string)
    requires |digits| > 0 && AllDigits(digits)
    requires |tail| > 0 ==> !IsDigit(tail[0]) && tail[0] != '.'
    requires SignOf(TrimStart(s)) == (sign, digits + tail)
    ensures ParseFloat(s) == Some(Scale(if sign < 0 then -(DigitsValue(digits) as real) else DigitsValue(digits) as real, ExponentOf(tail)))
  {
    MantissaOfDigitsThen(digits, tail);
    ParseFloatWithoutFraction(s, sign, digits + tail, digits, tail);
  }

  /** Text that starts as `String(n)` does and goes on with neither a digit
      nor a point reads as `n` scaled by the exponent part that follows. */
  lemma IntTextThenParses(s: string, n: int, tail: string)
    requires |tail| > 0 ==> !IsDigit(tail[0]) && tail[0] != '.'
    requires SignOf(TrimStart(s)) == (if n < 0 then -1 else 1, NatToString(if n < 0 then -n else n) + tail)
    ensures ParseFloat(s) == Some(Scale(n as real, ExponentOf(tail)))
  {
    var m: nat := if n < 0 then -n else n;
    var digits := NatToString(m);
    SignedDigitsParse(s, if n < 0 then -1 else 1, digits, tail);
    NatToStringRoundTrip(m);
    assert (if n < 0 then -(DigitsValue(digits) as real) else DigitsValue(digits) as real) == n as real;
  }

  /** Integer text with an integer exponent, as in `1e3` or `-25e-1`, reads
      as the integer scaled by that power of ten. */
  lemma ScientificTextParses(n: int, e: int)
    ensures ParseFloat(IntToString(n) + "e" + IntToString(e)) == Some(Scale(n as real, e))
  {
    var tail := "e" + IntToString(e);
    var s := IntToString(n) + tail;
    assert IntToString(n) + "e" + IntToString(e) == s;
    IntTextThen(n, tail);
    IntTextThenParses(s, n, tail);
    ExponentOfIntText(e);
  }

  /** On integer text `parseFloat` and `parseInt` agree. */
  lemma IntToStringParsesAsFloat(n: int)
    ensures ParseFloat(IntToString(n)) == Some(n as real)
  {
    var s := IntToString(n);
    assert s + "" == s;
    IntTextThen(n, "");
    IntTextThenParses(s, n, "");
    assert ExponentOf("") == 0;
    assert Scale(n as real, 0) == n as real;
  }
}

=== FILE: option.dfy ===
/** The optional value used wherever a JavaScript field may be `undefined`
    or `null`. */
module Options {

  datatype Option<T> = None | Some(value: T) {

    /** `x ?? default` */
    function GetOr(default: T): T {
      if Some? then value else default
    }
  }
}

=== FILE: pricing.dfy ===
/**
 Live pricing on the budget form (OrcamentoForm.js:390-458): the total of
 one line item, the rounded sum of the line totals, and the budget total
 after the general discount, as the form shows them while the user edits.
 */
module Pricing {
  import opened Options
  import opened Values
  import opened Seqs
  import opened Catalog

  /** A line item of the form. `materialId` is empty while no material is
      chosen; the numeric fields hold whatever the inputs or the loaded
      document put there. */
  datatype Item = Item(
    materialId: string,
    quantidade: Raw,
    dias: Raw,
    valorUnitario: Raw,
    descontoPercentual: Raw,
    descontoValor: Raw,
    posicao: Option<int>,
    categoria: Option<string>)

  /** The unit price: the catalog price when the material has one, else the
      item's own price (`material?.custoDiario ?? item.valorUnitario`), and
      0 when that does not parse. */
  function UnitPrice(item: Item, catalog: seq<Material>): real {
    ParseNumber(Coalesce(CatalogPrice(catalog, item.materialId), item.valorUnitario), 0.0)
  }

  function Quantity(item: Item): real {
    ParseNumber(OrZero(item.quantidade), 0.0)
  }

  function Days(item: Item): real {
    ParseNumber(OrZero(item.dias), 0.0)
  }

  function PercentOf(item: Item): real {
    ParseNumber(OrZero(item.descontoPercentual), 0.0)
  }

  function FlatOf(item: Item): real {
    ParseNumber(OrZero(item.descontoValor), 0.0)
  }

  /** The rounded quantity x days x unit price before any discount. */
  function LineSubtotal(item: Item, catalog: seq<Material>): (r: real)
    ensures IsCents(r)
  {
    Round2(Gross(item, catalog))
  }

  /** Quantity x days x unit price, unrounded. */
  function Gross(item: Item, catalog: seq<Material>): real {
    Quantity(item) * Days(item) * UnitPrice(item, catalog)
  }

  /** The gross amount is the product of the three parsed factors. */
  lemma GrossOfFactors(item: Item, catalog: seq<Material>, q: real, d: real, u: real)
    requires q == Quantity(item) && d == Days(item) && u == UnitPrice(item, catalog)
    ensures Gross(item, catalog) == q * d * u
  {
  }

  lemma GrossDeterminedByFactors(a: Item, b: Item, catalog: seq<Material>)
    requires Quantity(a) == Quantity(b) && Days(a) == Days(b)
    requires UnitPrice(a, catalog) == UnitPrice(b, catalog)
    ensures Gross(a, catalog) == Gross(b, catalog)
  {
  }

  /** The subtotal depends on the quantity, the days and the unit price only. */
  lemma LineSubtotalDeterminedByFactors(a: Item, b: Item, catalog: seq<Material>)
    requires Quantity(a) == Quantity(b) && Days(a) == Days(b)
    requires UnitPrice(a, catalog) == UnitPrice(b, catalog)
    ensures LineSubtotal(a, catalog) == LineSubtotal(b, catalog)
  {
    GrossDeterminedByFactors(a, b, catalog);
  }

  /** With the days and the unit price fixed and non-negative, a larger
      quantity never gives a smaller subtotal. */
  lemma LineSubtotalMonotoneInQuantity(a: Item, b: Item, catalog: seq<Material>)
    requires Days(a) == Days(b) >= 0.0
    requires UnitPrice(a, catalog) == UnitPrice(b, catalog) >= 0.0
    requires Quantity(a) <= Quantity(b)
    ensures LineSubtotal(a, catalog) <= LineSubtotal(b, catalog)
  {
    var d := Days(a);
    var u := UnitPrice(a, catalog);
    GrossOfFactors(a, catalog, Quantity(a), d, u);
    GrossOfFactors(b, catalog, Quantity(b), d, u);
    MulNonNegative(d, u);
    MulMonotone(Quantity(a), Quantity(b), d * u);
    assert Quantity(a) * d * u == Quantity(a) * (d * u);
    assert Quantity(b) * d * u == Quantity(b) * (d * u);
    Round2Monotone(Gross(a, catalog), Gross(b, catalog));
  }

  /** Multiplying by a non-negative factor keeps the order. */
  lemma MulMonotone(x: real, y: real, k: real)
    requires x <= y && k >= 0.0
    ensures x * k <= y * k
  {
    MulNonNegative(y - x, k);
    assert (y - x) * k == y * k - x * k;
  }

  /** Non-negative quantity, days and price give a non-negative subtotal. */
  lemma LineSubtotalNonNegative(item: Item, catalog: seq<Material>)
    requires Quantity(item) >= 0.0 && Days(item) >= 0.0 && UnitPrice(item, catalog) >= 0.0
    ensures LineSubtotal(item, catalog) >= 0.0
  {
    MulNonNegative(Quantity(item), Days(item));
    MulNonNegative(Quantity(item) * Days(item), UnitPrice(item, catalog));
    assert Gross(item, catalog) >= 0.0;
  }

  /** A discount on `base`: the percent when it is positive (rounded to
      cents), otherwise the flat amount as given. */
  function Discount(base: real, percent: real, flat: real): (r: real)
    ensures percent > 0.0 ==> IsCents(r)
    ensures percent <= 0.0 ==> r == flat
  {
    if percent > 0.0 then Round2(base * percent / 100.0) else flat
  }

  /** A positive percent takes that percentage of the base, to the nearest
      cent. */
  lemma PercentDiscountValue(base: real, percent: real, flat: real)
    requires percent > 0.0
    ensures Discount(base, percent, flat) == Round2(base * percent / 100.0)
    ensures var x := base * percent / 100.0;
            x - 0.005 <= Discount(base, percent, flat) <= x + 0.005
  {
  }

  /** What remains of `base` after the discount, never below zero, rounded
      to cents; the line total and the budget total are both this. */
  function Net(base: real, percent: real, flat: real): (r: real)
    ensures r >= 0.0 && IsCents(r)
  {
    Round2(Max(base - Discount(base, percent, flat), 0.0))
  }

  lemma MulNonNegative(a: real, b: real)
    requires a >= 0.0 && b >= 0.0
    ensures a * b >= 0.0
  {
  }

  /** With a positive percent the flat amount plays no part. */
  lemma NetPercentOverridesFlat(base: real, percent: real, f1: real, f2: real)
    requires percent > 0.0
    ensures Net(base, percent, f1) == Net(base, percent, f2)
  {
  }

  /** A non-negative discount never raises the amount above the base. */
  lemma NetAtMostBase(base: real, percent: real, flat: real)
    requires base >= 0.0 && IsCents(base)
    requires percent >= 0.0 && flat >= 0.0
    ensures Net(base, percent, flat) <= base
  {
    var desc := Discount(base, percent, flat);
    if percent > 0.0 {
      MulNonNegative(base, percent);
      Round2Monotone(0.0, base * percent / 100.0);
      Round2OfCents(0.0);
    }
    assert desc >= 0.0;
    Round2Monotone(Max(base - desc, 0.0), base);
    Round2OfCents(base);
  }

  /** A discount of 100 % or more leaves nothing. */
  lemma NetFullPercent(base: real, percent: real, flat: real)
    requires base >= 0.0 && IsCents(base)
    requires percent >= 100.0
    ensures Net(base, percent, flat) == 0.0
  {
    var x := base * percent / 100.0;
    assert x >= base by {
      MulNonNegative(base, percent - 100.0);
      assert base * (percent - 100.0) == base * percent - base * 100.0;
      assert base * percent >= base * 100.0;
    }
    Round2Monotone(base, x);
    Round2OfCents(base);
    assert Discount(base, percent, flat) >= base;
    assert Max(base - Discount(base, percent, flat), 0.0) == 0.0;
    Round2OfCents(0.0);
  }

  /** No discount leaves the base as it is. */
  lemma NetWithoutDiscount(base: real, percent: real)
    requires base >= 0.0 && IsCents(base)
    requires percent <= 0.0
    ensures Net(base, percent, 0.0) == base
  {
    Round2OfCents(base);
  }

  /** Nothing to discount from leaves nothing. */
  lemma NetOfZero(percent: real, flat: real)
    requires flat >= 0.0
    ensures Net(0.0, percent, flat) == 0.0
  {
    Round2OfCents(0.0);
    if percent > 0.0 {
      assert 0.0 * percent / 100.0 == 0.0;
    }
  }

  /** A larger flat discount never gives a larger amount. */
  lemma NetAntitoneInFlat(base: real, percent: real, f1: real, f2: real)
    requires f1 <= f2
    ensures Net(base, percent, f2) <= Net(base, percent, f1)
  {
    if percent <= 0.0 {
      Round2Monotone(Max(base - f2, 0.0), Max(base - f1, 0.0));
    }
  }

  /** `calculateItemTotal(item)` */
  function ItemTotal(item: Item, catalog: seq<Material>): (r: real)
    ensures r >= 0.0 && IsCents(r)
  {
    Net(LineSubtotal(item, catalog), PercentOf(item), FlatOf(item))
  }

  /** When the catalog has a price for the material, the item's own price
      is ignored: two items that differ only in it total the same. */
  lemma CatalogPriceWins(item: Item, other: Item, catalog: seq<Material>)
    requires other == item.(valorUnitario := other.valorUnitario)
    requires !CatalogPrice(catalog, item.materialId).Missing?
    ensures ItemTotal(other, catalog) == ItemTotal(item, catalog)
  {
    assert UnitPrice(other, catalog) == UnitPrice(item, catalog);
    LineSubtotalDeterminedByFactors(other, item, catalog);
  }

  /** Without a catalog price the item's own price is used. */
  lemma ItemPriceWhenNoCatalogPrice(item: Item, catalog: seq<Material>)
    requires CatalogPrice(catalog, item.materialId).Missing?
    ensures UnitPrice(item, catalog) == ParseNumber(item.valorUnitario, 0.0)
  {
  }

  /** A positive percent discount makes the flat discount irrelevant: two
      items that differ only in the flat amount total the same. */
  lemma PercentOverridesFlat(item: Item, other: Item, catalog: seq<Material>)
    requires other == item.(descontoValor := other.descontoValor)
    requires PercentOf(item) > 0.0
    ensures ItemTotal(other, catalog) == ItemTotal(item, catalog)
  {
    assert UnitPrice(other, catalog) == UnitPrice(item, catalog);
    LineSubtotalDeterminedByFactors(other, item, catalog);
    NetPercentOverridesFlat(LineSubtotal(item, catalog), PercentOf(item), FlatOf(other), FlatOf(item));
  }

  /** A quantity that does not parse counts as 0, and so does the line. */
  lemma UnparsableQuantityIsZero(item: Item, catalog: seq<Material>)
    requires ParseFloat(item.quantidade).None?
    requires FlatOf(item) >= 0.0
    ensures ItemTotal(item, catalog) == 0.0
  {
    OrZeroIsRedundant(item.quantidade);
    assert Quantity(item) == 0.0;
    Round2OfCents(0.0);
    assert LineSubtotal(item, catalog) == 0.0;
    NetOfZero(PercentOf(item), FlatOf(item));
  }

  /** With no discount the line total is the rounded subtotal. */
  lemma NoDiscountIsSubtotal(item: Item, catalog: seq<Material>)
    requires PercentOf(item) <= 0.0 && FlatOf(item) == 0.0
    requires LineSubtotal(item, catalog) >= 0.0
    ensures ItemTotal(item, catalog) == LineSubtotal(item, catalog)
  {
    NetWithoutDiscount(LineSubtotal(item, catalog), PercentOf(item));
  }

  /** A non-negative discount never raises the line above its subtotal. */
  lemma ItemTotalAtMostSubtotal(item: Item, catalog: seq<Material>)
    requires LineSubtotal(item, catalog) >= 0.0
    requires PercentOf(item) >= 0.0 && FlatOf(item) >= 0.0
    ensures ItemTotal(item, catalog) <= LineSubtotal(item, catalog)
  {
    NetAtMostBase(LineSubtotal(item, catalog), PercentOf(item), FlatOf(item));
  }

  /** A discount of 100 % or more leaves nothing to pay on the line. */
  lemma FullPercentIsZero(item: Item, catalog: seq<Material>)
    requires LineSubtotal(item, catalog) >= 0.0
    requires PercentOf(item) >= 100.0
    ensures ItemTotal(item, catalog) == 0.0
  {
    NetFullPercent(LineSubtotal(item, catalog), PercentOf(item), FlatOf(item));
  }

  function TotalsOf(items: seq<Item>, catalog: seq<Material>): real {
    SumBy(items, (i: Item) => ItemTotal(i, catalog))
  }

  /** A sum of whole-cent line totals is itself in whole cents. */
  lemma {:induction false} TotalsAreCents(items: seq<Item>, catalog: seq<Material>)
    ensures IsCents(TotalsOf(items, catalog)) && TotalsOf(items, catalog) >= 0.0
  {
    if |items| > 0 {
      TotalsAreCents(items[1..], catalog);
      CentsClosed(ItemTotal(items[0], catalog), TotalsOf(items[1..], catalog));
    } else {
      CentsClosed(0.0, 0.0);
    }
  }

  /** `subtotalItens`: the line totals summed and rounded. Since every line
      total is in whole cents the rounding changes nothing. */
  function SubtotalItens(items: seq<Item>, catalog: seq<Material>): (r: real)
    ensures r >= 0.0 && IsCents(r)
    ensures r == TotalsOf(items, catalog)
    ensures |items| == 0 ==> r == 0.0
  {
    TotalsAreCents(items, catalog);
    Round2OfCents(TotalsOf(items, catalog));
    Round2(TotalsOf(items, catalog))
  }

  /** `totalComDesconto`: the subtotal less the general discount, never
      below zero. `percent` and `flat` are the raw general discount fields. */
  function TotalComDesconto(items: seq<Item>, catalog: seq<Material>, percent: Raw, flat: Raw): (r: real)
    ensures r >= 0.0 && IsCents(r)
  {
    Net(SubtotalItens(items, catalog), ParseNumber(OrZero(percent), 0.0), ParseNumber(OrZero(flat), 0.0))
  }

  /** What remains of `base` after the discount, never below zero, with no
      rounding: the save-time counterpart of `Net`. */
  function NetUnrounded(base: real, percent: real, flat: real): (r: real)
    ensures r >= 0.0
    ensures base >= 0.0 && percent >= 0.0 && flat >= 0.0 ==> r <= base
  {
    if percent > 0.0 then
      MulNonNegativeImplies(base, percent);
      Max(base - (base * percent) / 100.0, 0.0)
    else Max(base - flat, 0.0)
  }

  lemma MulNonNegativeImplies(a: real, b: real)
    ensures a >= 0.0 && b >= 0.0 ==> a * b >= 0.0
  {
    if a >= 0.0 && b >= 0.0 {
      MulNonNegative(a, b);
    }
  }

  /** `calculateTotal()`: the same figure without the roundings; this is the
      `valorFinal` the form sends when it saves. */
  function CalculateTotal(items: seq<Item>, catalog: seq<Material>, percent: Raw, flat: Raw): (r: real)
    ensures r >= 0.0
    ensures ParseNumber(percent, 0.0) >= 0.0 && ParseNumber(flat, 0.0) >= 0.0 ==> r <= TotalsOf(items, catalog)
  {
    TotalsAreCents(items, catalog);
    NetUnrounded(TotalsOf(items, catalog), ParseNumber(percent, 0.0), ParseNumber(flat, 0.0))
  }

  /** A positive general percent makes the general flat amount irrelevant. */
  lemma GeneralPercentOverridesFlat(items: seq<Item>, catalog: seq<Material>, percent: Raw, flat: Raw, other: Raw)
    requires ParseNumber(percent, 0.0) > 0.0
    ensures TotalComDesconto(items, catalog, percent, flat) == TotalComDesconto(items, catalog, percent, other)
    ensures CalculateTotal(items, catalog, percent, flat) == CalculateTotal(items, catalog, percent, other)
  {
    OrZeroIsRedundant(percent);
    NetPercentOverridesFlat(SubtotalItens(items, catalog), ParseNumber(percent, 0.0),
      ParseNumber(OrZero(flat), 0.0), ParseNumber(OrZero(other), 0.0));
  }

  /** With no percent and a flat amount in whole cents, rounding changes
      nothing about what remains of a base in whole cents. */
  lemma NetFlatNeedsNoRounding(base: real, percent: real, flat: real)
    requires IsCents(base) && IsCents(flat) && percent <= 0.0
    ensures Net(base, percent, flat) == NetUnrounded(base, percent, flat)
  {
    CentsClosed(base, flat);
    CentsClosed(base - flat, 0.0);
    Round2OfCents(Max(base - flat, 0.0));
  }

  /** With a flat general discount in whole cents, the total the form shows
      and the total it saves are the same number. */
  lemma ShownTotalIsSavedTotal(items: seq<Item>, catalog: seq<Material>, percent: Raw, flat: Raw)
    requires ParseNumber(percent, 0.0) <= 0.0
    requires IsCents(ParseNumber(flat, 0.0))
    ensures TotalComDesconto(items, catalog, percent, flat) == CalculateTotal(items, catalog, percent, flat)
  {
    OrZeroIsRedundant(percent);
    OrZeroIsRedundant(flat);
    var tot := TotalsOf(items, catalog);
    TotalsAreCents(items, catalog);
    Round2OfCents(tot);
    NetFlatNeedsNoRounding(tot, ParseNumber(percent, 0.0), ParseNumber(flat, 0.0));
  }

  /** A larger flat general discount never gives a larger total. */
  lemma TotalAntitoneInFlat(items: seq<Item>, catalog: seq<Material>, percent: Raw, f1: real, f2: real)
    requires f1 <= f2
    ensures TotalComDesconto(items, catalog, percent, Num(f2)) <= TotalComDesconto(items, catalog, percent, Num(f1))
  {
    OrZeroIsRedundant(Num(f1));
    OrZeroIsRedundant(Num(f2));
    NetAntitoneInFlat(SubtotalItens(items, catalog), ParseNumber(OrZero(percent), 0.0), f1, f2);
  }

  /** A budget without items shows zero whatever its non-negative general
      discount. */
  lemma EmptyBudgetShowsZero(catalog: seq<Material>, percent: Raw, flat: Raw)
    requires ParseNumber(flat, 0.0) >= 0.0
    ensures TotalComDesconto([], catalog, percent, flat) == 0.0
  {
    OrZeroIsRedundant(flat);
    assert SubtotalItens([], catalog) == 0.0;
    NetOfZero(ParseNumber(OrZero(percent), 0.0), ParseNumber(flat, 0.0));
  }

  /** ... and saves zero as its final value. */
  lemma EmptyBudgetSavesZero(catalog: seq<Material>, percent: Raw, flat: Raw)
    requires ParseNumber(flat, 0.0) >= 0.0
    ensures CalculateTotal([], catalog, percent, flat) == 0.0
  {
    var p := ParseNumber(percent, 0.0);
    var sub := TotalsOf([], catalog);
    assert sub == 0.0;
    assert (sub * p) / 100.0 == 0.0;
  }

  /** A percent of at most 100 takes a part of a non-negative base no larger
      than the base. */
  lemma PercentPartWithinBase(base: real, percent: real)
    requires base >= 0.0 && 0.0 < percent <= 100.0
    ensures 0.0 <= base * percent / 100.0 <= base
    ensures base - base * percent / 100.0 == base * (100.0 - percent) / 100.0
  {
    MulNonNegative(base, percent);
    MulNonNegative(base, 100.0 - percent);
    assert base * (100.0 - percent) == base * 100.0 - base * percent;
  }

  /** Under a percent discount of at most 100, what remains of a base in
      whole cents is the base less the percentage rounded to cents, and so
      within half a cent of `base * (100 - percent) / 100`. */
  lemma NetUnderPercent(base: real, percent: real, flat: real)
    requires base >= 0.0 && IsCents(base)
    requires 0.0 < percent <= 100.0
    ensures Net(base, percent, flat) == base - Round2(base * percent / 100.0)
    ensures base * (100.0 - percent) / 100.0 - 0.005 <= Net(base, percent, flat) <= base * (100.0 - percent) / 100.0 + 0.005
  {
    NetIsBaseLessRoundedPart(base, percent, flat);
    PercentPartWithinBase(base, percent);
  }

  /** Under a percent discount of at most 100 a whole-cent base keeps
      exactly what the rounded percentage leaves of it. */
  lemma NetIsBaseLessRoundedPart(base: real, percent: real, flat: real)
    requires base >= 0.0 && IsCents(base)
    requires 0.0 < percent <= 100.0
    ensures Net(base, percent, flat) == base - Round2(base * percent / 100.0)
  {
    DiscountWithinBase(base, percent, flat);
    NetOfRoundedPart(base, Discount(base, percent, flat));
  }

  /** A percent discount of at most 100 on a whole-cent base takes no more
      than the base. */
  lemma DiscountWithinBase(base: real, percent: real, flat: real)
    requires base >= 0.0 && IsCents(base)
    requires 0.0 < percent <= 100.0
    ensures 0.0 <= Discount(base, percent, flat) <= base
  {
    PercentPartWithinBase(base, percent);
    RoundedPartWithinBase(base, base * percent / 100.0);
  }

  /** A part of a base in whole cents, rounded to cents, stays within the
      base. */
  lemma RoundedPartWithinBase(base: real, x: real)
    requires IsCents(base) && 0.0 <= x <= base
    ensures 0.0 <= Round2(x) <= base
  {
    Round2Monotone(x, base);
    Round2OfCents(base);
  }

  /** Taking a whole-cent part from a whole-cent base needs no rounding. */
  lemma NetOfRoundedPart(base: real, d: real)
    requires IsCents(base) && IsCents(d) && 0.0 <= d <= base
    ensures Round2(Max(base - d, 0.0)) == base - d
  {
    assert Max(base - d, 0.0) == base - d;
    CentsClosed(base, d);
    Round2OfCents(base - d);
  }

  /** Under a percent discount of at most 100, the unrounded amount is the
      base less exactly that percentage. */
  lemma NetUnroundedUnderPercent(base: real, percent: real, flat: real)
    requires base >= 0.0 && 0.0 < percent <= 100.0
    ensures NetUnrounded(base, percent, flat) == base - base * percent / 100.0 == base * (100.0 - percent) / 100.0
  {
    PercentPartWithinBase(base, percent);
  }

  /** A percent discount of 100 or more leaves nothing unrounded either. */
  lemma NetUnroundedFullPercent(base: real, percent: real, flat: real)
    requires base >= 0.0 && percent >= 100.0
    ensures NetUnrounded(base, percent, flat) == 0.0
  {
    MulNonNegative(base, percent - 100.0);
    assert base * (percent - 100.0) == base * percent - base * 100.0;
  }

  /** The total of a line under a percent discount of at most 100: its
      subtotal less the rounded percentage of it. */
  lemma ItemTotalUnderPercent(item: Item, catalog: seq<Material>)
    requires LineSubtotal(item, catalog) >= 0.0
    requires 0.0 < PercentOf(item) <= 100.0
    ensures var sub := LineSubtotal(item, catalog);
            ItemTotal(item, catalog) == sub - Round2(sub * PercentOf(item) / 100.0)
  {
    NetUnderPercent(LineSubtotal(item, catalog), PercentOf(item), FlatOf(item));
  }

  /** The budget total under a general percent of at most 100: the form
      shows the items' subtotal less the rounded percentage, and saves the
      subtotal less the exact percentage; the two differ by at most half a
      cent. */
  lemma TotalsUnderPercent(items: seq<Item>, catalog: seq<Material>, percent: Raw, flat: Raw)
    requires 0.0 < ParseNumber(percent, 0.0) <= 100.0
    ensures TotalComDesconto(items, catalog, percent, flat)
            == SubtotalItens(items, catalog) - Round2(SubtotalItens(items, catalog) * ParseNumber(percent, 0.0) / 100.0)
    ensures CalculateTotal(items, catalog, percent, flat)
            == SubtotalItens(items, catalog) - SubtotalItens(items, catalog) * ParseNumber(percent, 0.0) / 100.0
    ensures -0.005 <= TotalComDesconto(items, catalog, percent, flat) - CalculateTotal(items, catalog, percent, flat) <= 0.005
  {
    TotalsAsNets(items, catalog, percent, flat);
    PercentTotals(SubtotalItens(items, catalog), ParseNumber(percent, 0.0),
                  ParseNumber(OrZero(flat), 0.0), ParseNumber(flat, 0.0),
                  TotalComDesconto(items, catalog, percent, flat), CalculateTotal(items, catalog, percent, flat));
  }

  /** Both totals are the items' subtotal under the general discount: the
      shown one rounded (`Net`), the saved one not (`NetUnrounded`). */
  lemma TotalsAsNets(items: seq<Item>, catalog: seq<Material>, percent: Raw, flat: Raw)
    ensures TotalComDesconto(items, catalog, percent, flat)
            == Net(SubtotalItens(items, catalog), ParseNumber(percent, 0.0), ParseNumber(OrZero(flat), 0.0))
    ensures CalculateTotal(items, catalog, percent, flat)
            == NetUnrounded(SubtotalItens(items, catalog), ParseNumber(percent, 0.0), ParseNumber(flat, 0.0))
  {
    OrZeroIsRedundant(percent);
  }

  /** The shown and the saved amount of a whole-cent base under the same
      percent, whatever flat amounts accompany it. */
  lemma PercentTotals(sub: real, p: real, f1: real, f2: real, shown: real, saved: real)
    requires sub >= 0.0 && IsCents(sub) && 0.0 < p <= 100.0
    requires shown == Net(sub, p, f1) && saved == NetUnrounded(sub, p, f2)
    ensures shown == sub - Round2(sub * p / 100.0) && saved == sub - sub * p / 100.0
    ensures -0.005 <= shown - saved <= 0.005
  {
    NetUnderPercent(sub, p, f1);
    NetUnroundedUnderPercent(sub, p, f2);
    RoundingGap(shown, saved, sub, sub * p / 100.0);
  }

  /** Taking a part rounded to cents, instead of the exact part, moves the
      remainder by at most half a cent. */
  lemma RoundingGap(shown: real, saved: real, base: real, x: real)
    requires shown == base - Round2(x) && saved == base - x
    ensures -0.005 <= shown - saved <= 0.005
  {
  }

  /** Under a general percent of 100 or more both totals are zero. */
  lemma TotalsUnderFullPercent(items: seq<Item>, catalog: seq<Material>, percent: Raw, flat: Raw)
    requires ParseNumber(percent, 0.0) >= 100.0
    ensures TotalComDesconto(items, catalog, percent, flat) == 0.0
    ensures CalculateTotal(items, catalog, percent, flat) == 0.0
  {
    var sub := SubtotalItens(items, catalog);
    OrZeroIsRedundant(percent);
    NetFullPercent(sub, ParseNumber(percent, 0.0), ParseNumber(OrZero(flat), 0.0));
    NetUnroundedFullPercent(sub, ParseNumber(percent, 0.0), ParseNumber(flat, 0.0));
  }

  /** Two lines, a camera at 100 for one unit over three days and two lights
      at 50 over three days with 10 % off, and 5 % off the budget: the lines
      total 300 and 270, the items 570, and the budget 541.50 both as shown
      and as saved. */
  lemma TwoLineBudget(items: seq<Item>, catalog: seq<Material>)
    requires catalog == [Material("a", Some("Camera"), None, Num(100.0), None),
                         Material("b", Some("Lighting"), None, Num(50.0), None)]
    requires items == [Item("a", Num(1.0), Num(3.0), Missing, Num(0.0), Num(0.0), None, None),
                       Item("b", Num(2.0), Num(3.0), Missing, Num(10.0), Num(0.0), None, None)]
    ensures ItemTotal(items[0], catalog) == 300.0
    ensures ItemTotal(items[1], catalog) == 270.0
    ensures SubtotalItens(items, catalog) == 570.0
    ensures TotalComDesconto(items, catalog, Num(5.0), Num(0.0)) == 541.5
    ensures CalculateTotal(items, catalog, Num(5.0), Num(0.0)) == 541.5
  {
    assert IsCents(300.0) by { assert 300.0 * 100.0 == 30000 as real; }
    assert IsCents(30.0) by { assert 30.0 * 100.0 == 3000 as real; }
    assert IsCents(570.0) by { assert 570.0 * 100.0 == 57000 as real; }
    assert IsCents(28.5) by { assert 28.5 * 100.0 == 2850 as real; }
    var a := items[0];
    var b := items[1];
    assert ItemTotal(a, catalog) == 300.0 by {
      assert FindMaterial(catalog, "a") == Some(catalog[0]);
      assert UnitPrice(a, catalog) == 100.0;
      assert Gross(a, catalog) == 300.0;
      Round2OfCents(300.0);
      NetWithoutDiscount(300.0, 0.0);
    }
    assert ItemTotal(b, catalog) == 270.0 by {
      assert FindMaterial(catalog, "b") == Some(catalog[1]);
      assert UnitPrice(b, catalog) == 50.0;
      assert Gross(b, catalog) == 300.0;
      Round2OfCents(300.0);
      ItemTotalUnderPercent(b, catalog);
      Round2OfCents(30.0);
    }
    assert SubtotalItens(items, catalog) == 570.0 by {
      var f := (i: Item) => ItemTotal(i, catalog);
      assert items[1..] == [b] && [b][1..] == [];
      assert SumBy([b], f) == f(b) + SumBy([], f);
      assert SumBy(items, f) == f(a) + SumBy([b], f);
      assert TotalsOf(items, catalog) == SumBy(items, f);
    }
    TotalsUnderPercent(items, catalog, Num(5.0), Num(0.0));
    assert 570.0 * 5.0 / 100.0 == 28.5;
    Round2OfCents(28.5);
  }
}

=== FILE: reports.dfy ===
/**
 The monthly report (RelatoriosPage.js): the summary of the listed budgets,
 the date range asked of the server for a month, and recording a paid
 amount with the payment status derived from it.
 */
module Reports {
  import opened Options
  import opened Values
  import opened Seqs
  import opened Calendar
  import Numbers
  import opened Budgets

  datatype Summary = Summary(total: nat, totalValorPago: real, totalValorFinal: real)

  /** `item.valorPago || 0` */
  function PaidOf(b: Budget): real {
    OrElse(b.valorPago, 0.0)
  }

  /** `item.valorFinal || 0` */
  function FinalOf(b: Budget): real {
    OrElse(b.valorFinal, 0.0)
  }

  /** `updateSummary` */
  function UpdateSummary(bs: seq<Budget>): (r: Summary)
    ensures r.total == |bs|
    ensures bs == [] ==> r == Summary(0, 0.0, 0.0)
  {
    Summary(|bs|, SumBy(bs, PaidOf), SumBy(bs, FinalOf))
  }

  /** The summary of two lists together adds up their summaries. */
  lemma UpdateSummaryAppend(a: seq<Budget>, b: seq<Budget>)
    ensures var sa := UpdateSummary(a);
            var sb := UpdateSummary(b);
            UpdateSummary(a + b) == Summary(sa.total + sb.total, sa.totalValorPago + sb.totalValorPago,
                                            sa.totalValorFinal + sb.totalValorFinal)
  {
    SumByAppend(a, b, PaidOf);
    SumByAppend(a, b, FinalOf);
  }

  /** `valorPago >= (valorFinal || 0) ? 'PAGO' : valorPago > 0 ? 'PARCIAL' : 'PENDENTE'` */
  function PaymentStatusFor(paid: real, valorFinal: Option<real>): (r: PaymentStatus)
    ensures r == Pago <==> paid >= OrElse(valorFinal, 0.0)
    ensures r == Parcial <==> 0.0 < paid < OrElse(valorFinal, 0.0)
    ensures r == PagamentoPendente <==> paid <= 0.0 && paid < OrElse(valorFinal, 0.0)
  {
    if paid >= OrElse(valorFinal, 0.0) then Pago
    else if paid > 0.0 then Parcial
    else PagamentoPendente
  }

  /** `parseFloat(editingValue) || 0` */
  function ParsePaid(text: string): (r: real)
    ensures Numbers.ParseFloat(text).None? ==> r == 0.0
    ensures Numbers.ParseFloat(text).Some? ==> r == Numbers.ParseFloat(text).value
  {
    OrElse(Numbers.ParseFloat(text), 0.0)
  }

  /** A whole number typed as the paid amount is read as that number. */
  lemma ParsePaidOfIntText(n: int)
    ensures ParsePaid(Numbers.IntToString(n)) == n as real
  {
    Numbers.IntToStringParsesAsFloat(n);
  }

  /** The update request `handleSaveValorPago` sends. */
  datatype PaymentUpdate = PaymentUpdate(id: string, valorPago: real, statusPagamento: PaymentStatus)

  function PaymentRequest(target: Budget, text: string): PaymentUpdate {
    var paid := ParsePaid(text);
    PaymentUpdate(target.id, paid, PaymentStatusFor(paid, target.valorFinal))
  }

  /** The local list after the paid amount of `target` is saved. */
  function SavePaid(bs: seq<Budget>, target: Budget, text: string): (r: seq<Budget>)
    ensures |r| == |bs|
    ensures forall i :: 0 <= i < |bs| && bs[i].id != target.id ==> r[i] == bs[i]
    ensures forall i :: 0 <= i < |bs| && bs[i].id == target.id ==>
              r[i] == bs[i].(valorPago := Some(ParsePaid(text)),
                             statusPagamento := Some(PaymentStatusFor(ParsePaid(text), bs[i].valorFinal)))
  {
    var paid := ParsePaid(text);
    seq(|bs|, i requires 0 <= i < |bs| =>
      if bs[i].id == target.id
      then bs[i].(valorPago := Some(paid), statusPagamento := Some(PaymentStatusFor(paid, bs[i].valorFinal)))
      else bs[i])
  }

  /** The status kept locally for the saved budget is the one sent to the
      server. */
  lemma SavedStatusIsSent(bs: seq<Budget>, i: nat, text: string)
    requires i < |bs|
    ensures var req := PaymentRequest(bs[i], text);
            SavePaid(bs, bs[i], text)[i].statusPagamento == Some(req.statusPagamento) &&
            SavePaid(bs, bs[i], text)[i].valorPago == Some(req.valorPago)
  {
  }

  /** With ids unique, saving a paid amount moves the paid total by the
      change in that one budget and leaves the count and the final total. */
  lemma SavePaidSummary(bs: seq<Budget>, i: nat, text: string)
    requires i < |bs|
    requires forall k :: 0 <= k < |bs| && k != i ==> bs[k].id != bs[i].id
    ensures var before := UpdateSummary(bs);
            var after := UpdateSummary(SavePaid(bs, bs[i], text));
            after.total == before.total &&
            after.totalValorFinal == before.totalValorFinal &&
            after.totalValorPago == before.totalValorPago - PaidOf(bs[i]) + ParsePaid(text)
  {
    var r := SavePaid(bs, bs[i], text);
    SumByChangeOne(bs, r, i, PaidOf);
    SumByChangeOne(bs, r, i, FinalOf);
    var p := ParsePaid(text);
    if p == 0.0 {
      assert PaidOf(r[i]) == 0.0;
    }
  }

  /** What `fetchReport` does for a month field: nothing to ask when the
      field is empty, otherwise the confirmed and returned budgets created
      between the two instants. */
  datatype ReportQuery = NoMonth | Query(statuses: seq<Status>, startMs: int, endMs: int)

  /** `fetchReport`. The month field holds "YYYY-MM", already split into
      year and month numbers, or nothing. */
  function FetchReport(month: Option<(int, int)>): (r: ReportQuery)
    ensures month.None? <==> r.NoMonth?
    ensures r.Query? ==> r.statuses == [Confirmado, Devolvido]
  {
    match month
    case None => NoMonth
    case Some((year, m)) =>
      var y := FullYear(year);
      Query([Confirmado, Devolvido], MonthStartDay(y, m - 1) * MsPerDay,
            (MonthStartDay(y, m) - 1) * MsPerDay + 23 * 3600000 + 59 * 60000 + 59 * 1000 + 999)
  }

  /** With no month the report is an empty list with a zero summary. */
  function ReportWithoutMonth(): (r: (seq<Budget>, Summary))
    ensures r.0 == [] && r.1 == Summary(0, 0.0, 0.0)
  {
    ([], UpdateSummary([]))
  }

  /** The range asked for month `m` of year `y` starts at midnight of its
      first day and ends at the last millisecond of its last day. */
  lemma ReportRangeIsMonth(y: int, m: int)
    requires 100 <= y && 1 <= m <= 12
    ensures var q := FetchReport(Some((y, m)));
            q.Query? &&
            q.startMs == DayNumber(y, m, 1) * MsPerDay &&
            q.endMs == DayNumber(y, m, DaysInMonth(y, m)) * MsPerDay + MsPerDay - 1
  {
    LastDayOfMonth(y, m);
  }

  /** An instant lies in the range exactly when it falls on a day of the
      month. */
  lemma InReportRange(y: int, m: int, t: int)
    requires 100 <= y && 1 <= m <= 12
    ensures var q := FetchReport(Some((y, m)));
            q.Query? &&
            (q.startMs <= t <= q.endMs <==>
               DayNumber(y, m, 1) <= t / MsPerDay <= DayNumber(y, m, DaysInMonth(y, m)))
  {
    ReportRangeIsMonth(y, m);
    DayOfInstant(DayNumber(y, m, 1), DayNumber(y, m, DaysInMonth(y, m)), t);
  }

  /** The day of an instant, `t / MsPerDay`, lies between two days exactly
      when the instant lies between the first millisecond of the first and
      the last millisecond of the second. */
  lemma DayOfInstant(a: int, b: int, t: int)
    ensures a * MsPerDay <= t <= b * MsPerDay + MsPerDay - 1 <==> a <= t / MsPerDay <= b
  {
    var d := t / MsPerDay;
    assert d * MsPerDay <= t < d * MsPerDay + MsPerDay;
    if a <= d {
      assert a * MsPerDay <= d * MsPerDay;
    } else {
      assert (a - d) * MsPerDay >= MsPerDay;
    }
    if d <= b {
      assert d * MsPerDay <= b * MsPerDay;
    } else {
      assert (d - b) * MsPerDay >= MsPerDay;
    }
  }
}

=== FILE: saving.dfy ===
/**
 What the budget form sends when it saves (OrcamentoForm.js:929-981): items
 without a material are dropped, repeated items are kept once, and every
 remaining item is priced again, this time taking the item's own unit price
 before the catalog's, defaulting an unreadable quantity or day count to 1,
 and applying no rounding.
 */
module Saving {
  import opened Options
  import opened Values
  import opened Seqs
  import opened Catalog
  import opened Pricing
  import Numbers

  /** An item with a material chosen (`item && item.materialId`). */
  predicate HasMaterial(item: Item) {
    item.materialId != ""
  }

  /** The content the form compares items by: material, quantity, days,
      unit price and both discounts. */
  datatype ItemKey = ItemKey(materialId: string, quantidade: Raw, dias: Raw, valorUnitario: Raw, descontoPercentual: Raw, descontoValor: Raw)

  function KeyOf(item: Item): ItemKey {
    ItemKey(item.materialId, item.quantidade, item.dias, item.valorUnitario, item.descontoPercentual, item.descontoValor)
  }

  /** Keys of `items` as a set. */
  function KeysOf(items: seq<Item>): (r: set<ItemKey>)
    ensures forall i :: 0 <= i < |items| ==> KeyOf(items[i]) in r
  {
    if |items| == 0 then {}
    else
      var rest := KeysOf(items[..|items| - 1]);
      assert forall i :: 0 <= i < |items| - 1 ==> items[..|items| - 1][i] == items[i];
      rest + {KeyOf(items[|items| - 1])}
  }

  /** Every element of `items` whose key has not occurred before it, in
      order: the reference definition of the de-duplication. */
  function FirstOccurrences(items: seq<Item>): (r: seq<Item>)
    ensures |r| <= |items|
  {
    if |items| == 0 then []
    else
      var prefix := items[..|items| - 1];
      var last := items[|items| - 1];
      FirstOccurrences(prefix) + (if KeyOf(last) in KeysOf(prefix) then [] else [last])
  }

  lemma KeysOfSnoc(s: seq<Item>, x: Item)
    ensures KeysOf(s + [x]) == KeysOf(s) + {KeyOf(x)}
  {
    assert (s + [x])[..|s|] == s;
  }

  /** The kept items carry exactly the keys of the input. */
  lemma {:induction false} FirstOccurrencesKeys(items: seq<Item>)
    ensures KeysOf(FirstOccurrences(items)) == KeysOf(items)
  {
    if |items| > 0 {
      var prefix := items[..|items| - 1];
      var last := items[|items| - 1];
      assert items == prefix + [last];
      FirstOccurrencesKeys(prefix);
      KeysOfSnoc(prefix, last);
      var f := FirstOccurrences(prefix);
      if KeyOf(last) !in KeysOf(prefix) {
        assert FirstOccurrences(items) == f + [last];
        KeysOfSnoc(f, last);
        assert KeysOf(f + [last]) == KeysOf(prefix) + {KeyOf(last)};
      } else {
        assert FirstOccurrences(items) == f + [];
        assert f + [] == f;
        assert KeysOf(items) == KeysOf(prefix) + {KeyOf(last)};
      }
    }
  }

  predicate DistinctKeys(s: seq<Item>) {
    forall i, j :: 0 <= i < j < |s| ==> KeyOf(s[i]) != KeyOf(s[j])
  }

  /** No two kept items have the same key. */
  lemma {:induction false} FirstOccurrencesDistinct(items: seq<Item>)
    ensures DistinctKeys(FirstOccurrences(items))
  {
    if |items| > 0 {
      var prefix := items[..|items| - 1];
      var last := items[|items| - 1];
      FirstOccurrencesDistinct(prefix);
      var f := FirstOccurrences(prefix);
      if KeyOf(last) !in KeysOf(prefix) {
        FirstOccurrencesKeys(prefix);
        var r := f + [last];
        forall i, j | 0 <= i < j < |r| ensures KeyOf(r[i]) != KeyOf(r[j]) {
          if j == |f| {
            assert KeyOf(f[i]) in KeysOf(f);
          } else {
            assert r[i] == f[i] && r[j] == f[j];
          }
        }
      } else {
        assert FirstOccurrences(items) == f + [];
      }
    }
  }

  /** The de-duplication of `onSubmit`: one pass with a set of keys seen. */
  method Dedup(items: seq<Item>) returns (kept: seq<Item>)
    ensures kept == FirstOccurrences(items)
    ensures DistinctKeys(kept)
    ensures KeysOf(kept) == KeysOf(items)
  {
    var seen: set<ItemKey> := {};
    kept := [];
    var n := 0;
    while n < |items|
      invariant 0 <= n <= |items|
      invariant seen == KeysOf(items[..n])
      invariant kept == FirstOccurrences(items[..n])
    {
      var item := items[n];
      assert items[..n + 1][..n] == items[..n];
      if KeyOf(item) !in seen {
        seen := seen + {KeyOf(item)};
        kept := kept + [item];
      }
      n := n + 1;
    }
    assert items[..n] == items;
    FirstOccurrencesDistinct(items);
    FirstOccurrencesKeys(items);
  }

  /** The items `onSubmit` keeps: those with a material, first occurrences
      only, in their original order. */
  method ItemsToSave(items: seq<Item>) returns (kept: seq<Item>)
    ensures kept == FirstOccurrences(Filter(items, HasMaterial))
    ensures forall i :: 0 <= i < |kept| ==> HasMaterial(kept[i]) && kept[i] in items
    ensures forall i :: 0 <= i < |items| && HasMaterial(items[i]) ==> KeyOf(items[i]) in KeysOf(kept)
    ensures DistinctKeys(kept)
  {
    var valid := Filter(items, HasMaterial);
    kept := Dedup(valid);
    FirstOccurrencesSubseq(valid);
  }

  /** Every kept element comes from the input. */
  lemma {:induction false} FirstOccurrencesSubseq(items: seq<Item>)
    ensures forall i :: 0 <= i < |FirstOccurrences(items)| ==> FirstOccurrences(items)[i] in items
  {
    if |items| > 0 {
      var prefix := items[..|items| - 1];
      FirstOccurrencesSubseq(prefix);
      assert forall x :: x in prefix ==> x in items;
    }
  }

  /** The record sent to the server for one item. */
  datatype SavedItem = SavedItem(
    materialId: string,
    categoria: string,
    equipamento: string,
    custoDiario: real,
    quantidade: real,
    dias: real,
    valorUnitario: real,
    valorTotal: real,
    descontoPercentual: real,
    descontoValor: real,
    valorFinal: real,
    posicao: int)

  /** The unit price at save time: the item's own price first
      (`item.valorUnitario ?? material?.custoDiario`). */
  function SavedUnitPrice(item: Item, catalog: seq<Material>): real {
    ParseNumber(Coalesce(item.valorUnitario, CatalogPrice(catalog, item.materialId)), 0.0)
  }

  /** `parseInt(item.posicao, 10)` on a whole-number position. */
  function SavedPosition(p: int): (r: int)
    ensures r == p
  {
    Numbers.IntToStringRoundTrip(p);
    Numbers.ParseInt(Numbers.IntToString(p)).value
  }

  /** One entry of `itensCompletos`; `index` is its place among the kept
      items. */
  function SaveItem(item: Item, index: nat, catalog: seq<Material>): (r: SavedItem)
    ensures r.materialId == item.materialId
    ensures r.valorFinal >= 0.0
    ensures r.custoDiario == r.valorUnitario
    ensures r.valorTotal >= 0.0 && r.descontoPercentual >= 0.0 && r.descontoValor >= 0.0 ==> r.valorFinal <= r.valorTotal
    ensures r.posicao == if item.posicao.Some? then item.posicao.value else index
  {
    var m := FindMaterial(catalog, item.materialId);
    var q := ParseNumber(item.quantidade, 1.0);
    var d := ParseNumber(item.dias, 1.0);
    var u := SavedUnitPrice(item, catalog);
    var pct := ParseNumber(item.descontoPercentual, 0.0);
    var flat := ParseNumber(item.descontoValor, 0.0);
    var sub := q * d * u;
    SavedItem(
      item.materialId,
      if m.Some? && m.value.categoria.Some? then m.value.categoria.value else "",
      if m.Some? && m.value.equipamento.Some? then m.value.equipamento.value else "",
      u, q, d, u, sub, pct, flat,
      NetUnrounded(sub, pct, flat),
      if item.posicao.Some? then SavedPosition(item.posicao.value) else index)
  }

  /** `itensCompletos`: every kept item priced, numbered by its place. */
  function SaveItems(items: seq<Item>, catalog: seq<Material>): (r: seq<SavedItem>)
    ensures |r| == |items|
    ensures forall i :: 0 <= i < |items| ==> r[i] == SaveItem(items[i], i, catalog)
  {
    seq(|items|, i requires 0 <= i < |items| => SaveItem(items[i], i, catalog))
  }

  /** `subtotalItensRequest`: the sum of the saved final values. */
  function RequestSubtotal(saved: seq<SavedItem>): (r: real)
    requires forall i :: 0 <= i < |saved| ==> saved[i].valorFinal >= 0.0
    ensures r >= 0.0
  {
    SumByNonNegative(saved, (s: SavedItem) => s.valorFinal);
    SumBy(saved, (s: SavedItem) => s.valorFinal)
  }

  /** The request subtotal of the saved items is the sum of their final
      values, one item at a time. */
  lemma {:induction false} RequestSubtotalAppend(a: seq<SavedItem>, b: seq<SavedItem>)
    requires forall i :: 0 <= i < |a| ==> a[i].valorFinal >= 0.0
    requires forall i :: 0 <= i < |b| ==> b[i].valorFinal >= 0.0
    ensures forall i :: 0 <= i < |a + b| ==> (a + b)[i].valorFinal >= 0.0
    ensures RequestSubtotal(a + b) == RequestSubtotal(a) + RequestSubtotal(b)
  {
    SumByAppend(a, b, (s: SavedItem) => s.valorFinal);
  }

  /** The figures of a saved line: each factor parsed with its fallback,
      the subtotal their product, and the final value what the discount
      leaves of it. */
  lemma SavedFields(item: Item, index: nat, catalog: seq<Material>)
    ensures var r := SaveItem(item, index, catalog);
            r.quantidade == ParseNumber(item.quantidade, 1.0) &&
            r.dias == ParseNumber(item.dias, 1.0) &&
            r.valorUnitario == SavedUnitPrice(item, catalog) &&
            r.descontoPercentual == ParseNumber(item.descontoPercentual, 0.0) &&
            r.descontoValor == ParseNumber(item.descontoValor, 0.0) &&
            r.valorTotal == r.quantidade * r.dias * r.valorUnitario &&
            r.valorFinal == NetUnrounded(r.valorTotal, r.descontoPercentual, r.descontoValor)
  {
  }

  /** With the same unit price, quantities and days that parse, a subtotal
      in whole cents and no percent discount, the saved value of an item is
      the value the form showed for it. */
  lemma SavedAgreesWithShown(item: Item, index: nat, catalog: seq<Material>)
    requires SavedUnitPrice(item, catalog) == UnitPrice(item, catalog)
    requires ParseFloat(item.quantidade).Some? && ParseFloat(item.dias).Some?
    requires IsCents(Gross(item, catalog))
    requires ParseNumber(item.descontoPercentual, 0.0) <= 0.0
    requires IsCents(ParseNumber(item.descontoValor, 0.0))
    ensures SaveItem(item, index, catalog).valorFinal == ItemTotal(item, catalog)
  {
    var q := ParseNumber(item.quantidade, 1.0);
    var d := ParseNumber(item.dias, 1.0);
    var u := SavedUnitPrice(item, catalog);
    var pct := ParseNumber(item.descontoPercentual, 0.0);
    var flat := ParseNumber(item.descontoValor, 0.0);
    var total := ItemTotal(item, catalog);
    var g := Gross(item, catalog);
    ParsedFactors(item);
    GrossOfFactors(item, catalog, q, d, u);
    assert total == NetUnrounded(q * d * u, pct, flat) by {
      ShownWithoutRounding(item, catalog);
    }
    SavedOfFactors(item, index, catalog, q, d, u, pct, flat);
  }

  /** The saved final value in terms of the parsed factors and discounts. */
  lemma SavedOfFactors(item: Item, index: nat, catalog: seq<Material>, q: real, d: real, u: real, pct: real, flat: real)
    requires q == ParseNumber(item.quantidade, 1.0) && d == ParseNumber(item.dias, 1.0)
    requires u == SavedUnitPrice(item, catalog)
    requires pct == ParseNumber(item.descontoPercentual, 0.0) && flat == ParseNumber(item.descontoValor, 0.0)
    ensures SaveItem(item, index, catalog).valorFinal == NetUnrounded(q * d * u, pct, flat)
  {
    SavedFields(item, index, catalog);
    NetOfEqualFactors(SaveItem(item, index, catalog), q, d, u, pct, flat);
  }

  lemma NetOfEqualFactors(r: SavedItem, q: real, d: real, u: real, pct: real, flat: real)
    requires r.quantidade == q && r.dias == d && r.valorUnitario == u
    requires r.descontoPercentual == pct && r.descontoValor == flat
    requires r.valorTotal == r.quantidade * r.dias * r.valorUnitario
    requires r.valorFinal == NetUnrounded(r.valorTotal, r.descontoPercentual, r.descontoValor)
    ensures r.valorFinal == NetUnrounded(q * d * u, pct, flat)
  {
    ProductOfEquals(r.quantidade, r.dias, r.valorUnitario, q, d, u);
  }

  /** A quantity and a day count that parse have the same value whichever
      fallback is given. */
  lemma ParsedFactors(item: Item)
    requires ParseFloat(item.quantidade).Some? && ParseFloat(item.dias).Some?
    ensures ParseNumber(item.quantidade, 1.0) == Quantity(item)
    ensures ParseNumber(item.dias, 1.0) == Days(item)
  {
    OrZeroIsRedundant(item.quantidade);
    OrZeroIsRedundant(item.dias);
    ParsedIgnoresFallback(item.quantidade, 1.0, 0.0);
    ParsedIgnoresFallback(item.dias, 1.0, 0.0);
  }

  /** With a subtotal in whole cents, no percent discount and a flat
      discount in whole cents, the form's rounding changes nothing. */
  lemma ShownWithoutRounding(item: Item, catalog: seq<Material>)
    requires IsCents(Gross(item, catalog))
    requires ParseNumber(item.descontoPercentual, 0.0) <= 0.0
    requires IsCents(ParseNumber(item.descontoValor, 0.0))
    ensures ItemTotal(item, catalog) == NetUnrounded(Gross(item, catalog), ParseNumber(item.descontoPercentual, 0.0), ParseNumber(item.descontoValor, 0.0))
  {
    var pct := ParseNumber(item.descontoPercentual, 0.0);
    var flat := ParseNumber(item.descontoValor, 0.0);
    var g := Gross(item, catalog);
    assert pct == PercentOf(item) && flat == FlatOf(item) by {
      OrZeroIsRedundant(item.descontoPercentual);
      OrZeroIsRedundant(item.descontoValor);
    }
    assert LineSubtotal(item, catalog) == g by {
      Round2OfCents(g);
    }
    NetFlatNeedsNoRounding(g, pct, flat);
  }

  lemma ProductOfEquals(a: real, b: real, c: real, x: real, y: real, z: real)
    requires a == x && b == y && c == z
    ensures a * b * c == x * y * z
  {
  }

  /** The two pricings take the unit price from opposite places: with a
      catalog price of 10 and an item price of 12, the form shows 10 and
      saves 12. */
  lemma PricesDisagreeOnPrecedence(item: Item, catalog: seq<Material>)
    requires item == Item("m", Num(1.0), Num(1.0), Num(12.0), Num(0.0), Num(0.0), None, None)
    requires catalog == [Material("m", None, None, Num(10.0), None)]
    ensures ItemTotal(item, catalog) == 10.0
    ensures SaveItem(item, 0, catalog).valorFinal == 12.0
  {
    assert FindMaterial(catalog, "m") == Some(catalog[0]);
    assert CatalogPrice(catalog, "m") == Num(10.0);
    assert UnitPrice(item, catalog) == 10.0;
    assert SavedUnitPrice(item, catalog) == 12.0;
    assert Quantity(item) == 1.0 && Days(item) == 1.0;
    assert Gross(item, catalog) == 10.0;
    assert IsCents(10.0) by {
      assert 10.0 * 100.0 == 1000 as real;
    }
    Round2OfCents(10.0);
    assert PercentOf(item) == 0.0 && FlatOf(item) == 0.0;
    NetWithoutDiscount(10.0, 0.0);
    assert NetUnrounded(1.0 * 1.0 * 12.0, 0.0, 0.0) == 12.0;
  }

  /** An absent quantity counts as 0 on the form and as 1 when saved. */
  lemma PricesDisagreeOnMissingQuantity(item: Item)
    requires item == Item("m", Missing, Num(1.0), Num(5.0), Num(0.0), Num(0.0), None, None)
    ensures ItemTotal(item, []) == 0.0
    ensures SaveItem(item, 0, []).valorFinal == 5.0
  {
    assert ItemTotal(item, []) == 0.0 by {
      assert FlatOf(item) == 0.0;
      UnparsableQuantityIsZero(item, []);
    }
    var one := item.(quantidade := Num(1.0));
    assert SaveItem(item, 0, []) == SaveItem(one, 0, []) by {
      MissingQuantitySavedAsOne(item, 0, []);
    }
    OneUnitSaved(one);
  }

  /** One unit for one day at 5 without discounts is saved as 5. */
  lemma OneUnitSaved(item: Item)
    requires item == Item("m", Num(1.0), Num(1.0), Num(5.0), Num(0.0), Num(0.0), None, None)
    ensures SaveItem(item, 0, []).valorFinal == 5.0
  {
    assert SavedUnitPrice(item, []) == 5.0;
    assert NetUnrounded(1.0 * 1.0 * 5.0, 0.0, 0.0) == 5.0;
  }

  /** A quantity that does not parse (absent, empty, not a number) is saved
      as 1: the item saves exactly as if 1 had been typed. */
  lemma MissingQuantitySavedAsOne(item: Item, index: nat, catalog: seq<Material>)
    requires ParseFloat(item.quantidade).None?
    ensures SaveItem(item, index, catalog) == SaveItem(item.(quantidade := Num(1.0)), index, catalog)
  {
    var one := item.(quantidade := Num(1.0));
    assert ParseNumber(item.quantidade, 1.0) == 1.0 == ParseNumber(one.quantidade, 1.0);
    assert SavedUnitPrice(item, catalog) == SavedUnitPrice(one, catalog);
  }

  /** A day count that does not parse is saved as 1 in the same way. */
  lemma MissingDaysSavedAsOne(item: Item, index: nat, catalog: seq<Material>)
    requires ParseFloat(item.dias).None?
    ensures SaveItem(item, index, catalog) == SaveItem(item.(dias := Num(1.0)), index, catalog)
  {
    var one := item.(dias := Num(1.0));
    assert ParseNumber(item.dias, 1.0) == 1.0 == ParseNumber(one.dias, 1.0);
    assert SavedUnitPrice(item, catalog) == SavedUnitPrice(one, catalog);
  }

  /** On save the item's own price wins: once the item carries one, the
      catalog has no effect on the price or the final value; without one
      the catalog price is used. */
  lemma ItemPriceWinsOnSave(item: Item, index: nat, catalog: seq<Material>, other: seq<Material>)
    ensures !item.valorUnitario.Missing? ==>
              SavedUnitPrice(item, catalog) == SavedUnitPrice(item, other) == ParseNumber(item.valorUnitario, 0.0)
    ensures !item.valorUnitario.Missing? ==>
              SaveItem(item, index, catalog).valorFinal == SaveItem(item, index, other).valorFinal
    ensures item.valorUnitario.Missing? ==>
              SavedUnitPrice(item, catalog) == ParseNumber(CatalogPrice(catalog, item.materialId), 0.0)
  {
    if !item.valorUnitario.Missing? {
      var a := SaveItem(item, index, catalog);
      var b := SaveItem(item, index, other);
      assert a.valorTotal == b.valorTotal;
    }
  }
}

=== FILE: seqs.dfy ===
/**
 Array operations the screens use on lists of records: `filter`, `reduce`
 into a sum, and `slice` with JavaScript's clamping of out-of-range bounds.
 */
module Seqs {

  /** `s.filter(p)` */
  function Filter<T>(s: seq<T>, p: T -> bool): (r: seq<T>)
    ensures |r| <= |s|
    ensures forall i :: 0 <= i < |r| ==> p(r[i]) && r[i] in s
    ensures forall i :: 0 <= i < |s| && p(s[i]) ==> s[i] in r
    ensures multiset(r) <= multiset(s)
  {
    if |s| == 0 then []
    else
      var rest := Filter(s[1..], p);
      var r := if p(s[0]) then [s[0]] + rest else rest;
      FilterStep(s, p, rest, r);
      r
  }

  /** One step of `Filter`: keeping or dropping the head of `s` in front of
      a filtered tail keeps the filter's guarantees. */
  lemma FilterStep<T>(s: seq<T>, p: T -> bool, rest: seq<T>, r: seq<T>)
    requires |s| > 0
    requires |rest| <= |s[1..]|
    requires forall i :: 0 <= i < |rest| ==> p(rest[i]) && rest[i] in s[1..]
    requires forall i :: 0 <= i < |s[1..]| && p(s[1..][i]) ==> s[1..][i] in rest
    requires multiset(rest) <= multiset(s[1..])
    requires r == if p(s[0]) then [s[0]] + rest else rest
    ensures |r| <= |s|
    ensures forall i :: 0 <= i < |r| ==> p(r[i]) && r[i] in s
    ensures forall i :: 0 <= i < |s| && p(s[i]) ==> s[i] in r
    ensures multiset(r) <= multiset(s)
  {
    assert s == [s[0]] + s[1..];
    assert multiset(s) == multiset([s[0]]) + multiset(s[1..]);
    forall i | 0 <= i < |r|
      ensures p(r[i]) && r[i] in s
    {
      if p(s[0]) && i == 0 {
        assert r[i] == s[0];
      } else {
        var j := if p(s[0]) then i - 1 else i;
        assert r[i] == rest[j];
        assert rest[j] in s[1..];
      }
    }
    forall i | 0 <= i < |s| && p(s[i])
      ensures s[i] in r
    {
      if i > 0 {
        assert s[i] == s[1..][i - 1];
      }
    }
  }

  /** The filter keeps every copy of an element that passes and none of
      one that does not. */
  lemma {:induction false} FilterCount<T>(s: seq<T>, p: T -> bool, x: T)
    ensures multiset(Filter(s, p))[x] == if p(x) then multiset(s)[x] else 0
  {
    if |s| > 0 {
      FilterCount(s[1..], p, x);
      var rest := Filter(s[1..], p);
      assert s == [s[0]] + s[1..];
      assert multiset(s) == multiset([s[0]]) + multiset(s[1..]);
      if p(s[0]) {
        assert multiset(Filter(s, p)) == multiset([s[0]]) + multiset(rest);
      } else {
        assert Filter(s, p) == rest;
      }
    }
  }

  lemma {:induction false} FilterAppend<T>(a: seq<T>, b: seq<T>, p: T -> bool)
    ensures Filter(a + b, p) == Filter(a, p) + Filter(b, p)
  {
    if |a| > 0 {
      assert (a + b)[1..] == a[1..] + b;
      FilterAppend(a[1..], b, p);
    } else {
      assert a + b == b;
    }
  }

  /** The filter keeps every element exactly when every element passes. */
  lemma {:induction false} FilterKeepsAllIff<T>(s: seq<T>, p: T -> bool)
    ensures |Filter(s, p)| == |s| <==> forall i :: 0 <= i < |s| ==> p(s[i])
    ensures (forall i :: 0 <= i < |s| ==> p(s[i])) ==> Filter(s, p) == s
  {
    if |s| > 0 {
      FilterKeepsAllIff(s[1..], p);
      if forall i :: 0 <= i < |s| ==> p(s[i]) {
        assert forall i :: 0 <= i < |s[1..]| ==> p(s[1..][i]) by {
          forall i | 0 <= i < |s[1..]| ensures p(s[1..][i]) {
            assert s[1..][i] == s[i + 1];
          }
        }
        assert s == [s[0]] + s[1..];
      } else if p(s[0]) {
        var k :| 0 <= k < |s| && !p(s[k]);
        assert !p(s[1..][k - 1]);
      }
    }
  }

  /** `s.reduce((acc, x) => acc + f(x), 0)` */
  function SumBy<T>(s: seq<T>, f: T -> real): real {
    if |s| == 0 then 0.0 else f(s[0]) + SumBy(s[1..], f)
  }

  lemma {:induction false} SumByNonNegative<T>(s: seq<T>, f: T -> real)
    requires forall i :: 0 <= i < |s| ==> f(s[i]) >= 0.0
    ensures SumBy(s, f) >= 0.0
  {
    if |s| > 0 {
      assert forall i :: 0 <= i < |s[1..]| ==> s[1..][i] == s[i + 1];
      SumByNonNegative(s[1..], f);
    }
  }

  lemma {:induction false} SumByAppend<T>(a: seq<T>, b: seq<T>, f: T -> real)
    ensures SumBy(a + b, f) == SumBy(a, f) + SumBy(b, f)
  {
    if |a| > 0 {
      assert (a + b)[1..] == a[1..] + b;
      SumByAppend(a[1..], b, f);
    } else {
      assert a + b == b;
    }
  }

  /** Summing differences is the difference of the sums. */
  lemma {:induction false} SumByDifference<T>(s: seq<T>, f: T -> real, g: T -> real, h: T -> real)
    requires forall x :: h(x) == f(x) - g(x)
    ensures SumBy(s, f) - SumBy(s, h) == SumBy(s, g)
  {
    if |s| > 0 {
      SumByDifference(s[1..], f, g, h);
    }
  }

  /** Sums of functions that agree on the elements are equal. */
  lemma {:induction false} SumByCongruent<T>(s: seq<T>, f: T -> real, g: T -> real)
    requires forall i :: 0 <= i < |s| ==> f(s[i]) == g(s[i])
    ensures SumBy(s, f) == SumBy(s, g)
  {
    if |s| > 0 {
      assert forall i :: 0 <= i < |s[1..]| ==> s[1..][i] == s[i + 1];
      SumByCongruent(s[1..], f, g);
    }
  }

  /** Changing one element changes the sum by the difference at it. */
  lemma {:induction false} SumByChangeOne<T>(s: seq<T>, r: seq<T>, i: nat, f: T -> real)
    requires |r| == |s| && i < |s|
    requires forall k :: 0 <= k < |s| && k != i ==> r[k] == s[k]
    ensures SumBy(r, f) == SumBy(s, f) - f(s[i]) + f(r[i])
  {
    if i == 0 {
      assert r[1..] == s[1..];
    } else {
      SumByChangeOne(s[1..], r[1..], i - 1, f);
    }
  }

  function Min(a: int, b: int): int {
    if a <= b then a else b
  }

  /** `s.slice(start, end)` for non-negative bounds: both are clamped to the
      length, and a reversed range is empty. */
  function Slice<T>(s: seq<T>, start: nat, end: nat): (r: seq<T>)
    ensures |r| == if Min(end, |s|) <= Min(start, |s|) then 0 else Min(end, |s|) - Min(start, |s|)
    ensures forall i :: 0 <= i < |r| ==> start + i < |s| && r[i] == s[start + i]
    ensures start <= end <= |s| ==> r == s[start..end]
  {
    var a := Min(start, |s|);
    var b := Min(end, |s|);
    if b <= a then [] else s[a..b]
  }

  /** `s.slice(0, n)` */
  function Take<T>(s: seq<T>, n: nat): (r: seq<T>)
    ensures |r| == Min(n, |s|) && r == s[..|r|]
  {
    Slice(s, 0, n)
  }
}

=== FILE: sorting.dfy ===
/**
 The two sorts the screens rely on. `Array.prototype.sort` with a numeric
 comparator `(a, b) => key(a) - key(b)` is a stable sort by an integer key;
 `Array.prototype.sort()` with no comparator orders strings by UTF-16 code
 units; the model compares code points, which is the same order for text
 inside the Basic Multilingual Plane.
 Both are modelled as insertion sorts with the properties the engine
 guarantees: the result is ordered, is a permutation of the input, and (for
 the keyed sort) keeps elements with equal keys in their original order.
 */
module Sorting {
  import opened Text
  import opened Seqs

  ghost predicate SortedByKey<T>(s: seq<T>, key: T -> int) {
    forall i, j :: 0 <= i < j < |s| ==> key(s[i]) <= key(s[j])
  }

  /** The elements of `s` whose key is `k`, in their order in `s`. */
  function WithKey<T>(s: seq<T>, key: T -> int, k: int): seq<T> {
    if |s| == 0 then [] else (if key(s[0]) == k then [s[0]] else []) + WithKey(s[1..], key, k)
  }

  /** Places `x` before the first element whose key is not smaller. */
  function InsertByKey<T>(x: T, s: seq<T>, key: T -> int): (r: seq<T>)
    ensures |r| == |s| + 1
    ensures multiset(r) == multiset(s) + multiset{x}
  {
    if |s| == 0 || key(x) <= key(s[0]) then [x] + s
    else
      assert s == [s[0]] + s[1..];
      [s[0]] + InsertByKey(x, s[1..], key)
  }

  lemma {:induction false} InsertByKeySorted<T>(x: T, s: seq<T>, key: T -> int)
    requires SortedByKey(s, key)
    ensures SortedByKey(InsertByKey(x, s, key), key)
  {
    if |s| > 0 && key(x) > key(s[0]) {
      var rest := InsertByKey(x, s[1..], key);
      InsertByKeySorted(x, s[1..], key);
      assert s == [s[0]] + s[1..];
      forall j | 0 <= j < |rest| ensures key(s[0]) <= key(rest[j]) {
        assert rest[j] in multiset(rest);
        assert rest[j] in multiset(s[1..]) + multiset{x};
      }
    }
  }

  lemma {:induction false} InsertByKeyStable<T>(x: T, s: seq<T>, key: T -> int, k: int)
    ensures WithKey(InsertByKey(x, s, key), key, k) == (if key(x) == k then [x] else []) + WithKey(s, key, k)
  {
    if |s| == 0 || key(x) <= key(s[0]) {
      var r := [x] + s;
      assert r[0] == x && r[1..] == s;
    } else {
      var rest := InsertByKey(x, s[1..], key);
      InsertByKeyStable(x, s[1..], key, k);
      var r := [s[0]] + rest;
      assert r[0] == s[0] && r[1..] == rest;
      var head := if key(s[0]) == k then [s[0]] else [];
      var mine := if key(x) == k then [x] else [];
      assert WithKey(r, key, k) == head + WithKey(rest, key, k);
      assert WithKey(s, key, k) == head + WithKey(s[1..], key, k);
      assert head == [] || mine == [];
    }
  }

  /** A stable sort by ascending integer key. */
  function SortByKey<T>(s: seq<T>, key: T -> int): (r: seq<T>)
    ensures |r| == |s|
    ensures multiset(r) == multiset(s)
    ensures SortedByKey(r, key)
    ensures forall k :: WithKey(r, key, k) == WithKey(s, key, k)
  {
    if |s| == 0 then []
    else
      assert s == [s[0]] + s[1..];
      var rest := SortByKey(s[1..], key);
      InsertByKeySorted(s[0], rest, key);
      assert forall k :: WithKey(InsertByKey(s[0], rest, key), key, k) == WithKey(s, key, k) by {
        forall k ensures WithKey(InsertByKey(s[0], rest, key), key, k) == WithKey(s, key, k) {
          InsertByKeyStable(s[0], rest, key, k);
        }
      }
      InsertByKey(s[0], rest, key)
  }

  /** `s.sort(...).slice(0, n)`: the first `n` elements by ascending key; no
      element left out has a smaller key than one that is kept. */
  function FirstByKey<T>(s: seq<T>, key: T -> int, n: nat): (r: seq<T>)
    ensures |r| == Min(n, |s|)
    ensures multiset(r) <= multiset(s)
    ensures |s| <= n ==> multiset(r) == multiset(s)
    ensures SortedByKey(r, key)
    ensures forall x, i :: x in multiset(s) - multiset(r) && 0 <= i < |r| ==> key(r[i]) <= key(x)
  {
    var sorted := SortByKey(s, key);
    var r := Take(sorted, n);
    assert sorted == r + sorted[|r|..];
    PrefixKeysLeast(sorted, key, |r|);
    r
  }

  /** In a sequence sorted by key, no element after a prefix has a smaller
      key than one inside it. */
  lemma PrefixKeysLeast<T>(sorted: seq<T>, key: T -> int, k: nat)
    requires k <= |sorted| && SortedByKey(sorted, key)
    ensures forall x, i :: x in multiset(sorted) - multiset(sorted[..k]) && 0 <= i < k ==> key(sorted[..k][i]) <= key(x)
  {
    var r := sorted[..k];
    var rest := sorted[k..];
    assert sorted == r + rest;
    assert multiset(sorted) - multiset(r) == multiset(rest);
    forall x, i | x in multiset(rest) && 0 <= i < k ensures key(r[i]) <= key(x) {
      var j :| 0 <= j < |rest| && rest[j] == x;
      assert sorted[i] == r[i] && sorted[k + j] == x;
    }
  }

  ghost predicate SortedStrings(s: seq<string>) {
    forall i, j :: 0 <= i < j < |s| ==> !Below(s[j], s[i])
  }

  lemma NotBelowTransitive(a: string, b: string, c: string)
    requires !Below(b, a) && !Below(c, b)
    ensures !Below(c, a)
  {
    BelowTotal(a, b);
    BelowTotal(b, c);
    if a != b && b != c {
      BelowTransitive(a, b, c);
    }
    if Below(a, c) || a == c {
      if Below(c, a) {
        if a == c {
          BelowIrreflexive(a);
        } else {
          BelowAsymmetric(a, c);
        }
      }
    }
  }

  function InsertString(x: string, s: seq<string>): (r: seq<string>)
    ensures |r| == |s| + 1
    ensures multiset(r) == multiset(s) + multiset{x}
  {
    if |s| == 0 || !Below(s[0], x) then [x] + s
    else
      assert s == [s[0]] + s[1..];
      [s[0]] + InsertString(x, s[1..])
  }

  lemma {:induction false} InsertStringSorted(x: string, s: seq<string>)
    requires SortedStrings(s)
    ensures SortedStrings(InsertString(x, s))
  {
    if |s| == 0 || !Below(s[0], x) {
      forall j | 0 <= j < |s| ensures !Below(s[j], x) {
        if j > 0 {
          NotBelowTransitive(x, s[0], s[j]);
        }
      }
    } else {
      var rest := InsertString(x, s[1..]);
      InsertStringSorted(x, s[1..]);
      assert s == [s[0]] + s[1..];
      BelowAsymmetric(s[0], x);
      forall j | 0 <= j < |rest| ensures !Below(rest[j], s[0]) {
        assert rest[j] in multiset(rest);
        assert rest[j] in multiset(s[1..]) + multiset{x};
      }
    }
  }

  /** `names.sort()` on strings. */
  function SortStrings(s: seq<string>): (r: seq<string>)
    ensures |r| == |s|
    ensures multiset(r) == multiset(s)
    ensures SortedStrings(r)
  {
    if |s| == 0 then []
    else
      assert s == [s[0]] + s[1..];
      var rest := SortStrings(s[1..]);
      InsertStringSorted(s[0], rest);
      InsertString(s[0], rest)
  }
}

=== FILE: text.dfy ===
/**
 The string primitives the screens rely on: JavaScript's whitespace class,
 `trim`, `toLowerCase`, `includes`, and string order. The order compares
 characters by code point; the default `Array.prototype.sort` compares
 UTF-16 code units, and the two agree on text inside the Basic Multilingual
 Plane.
 */
module Text {

  /** The characters `trim()` and the regular-expression class `\s` treat as
      blank: tab, line feed, vertical tab, form feed, carriage return, the
      space separators of Unicode category Zs, the line and paragraph
      separators, and the byte-order mark. */
  predicate IsSpace(c: char) {
    var n := c as int;
    c == ' ' || 9 <= n <= 13 || n == 0xA0 || n == 0x1680 || 0x2000 <= n <= 0x200A ||
    n == 0x2028 || n == 0x2029 || n == 0x202F || n == 0x205F || n == 0x3000 || n == 0xFEFF
  }

  predicate IsDigit(c: char) {
    '0' <= c <= '9'
  }

  predicate AllSpace(s: string) {
    forall i :: 0 <= i < |s| ==> IsSpace(s[i])
  }

  /** `s.trimStart()` */
  function TrimStart(s: string): (r: string)
    ensures |r| <= |s| && r == s[|s| - |r|..]
    ensures |r| > 0 ==> !IsSpace(r[0])
    ensures AllSpace(s[..|s| - |r|])
  {
    if |s| > 0 && IsSpace(s[0]) then TrimStart(s[1..]) else s
  }

  /** `s.trimEnd()` */
  function TrimEnd(s: string): (r: string)
    ensures |r| <= |s| && r == s[..|r|]
    ensures |r| > 0 ==> !IsSpace(r[|r| - 1])
    ensures AllSpace(s[|r|..])
  {
    if |s| > 0 && IsSpace(s[|s| - 1]) then TrimEnd(s[..|s| - 1]) else s
  }

  /** `s.trim()` */
  function Trim(s: string): (r: string)
    ensures |r| <= |s|
    ensures |r| > 0 ==> !IsSpace(r[0]) && !IsSpace(r[|r| - 1])
  {
    TrimEnd(TrimStart(s))
  }

  lemma {:induction false} TrimStartEmptyIff(s: string)
    ensures TrimStart(s) == "" <==> AllSpace(s)
  {
    if |s| > 0 && IsSpace(s[0]) {
      TrimStartEmptyIff(s[1..]);
      assert AllSpace(s) <==> AllSpace(s[1..]) by {
        if AllSpace(s[1..]) {
          forall i | 0 <= i < |s| ensures IsSpace(s[i]) {
            if i > 0 { assert s[i] == s[1..][i - 1]; }
          }
        }
      }
    }
  }

  lemma {:induction false} TrimEndEmptyIff(s: string)
    ensures TrimEnd(s) == "" <==> AllSpace(s)
  {
    if |s| > 0 && IsSpace(s[|s| - 1]) {
      TrimEndEmptyIff(s[..|s| - 1]);
      assert AllSpace(s) <==> AllSpace(s[..|s| - 1]) by {
        if AllSpace(s[..|s| - 1]) {
          forall i | 0 <= i < |s| ensures IsSpace(s[i]) {
            if i < |s| - 1 { assert s[i] == s[..|s| - 1][i]; }
          }
        }
      }
    }
  }

  /** A string is blank (`!s.trim()` holds) exactly when every character is
      whitespace. */
  lemma BlankIffAllSpace(s: string)
    ensures Trim(s) == "" <==> AllSpace(s)
  {
    var t := TrimStart(s);
    TrimEndEmptyIff(t);
    TrimStartEmptyIff(s);
    if AllSpace(t) {
      assert |t| == 0;
      assert s[..|s|] == s;
    }
  }

  /** ASCII `toLowerCase` of one character. */
  function LowerChar(c: char): char {
    if 'A' <= c <= 'Z' then (c as int + 32) as char else c
  }

  /** `s.toLowerCase()`, restricted to the ASCII letters. */
  function Lower(s: string): (r: string)
    ensures |r| == |s|
    ensures forall i :: 0 <= i < |s| ==> r[i] == LowerChar(s[i])
  {
    seq(|s|, i requires 0 <= i < |s| => LowerChar(s[i]))
  }

  /** `s.includes(t)` */
  predicate Contains(s: string, t: string) {
    exists i | 0 <= i <= |s| - |t| :: OccursAt(s, t, i)
  }

  predicate OccursAt(s: string, t: string, i: int) {
    0 <= i && i + |t| <= |s| && s[i..i + |t|] == t
  }

  lemma EveryStringContainsEmpty(s: string)
    ensures Contains(s, "")
  {
    assert OccursAt(s, "", 0);
  }

  /** `a < b` on strings: lexicographic order of characters, a proper prefix
      coming first. */
  predicate Below(a: string, b: string) {
    if |a| == 0 then |b| > 0
    else if |b| == 0 then false
    else if a[0] != b[0] then a[0] < b[0]
    else Below(a[1..], b[1..])
  }

  lemma {:induction false} BelowIrreflexive(a: string)
    ensures !Below(a, a)
  {
    if |a| > 0 {
      BelowIrreflexive(a[1..]);
    }
  }

  lemma {:induction false} BelowTransitive(a: string, b: string, c: string)
    requires Below(a, b) && Below(b, c)
    ensures Below(a, c)
  {
    if |a| > 0 && a[0] == b[0] && b[0] == c[0] {
      BelowTransitive(a[1..], b[1..], c[1..]);
    }
  }

  lemma {:induction false} BelowTotal(a: string, b: string)
    ensures a == b || Below(a, b) || Below(b, a)
  {
    if |a| > 0 && |b| > 0 && a[0] == b[0] {
      BelowTotal(a[1..], b[1..]);
      if a[1..] == b[1..] {
        assert a == [a[0]] + a[1..] && b == [b[0]] + b[1..];
      }
    }
  }

  lemma BelowAsymmetric(a: string, b: string)
    requires Below(a, b)
    ensures !Below(b, a)
  {
    if Below(b, a) {
      BelowTransitive(a, b, a);
      BelowIrreflexive(a);
    }
  }
}

=== FILE: values.dfy ===
/**
 Field values as the budget screens read them, the `parseNumber` coercion
 every price computation goes through (OrcamentoForm.js:44-47), JavaScript
 truthiness, and the two-decimal rounding `Number(x.toFixed(2))`.
 */
module Values {
  import opened Options
  import Numbers

  /** A value read from a form field or a JSON document: absent (`undefined`
      or `null`), a number, or the text a user typed. */
  datatype Raw = Missing | Num(n: real) | Str(s: string)

  /** `parseFloat(x)`, with NaN made explicit as `None`. */
  function ParseFloat(x: Raw): Option<real> {
    match x
    case Missing => None
    case Num(n) => Some(n)
    case Str(s) => Numbers.ParseFloat(s)
  }

  /** `parseNumber(value, fallback)`: the parsed number, or the fallback
      when parsing gives NaN. */
  function ParseNumber(x: Raw, fallback: real): real {
    ParseFloat(x).GetOr(fallback)
  }

  /** A number is taken as it is; an absent field and empty text give the
      fallback, and so does any text without a leading number. */
  lemma ParseNumberCases(x: Raw, fallback: real)
    ensures x.Num? ==> ParseNumber(x, fallback) == x.n
    ensures x.Missing? || x == Str("") ==> ParseNumber(x, fallback) == fallback
    ensures ParseFloat(x).None? ==> ParseNumber(x, fallback) == fallback
  {
    if x == Str("") {
      Numbers.ParseFloatOfEmpty();
    }
  }

  /** A value that parses does not depend on the fallback. */
  lemma ParsedIgnoresFallback(x: Raw, a: real, b: real)
    requires ParseFloat(x).Some?
    ensures ParseNumber(x, a) == ParseNumber(x, b) == ParseFloat(x).value
  {
  }

  /** Integer text typed into a field reads as that integer, whatever the
      fallback. */
  lemma ParseNumberOfIntText(n: int, fallback: real)
    ensures ParseNumber(Str(Numbers.IntToString(n)), fallback) == n as real
  {
    Numbers.IntToStringParsesAsFloat(n);
  }

  /** JavaScript truthiness of a field value (NaN does not arise). */
  predicate Truthy(x: Raw) {
    match x
    case Missing => false
    case Num(n) => n != 0.0
    case Str(s) => s != ""
  }

  /** `x || 0` */
  function OrZero(x: Raw): Raw {
    if Truthy(x) then x else Num(0.0)
  }

  /** `a ?? b` */
  function Coalesce(a: Raw, b: Raw): Raw {
    if a.Missing? then b else a
  }

  /** JavaScript truthiness of a stored number: present and not 0. */
  predicate Given(x: Option<real>) {
    x.Some? && x.value != 0.0
  }

  /** A number kept only when truthy: `x || fallback` on a numeric field. */
  function OrElse(x: Option<real>, fallback: real): real {
    if Given(x) then x.value else fallback
  }

  /** The screens write `parseNumber(x || 0, 0)`; the `|| 0` changes nothing. */
  lemma OrZeroIsRedundant(x: Raw)
    ensures ParseNumber(OrZero(x), 0.0) == ParseNumber(x, 0.0)
  {
    ParseNumberCases(x, 0.0);
  }

  function Max(a: real, b: real): (r: real)
    ensures r >= a && r >= b && (r == a || r == b)
  {
    if a >= b then a else b
  }

  /** A whole number of cents. */
  predicate IsCents(x: real) {
    (x * 100.0).Floor as real == x * 100.0
  }

  function HalfUpCents(x: real): (r: real)
    requires x >= 0.0
    ensures r >= 0.0 && IsCents(r)
    ensures x - 0.005 <= r <= x + 0.005
  {
    var n := (x * 100.0 + 0.5).Floor;
    assert n as real <= x * 100.0 + 0.5 < n as real + 1.0;
    var r := n as real / 100.0;
    assert r * 100.0 == n as real;
    assert (n as real).Floor == n;
    r
  }

  /** `Number(x.toFixed(2))` on an exact real: the nearest whole number of
      cents, halves rounded away from zero. */
  function Round2(x: real): (r: real)
    ensures IsCents(r)
    ensures x >= 0.0 ==> r >= 0.0
    ensures x <= 0.0 ==> r <= 0.0
    ensures x - 0.005 <= r <= x + 0.005
  {
    if x >= 0.0 then HalfUpCents(x)
    else
      var h := HalfUpCents(-x);
      CentsNegated(h);
      -h
  }

  lemma CentsNegated(x: real)
    requires IsCents(x)
    ensures IsCents(-x)
  {
    var n := (x * 100.0).Floor;
    assert -x * 100.0 == (-n) as real;
  }

  /** Rounding never reverses the order of two amounts. */
  lemma Round2Monotone(x: real, y: real)
    requires x <= y
    ensures Round2(x) <= Round2(y)
  {
    if 0.0 <= x {
      var a := x * 100.0 + 0.5;
      var b := y * 100.0 + 0.5;
      assert a.Floor <= b.Floor;
    } else if y < 0.0 {
      var a := -y * 100.0 + 0.5;
      var b := -x * 100.0 + 0.5;
      assert a.Floor <= b.Floor;
    }
  }

  /** An amount already in whole cents is left alone. */
  lemma Round2OfCents(x: real)
    requires IsCents(x)
    ensures Round2(x) == x
  {
    var n := (x * 100.0).Floor;
    if x >= 0.0 {
      assert (x * 100.0 + 0.5).Floor == n;
    } else {
      assert (-x * 100.0 + 0.5).Floor == -n;
    }
  }

  lemma Round2Idempotent(x: real)
    ensures Round2(Round2(x)) == Round2(x)
  {
    Round2OfCents(Round2(x));
  }

  lemma CentsClosed(a: real, b: real)
    requires IsCents(a) && IsCents(b)
    ensures IsCents(a + b) && IsCents(a - b) && IsCents(Max(a, b)) && IsCents(0.0)
  {
    var na := (a * 100.0).Floor;
    var nb := (b * 100.0).Floor;
    assert (a + b) * 100.0 == (na + nb) as real by {
      assert (a + b) * 100.0 == a * 100.0 + b * 100.0;
    }
    assert ((na + nb) as real).Floor == na + nb;
    assert (a - b) * 100.0 == (na - nb) as real by {
      assert (a - b) * 100.0 == a * 100.0 - b * 100.0;
    }
    assert ((na - nb) as real).Floor == na - nb;
  }
}
